=== FILE: README.md ===
# inthistweet media core, modelled in Dafny

This project models the media-handling core of inthistweet, a web app that
downloads the photos, videos and GIFs of a tweet. Each part has its own
module:

- **TweetMedia** (`tweet_media.dfy`): the tweet media normaliser of
  `src/lib/get-tweet.ts`. It covers:
  - the resolution bands of a bitrate;
  - the variant ordering;
  - photo and video variants;
  - card media, including `unified_card` carousels;
  - the six-part concatenation that `extractAndFormatMedia` returns.
- **LegacyExtract** (`legacy_extract.dfy`): the older extractor of `src/utils.ts`.
  - `getTweetDetails` and `getCardDetails` are covered.
  - `getMediaURL` is covered, including its host check and its walk down the chain of quoted tweets.
- **UrlKeys** (`url_keys.dfy`): `urlToFilePath`, the storage key of a downloaded URL.
- **Traverse** (`traverse.dfy`): `traverseM3U8Manifests`, the recursive HLS download.
  - The method follows the source's batches.
  - It is proved equal to a one-URI-at-a-time reference semantics.
- **M3uParser** (`m3u_parser.dfy`): the extended-M3U line parser `M3U8Parser`. It covers:
  - `parse`, a state machine over lines;
  - `write`, including a write/parse round trip;
  - group filtering and its cache.
- **RangeRequests** (`range_requests.dfy`): the service worker's byte-range plugin. It covers:
  - `parseRangeHeader`, `calculateEffectiveBoundaries` and `createPartialResponse`;
  - the `cachedResponseWillBeUsed` callback and `urlPattern`.
  - These are compared with the selection that section 2.1 of RFC 7233 defines.
- **Collections** (`collections.dfy`): `chunk` and `diff`.
- **Transcode** (`transcode.dfy`): `getMediaType`.

Shared definitions:
- `base.dfy` defines Option, Result and bytes.
- `payload.dfy` holds the tweet JSON shapes.
- `text.dfy` holds character classes, JavaScript `trim` and decimal digits.
- `seqs.dfy` defines de-duplication, filtering, split, join and flatten.
- `sorting.dfy` is a stable insertion sort standing for `Array.prototype.sort`.

Everything the code receives from outside is a parameter:
- the network;
- `JSON.parse` of card payloads;
- the WHATWG URL parser;
- the playlist codec used by the traversal;
- the floating-point aspect-ratio comparison.

## Model

| member | source | states |
|---|---|---|
| TweetMedia.ApproximateResolution | src/lib/get-tweet.ts:61-69 | the label is one of the five bands, and it ranks above zero exactly when the bitrate exceeds 2,000,000 |
| TweetMedia.ResolutionBands | src/lib/get-tweet.ts:61-69 | each label is returned exactly on its band: above 5M is 1080p, above 2M is 720p, above 1M is 480p, above 500k is 360p, and anything else is 240p |
| TweetMedia.ResolutionBoundaries | src/lib/get-tweet.ts:62-68 | each bound is strict: 5,000,000 is still 720p and 500,000 is still 240p |
| TweetMedia.QualityRanks | src/lib/get-tweet.ts:108-116 | '1080p' ranks 1080 and '720p' ranks 720; every other label, including 480p and below, ranks 0 |
| TweetMedia.ResolutionMonotone | src/lib/get-tweet.ts:61-69 | a higher bitrate never gets a lower-ranked quality |
| TweetMedia.SortVariants | src/lib/get-tweet.ts:78-97 | the result is a permutation; for video and GIF it is in non-increasing quality rank; any other non-photo type is returned unchanged |
| TweetMedia.SortVariantsStable | src/lib/get-tweet.ts:90-93 | the sort is stable: variants of equal rank keep their input order |
| TweetMedia.ExtractVariants | src/lib/get-tweet.ts:125-160 | a photo gives one variant: its URL, 'original', its width:height ratio, 'image/jpeg' and its alt text; a video or GIF gives one 'video/mp4' variant per MP4 rendition, with the joined aspect ratio and no alt text; other types give none |
| TweetMedia.VideoVariantsOrdered | src/lib/get-tweet.ts:141-156 | the MP4 renditions are a permutation of the input's, in non-increasing bitrate and stable among equal bitrates; each variant carries its rendition's URL and the resolution of its bitrate |
| TweetMedia.ExtractVariantsIgnoresRatio | src/lib/get-tweet.ts:83-89 | the floating-point aspect-ratio comparison never changes the variants |
| TweetMedia.ExtractCardMedia | src/lib/get-tweet.ts:169-229 | the card's media is the first card image, if any, followed by every unified card's media, matching the independent `CardImage`/`AllUnified` reference |
| TweetMedia.CollectClosedForm | src/lib/get-tweet.ts:175-223 | the loop over binding values is equal to its closed form: with no items yet, the first image, then every unified carousel in binding order |
| TweetMedia.ComponentItemsSpec | src/lib/get-tweet.ts:206-220 | one item per component that names a known media entity, in component order, with that entity's type and variants |
| TweetMedia.ParseFailureContributesNothing | src/lib/get-tweet.ts:196-221 | a `unified_card` payload that fails to parse adds nothing |
| TweetMedia.LaterImagesDropped | src/lib/get-tweet.ts:177-191 | only the first image binding becomes an item, and only while nothing has been collected yet |
| TweetMedia.NoImageAfterCarousel | src/lib/get-tweet.ts:177-180 | an image binding after a non-empty carousel is dropped |
| TweetMedia.OwnMediaSpec | src/lib/get-tweet.ts:244-266 | one item per media entry, in order, with its type and extracted variants |
| TweetMedia.ExtractAndFormatMedia | src/lib/get-tweet.ts:237-287 | the result is, in order: the tweet's own media, the quoted tweet's, the parent's, then the three cards' media |
| TweetMedia.ExtractAndFormatMediaIgnoresRatio | src/lib/get-tweet.ts:83-89 | the result is the same for every aspect-ratio comparator, and every photo item holds exactly one variant |
| LegacyExtract.LegacyItemOf | src/utils.ts:10-20 | a video or GIF becomes ('video', URL of the first rendition of highest numeric bitrate), and fails exactly when no rendition has a numeric bitrate; any other type keeps its type and `media_url_https` |
| LegacyExtract.GetTweetDetails | src/utils.ts:8-22 | succeeds exactly when every entry does, and maps the entries one for one |
| LegacyExtract.VideoWithoutBitrateThrows | src/utils.ts:13-17 | a video whose renditions all lack a bitrate makes the whole call throw (`variants[0]` is undefined) |
| LegacyExtract.GetCardDetails | src/utils.ts:24-38 | a `unified_card` gives `getTweetDetails` over the media-entity values, and throws exactly when the payload is missing or unparsable, has no entities, or holds an entry that throws; otherwise there are no items without a thumbnail binding and one photo with one, and a thumbnail binding with no image throws |
| LegacyExtract.AggregateChain | src/utils.ts:59-79 | the loop equals the recursive chain: own media, own card, then the quoted tweet's chain; any failure aborts all |
| LegacyExtract.GetMediaURL | src/utils.ts:40-83 | only hostname 'twitter.com' passes; a path that does not match the status pattern gives undefined; otherwise the result is the chain's items, or a throw when the chain fails |
| LegacyExtract.ChainIgnoresParent | src/utils.ts:69-79 | only `quoted_tweet` is followed, never the parent |
| LegacyExtract.ChainOrder | src/utils.ts:59-79 | a tweet's own items come before all of its quoted tweet's |
| UrlKeys.UrlToFilePath | src/lib/m3u8/urls.ts:11-21 | a key exists exactly when the URL parses, and it is built from the parsed origin and pathname |
| UrlKeys.KeyShape | src/lib/m3u8/urls.ts:16-20 | the key is as long as origin plus path; its origin part holds no ':' or '/', and its path part holds only `[a-zA-Z0-9-_./]` |
| UrlKeys.SanitizePathFixpoint | src/lib/m3u8/urls.ts:16 | a path is left unchanged exactly when it already uses only allowed characters |
| UrlKeys.SanitizePathIdempotent | src/lib/m3u8/urls.ts:16 | sanitising twice is sanitising once |
| UrlKeys.KeyIgnoresQueryAndFragment | src/lib/m3u8/urls.ts:12-20 | the query and the fragment never reach the key |
| UrlKeys.KeysCollide | src/lib/m3u8/urls.ts:16 | the different paths '/a~b.ts' and '/a_b.ts' share a key |
| Traverse.TraverseManifests | src/lib/m3u8/traverse.ts:41-107 | the batched traversal succeeds exactly when the reference `Traversal` does, with the same file map and the same fetch order |
| Traverse.RunWorklist | src/lib/m3u8/traverse.ts:60-95 | the batch loop computes exactly the one-at-a-time exploration `Explore` |
| Traverse.FetchBatch | src/lib/m3u8/traverse.ts:65-69 | `Promise.all`: every body in batch order, or a rejection when any URI fails to resolve or fetch |
| Traverse.ProcessFetchedSpec | src/lib/m3u8/traverse.ts:72-94 | handling one URI fails exactly on a missing key, an unparsable playlist or an unkeyable new location; otherwise it appends the unseen locations, writes exactly one file, and leaves other files unchanged |
| Traverse.DiscoverSpec | src/lib/m3u8/traverse.ts:82-91 | a sub-playlist keeps only its truthy, unseen, first-occurrence entries, each with its location replaced by the key |
| Traverse.RewriteRoot | src/lib/m3u8/traverse.ts:52-57 | the root keeps every entry, with its location replaced by its key; an absent or unkeyable location throws |
| Traverse.TraversalVisitsEachOnce | src/lib/m3u8/traverse.ts:52-62 | no URI is fetched twice, and the root's distinct locations come first, in order |
| Traverse.TraversalFiles | src/lib/m3u8/traverse.ts:74-98 | the file map has one entry per fetched URI's key plus the base URL's key, which holds the rewritten root |
| Traverse.TraversalClosed | src/lib/m3u8/traverse.ts:59-95 | every root location is fetched, and so is every location of every fetched playlist |
| Traverse.RootFetchFailureIsFatal | src/lib/m3u8/traverse.ts:65-69 | a single root location that cannot be fetched makes the whole call return undefined |
| Traverse.Splice | src/lib/m3u8/traverse.ts:62 | the batch and the remainder together make up the worklist; the batch is empty for a count of zero or less, and otherwise holds min(count, length) URIs |
| Traverse.NonPositiveBatchStalls | src/lib/m3u8/traverse.ts:60-62 | with a batch size of zero or less, a round takes nothing off the worklist |
| Traverse.PositiveBatchProgresses | src/lib/m3u8/traverse.ts:60-62 | with a positive batch size, every round removes a non-empty batch |
| Traverse.ClampedBatchSize | src/lib/m3u8/traverse.ts:60-62 | the corrected batch size is at least one, and equals the caller's size whenever that is positive |
| Traverse.ClampedBatchProgresses | src/lib/m3u8/traverse.ts:60-62 | with the batch size clamped to at least one, every round on a non-empty worklist shortens it |
| Traverse.TraverseManifestsClamped | src/lib/m3u8/traverse.ts:41-107 | with the clamped batch size, every batch size, positive or not, ends with the reference outcome |
| M3uParser.Parse | src/lib/m3u8/parser.ts:31-40 | parsing succeeds exactly when the first '\n'-line starts with '#EXTM3U', and that untrimmed line becomes the header |
| M3uParser.New | src/lib/m3u8/parser.ts:20-29 | an empty playlist gives an empty parser without being parsed; any other is parsed |
| M3uParser.ExtInfOpens | src/lib/m3u8/parser.ts:46-47 | an `#EXTINF:` line replaces the pending slot with a fresh entry whose index is the line number plus one |
| M3uParser.UrlLineCloses | src/lib/m3u8/parser.ts:54-76 | a line with a URL before '\|' completes the pending entry: URL, referer parameter, merged raw text, group recorded, next slot |
| M3uParser.BlankLineMerges | src/lib/m3u8/parser.ts:77-85 | a line with no URL appends to the pending entry's raw text and adds its group title to the groups, and changes no finished entry |
| M3uParser.VlcOptResetsRaw | src/lib/m3u8/parser.ts:140-157 | `#EXTVLCOPT:` replaces the raw text with '\r\n' and the line, sets both HTTP fields from the options ('' when an option is absent, so an `#EXTINF` user agent is lost), and keeps the URL, group title, `#EXTINF` fields, finished entries and groups |
| M3uParser.VlcOptWithoutUserAgentClearsIt | src/lib/m3u8/parser.ts:147-150 | a `#EXTVLCOPT:` line with no user-agent option leaves the entry's user agent empty, even when `#EXTINF` set one, because `getOption` gives '' and `??` keeps it |
| M3uParser.GroupAppends | src/lib/m3u8/parser.ts:121-138 | `#EXTGRP:` sets the group title to the value after ':' and appends the line to the raw text |
| M3uParser.IgnoredWithoutPending | src/lib/m3u8/parser.ts:49-56 | with no pending slot, every line but `#EXTINF:` is ignored |
| M3uParser.TagsExclusive | src/lib/m3u8/parser.ts:46-53 | no line carries two of the three tags, so the branch order does not matter |
| M3uParser.EntriesOnExtInfLines | src/lib/m3u8/parser.ts:159-186 | every entry's index points one past an `#EXTINF:` line, and indices increase along the entries |
| M3uParser.WriteParseRoundTrip | src/lib/m3u8/parser.ts:293-299 | for a canonical playlist (header plus one or more `#EXTINF`/URL pairs), writing the parse gives back the text |
| M3uParser.PlaylistItems | src/lib/m3u8/parser.ts:256-260 | the filter keeps exactly the entries whose lowered group title starts with the lowered query, in order, with each such entry as many times as it occurs in the input and no other entry |
| M3uParser.CacheKey | src/lib/m3u8/parser.ts:239 | the key is empty exactly for the empty group; otherwise it has 2n-1 characters and starts with the group's first |
| M3uParser.CacheKeyInjective | src/lib/m3u8/parser.ts:239 | distinct groups never share a cache key |
| M3uParser.PlaylistByGroup | src/lib/m3u8/parser.ts:238-254 | a cached key returns the cached playlist and leaves the cache unchanged; otherwise it builds the filtered playlist and stores it, keeping every earlier entry |
| M3uParser.CachedAnswerIsFresh | src/lib/m3u8/parser.ts:238-254 | on a coherent cache, the answer is always the freshly filtered playlist, and the cache stays coherent |
| M3uParser.RepeatedQueryIsCached | src/lib/m3u8/parser.ts:238-254 | asking the same group twice gives the same playlist and the same cache |
| RangeRequests.ParseNormalized | range-requests.mjs:187-224 | the result is an error: without 'bytes=', with a ',', or with no digits around the first '-'; otherwise the range is read from the digit runs on either side of that '-' |
| RangeRequests.ParseIgnoresCaseAndSpace | range-requests.mjs:186 | parsing a header is parsing its trimmed, lower-cased form |
| RangeRequests.ExecAtFirstDash | range-requests.mjs:209 | the first match of `(\d*)-(\d*)` is the digit run before the first '-' and the run after it |
| RangeRequests.ParseFormatRoundTrip | range-requests.mjs:185-225 | every range written 'bytes=a-b', 'bytes=a-' or 'bytes=-n' parses back to itself |
| RangeRequests.EffectiveBoundaries | range-requests.mjs:237-271 | an error exactly when the last position or suffix exceeds the size; otherwise an inclusive last becomes an exclusive end, and a suffix becomes a start measured from the end |
| RangeRequests.SliceIsRfcSelection | range-requests.mjs:245-270 | whenever both the code and section 2.1 of RFC 7233 answer, the bytes sent are the ones the RFC selects |
| RangeRequests.StartPastEndAccepted | range-requests.mjs:246-261 | a start at or past the end is answered with an empty 206, where the RFC asks for a 416 |
| RangeRequests.LongSuffixRefused | range-requests.mjs:246-251 | a suffix longer than the body is refused, where the RFC selects the whole body |
| RangeRequests.RfcBoundaries | range-requests.mjs:237-271 | corrected boundaries: an answer exactly when the RFC selects something, and then a non-empty span inside the body |
| RangeRequests.RfcHeadersConsistent | range-requests.mjs:316-318 | with the corrected boundaries, Content-Range's last position is inside the body, and Content-Length is the length of the reported span |
| RangeRequests.RfcBoundariesAgree | range-requests.mjs:246-270 | the correction changes no answer where the code answers, the RFC selects, and the last position lies inside the body |
| RangeRequests.RfcBoundariesOnDivergences | range-requests.mjs:246-270 | the corrected boundaries give 'bytes 0-9/10' for 'bytes=0-10' on ten bytes, refuse a start past the end, and send the whole body for a long suffix |
| RangeRequests.TryPartialResponse | range-requests.mjs:298-319 | fails exactly when the Range header is missing or empty, does not parse, or is not satisfiable; otherwise it is the 206 built from the effective span |
| RangeRequests.CreatePartialResponse | range-requests.mjs:291-336 | an existing 206 passes through; otherwise a 206 exactly when a partial response could be built, and then it is the original sliced to the effective span with its two headers added; the 416 response in every other case |
| RangeRequests.PartialKeepsHeaders | range-requests.mjs:309-318 | the 206 keeps every original header and adds exactly Content-Length and Content-Range |
| RangeRequests.ContentLengthIsBodyLength | range-requests.mjs:308-316 | a sliced 206's Content-Length is its body's length |
| RangeRequests.FromToAnswered | range-requests.mjs:254-258 | 'bytes=a-b' with b within the size sends `slice(a, b+1)`, with Content-Range 'bytes a-b/size' |
| RangeRequests.InBodyRangeAnswered | range-requests.mjs:291-319 | a range inside the body sends exactly those bytes, with matching headers |
| RangeRequests.ContentRangeNotClamped | range-requests.mjs:246-258 | 'bytes=0-10' on ten bytes sends all ten but reports 'bytes 0-10/10' |
| RangeRequests.EmptyRangeHeaderRefused | range-requests.mjs:298-303 | a present but empty Range header gives the 416 |
| RangeRequests.CachedResponseWillBeUsed | range-requests.mjs:360-373 | only a cached response to a request that has a Range header is sliced; anything else passes through |
| RangeRequests.UrlPatternMatches | range-requests.mjs:376-380 | the plugin applies exactly to the destinations 'video' and 'audio', compared case-sensitively |
| Collections.Chunk | src/components/ffmpeg.ts:105-128 | throws exactly for a size of zero or less; otherwise gives the recursive chunks, which flatten to the input, number ceil(n/size), are all full but the last, and the last holds 1 to size elements |
| Collections.ChunksFlatten | src/components/ffmpeg.ts:119-125 | concatenating the chunks gives the input back |
| Collections.ChunksCount | src/components/ffmpeg.ts:116 | there are `Math.ceil(length / size)` chunks |
| Collections.ChunksSizes | src/components/ffmpeg.ts:119-125 | every chunk but the last holds exactly `size` elements, and the last is non-empty |
| Collections.ChunkSevenByThree | src/components/ffmpeg.ts:91-102 | seven elements in chunks of three give pieces of 3, 3 and 1 |
| Collections.Diff | src/lib/utils/diff.ts:9-14 | no duplicates; every result is in the first array and not the second, and every such element appears |
| Collections.DiffIsDedupFrom | src/components/ffmpeg.ts:138-143 | `diff` de-duplicates the first array with the second array's elements already marked as seen |
| Collections.DiffOrder | src/lib/utils/diff.ts:10-13 | results are in the order of first occurrence in the first array, as `Set` iteration gives |
| Collections.DiffWithNothing | src/lib/utils/diff.ts:9-14 | against an empty array, `diff` only removes duplicates |
| Transcode.GetMediaType | src/lib/transcode.ts:82-86 | 'video' exactly when the type starts with 'video' or 'audio' or is exactly 'vnd.apple.mpegURL', otherwise 'image' |
| Transcode.VideoAndAudioAreVideo | src/lib/transcode.ts:84 | every 'video/…' and 'audio/…' type is a video |
| Transcode.OtherTypesAreImages | src/lib/transcode.ts:84 | the check is anchored and case-sensitive: 'application/vnd.apple.mpegurl', 'Video/mp4' and '' are images |

## Left out

- TweetMedia.ApproximateResolution: the bitrate is a `nat`. A fractional, negative or non-finite JavaScript number is not modelled. The same holds for the width, height and bitrate fields of every payload.
- TweetMedia.SortVariants: the photo comparator `aspectRatioToFloat` uses floating-point division. It is a parameter `ratioCmp`. `ExtractAndFormatMediaIgnoresRatio` shows the output never depends on it.
- TweetMedia.ExtractCardMedia: `JSON.parse` of the `unified_card` payload is a parameter that returns `None` where it throws.
- LegacyExtract.GetMediaURL: these become inputs:
  - `new URL(url)` becomes the parsed `hostname`;
  - the `URLPattern` match becomes the boolean `pathMatches`;
  - `fetch(...)` and `.json()` become the decoded `res`.
- LegacyExtract.GetMediaURL: a failed fetch and `console.log` are not modelled.
- M3uParser.Parse: the zod `PlaylistItemValidator.parse` is the identity on the item's fields. The per-item `catchup`, `tvg` and `timeshift` attributes are kept as extracted strings.
- M3uParser.New: `fetchPlaylist` (the `url` option) is network I/O and is left out.
- M3uParser.CacheKey: the key is built from Dafny characters (Unicode scalar values). `split("")` splits UTF-16 code units, so a character outside the Basic Multilingual Plane is one element here but two in the source. Keys are injective in both readings.
- TweetMedia.QualityRanks: property names inherited from `Object.prototype` are not modelled. For "toString", "constructor" or "__proto__", `qualityMap[quality]` (src/lib/get-tweet.ts:115) is an inherited value, and the comparator at src/lib/get-tweet.ts:93 gets NaN. No label that `approximateResolution` produces is such a name, and neither is 'original'.
- TweetMedia.ComponentItemsSpec: `mediaEntities[mediaId]` (src/lib/get-tweet.ts:210) can also find a name inherited from `Object.prototype`. With the id "constructor" the source pushes an item built from the `Object` function, with an undefined type. The model treats such an id as absent.
- M3uParser.PlaylistItems: `toLowerCase` is a parameter `lower`, because its full Unicode case mapping is not modelled.
- M3uParser.PlaylistByGroup: this inherits the `lower` parameter of `PlaylistItems`.
- M3uParser.PlaylistItems: `getPlaylistsByGroups` and `playlistGroups` are not modelled. Neither is part of the download path.
- RangeRequests.ParseIgnoresCaseAndSpace: `toLowerCase` is modelled on ASCII letters only. The parser looks only at the 'bytes=' prefix, ',', '-' and digits, and no Unicode lowering of another character produces one of those. So the parse result is the same.
- RangeRequests.CreatePartialResponse: these are plain values:
  - Blob, Headers and Response;
  - `request.headers.get` as map lookup with lower-case names.
- RangeRequests.CreatePartialResponse: development-mode `assert.isInstance` and `logger` calls are not modelled. They do not change the result.
- RangeRequests.EffectiveBoundaries: the `start < 0` branch is not modelled, because the parser never yields a negative start.
- Traverse.TraverseManifests: the method requires a finite universe that is `Closed` for this run. The root bytes name only locations in it, and so does every playlist that `fetch` returns for a URI in it. Nothing is asked of byte strings the run never parses. `TotalCodecClosed` shows a codec that parses every byte string still meets it. Not covered is a run whose reachable sub-playlists form an unbounded chain of distinct locations. There the source keeps fetching until the 120-second abort and then returns undefined.
- Traverse.TraverseManifests: the method requires a positive batch size. With zero or less the source never ends; see Findings.
- Traverse.TraverseManifests: the two-minute `AbortController` timer is a fetch that returns `None`. Concurrency inside `Promise.all` is not modelled; only its all-or-nothing outcome is.
- Traverse.TraverseManifests: the playlist codec, `TextEncoder`/`TextDecoder`, the URL parser and `fetch` are the oracles of `Env`.
- Collections.Chunk: a size that is not an integer also throws in the source. The size here is a Dafny `int`, so that case cannot arise.
- Collections.Diff: `Set` membership uses SameValueZero. It is modelled as Dafny equality, so `NaN` and `-0` are not distinguished the way JavaScript does.

Two behaviours of the code that the model follows:
- `traverseM3U8Manifests` has a single `try` around all its work. Any failure makes the call return undefined; that includes a rejected fetch, a key that cannot be built and the two-minute abort.
- The card extractor adds a top-level card image only when nothing was collected before it, and then only the first one. A later image indexes a slot that does not exist and is dropped.

## Findings

| source | as written | input that shows it | evidently intended | confidence | as-written member | corrected member |
|---|---|---|---|---|---|---|
| range-requests.mjs:246-258 | Content-Range reports `end - 1` from the unclamped end | 'bytes=0-10' on a 10-byte body sends 10 bytes but claims 'bytes 0-10/10' | the last position clamped to size - 1, giving 'bytes 0-9/10' (section 4.2 of RFC 7233) | high, not executed | RangeRequests.ContentRangeNotClamped | RangeRequests.RfcBoundaries, RangeRequests.RfcHeadersConsistent |
| range-requests.mjs:246-261 | a start at or past the end is not refused | 'bytes=20-' on a 10-byte body gives an empty 206 | a 416, since the range is unsatisfiable (section 2.1 of RFC 7233) | medium, not executed | RangeRequests.StartPastEndAccepted | RangeRequests.RfcBoundaries, RangeRequests.RfcBoundariesOnDivergences |
| range-requests.mjs:246-251 | a suffix longer than the body is refused | 'bytes=-20' on a 10-byte body gives a 416 | the whole body (section 2.1 of RFC 7233) | medium, not executed | RangeRequests.LongSuffixRefused | RangeRequests.RfcBoundaries, RangeRequests.RfcBoundariesOnDivergences |
| src/lib/m3u8/traverse.ts:62 | `splice(0, batchSize)` with `batchSize <= 0` removes nothing | `batchSize = 0` with a non-empty root playlist loops forever | a batch of at least one URI | medium, not executed | Traverse.NonPositiveBatchStalls | Traverse.ClampedBatchSize, Traverse.TraverseManifestsClamped |

The rest of the model keeps the code as written:
- `CreatePartialResponse` uses `EffectiveBoundaries`.
- `TraverseManifests` requires a positive batch size, as the only caller does with its default of 10.

The corrected members stand beside them, with `RfcBoundariesAgree` showing that the correction changes only the divergent inputs.

=== FILE: base.dfy ===
/** Failure-carrying wrappers and the byte type shared by every module. */
module Base {

  /** A value that may be absent: JavaScript's `undefined` / a missing key. */
  datatype Option<+T> = None | Some(value: T)
  {
    function GetOr(default: T): T
    {
      match this
      case Some(v) => v
      case None => default
    }
  }

  /** The outcome of an operation that may throw. */
  datatype Result<+T, +E> = Ok(value: T) | Err(error: E)

  /** One octet of a response body or of a fetched file. */
  type byte = x: int | 0 <= x < 256

  type Bytes = seq<byte>
}

=== FILE: collections.dfy ===
/**
 * The two array utilities of src/components/ffmpeg.ts and src/lib/utils/diff.ts:
 * `chunk`, which cuts an array into consecutive pieces of a fixed size, and
 * `diff`, the distinct elements of one array that another does not hold.
 */
module Collections {
  import opened Base
  import opened Seqs

  // ---------------------------------------------------------------- chunk

  /** Why `chunk` throws. */
  datatype ChunkError = SizeNotPositive

  function Min(a: nat, b: nat): nat
  {
    if a < b then a else b
  }

  /** `Math.ceil(n / size)` for a positive integer size. */
  function CeilDiv(n: nat, size: nat): nat
    requires size > 0
  {
    (n + size - 1) / size
  }

  /** The chunks of `s`, stated recursively: a first piece of up to `size` elements, then the chunks of the rest. */
  function Chunks<T>(s: seq<T>, size: nat): seq<seq<T>>
    requires size > 0
    decreases |s|
  {
    if s == [] then [] else [s[..Min(size, |s|)]] + Chunks(s[Min(size, |s|)..], size)
  }

  /** `cs` cuts `s` into pieces of `size`: all full but the last, which holds 1 to `size` elements. */
  ghost predicate IsChunking<T>(cs: seq<seq<T>>, s: seq<T>, size: nat)
    requires size > 0
  {
    && Flatten(cs) == s
    && |cs| == CeilDiv(|s|, size)
    && (forall i :: 0 <= i < |cs| - 1 ==> |cs[i]| == size)
    && (cs != [] ==> 1 <= |cs[|cs| - 1]| <= size)
  }

  /**
   * `chunk(array, size)`: the loop writes `array.slice(readIndex, readIndex + size)`
   * (the end clamped to the length) and advances by `size` until the input is
   * used up. A size that is not positive throws.
   */
  method Chunk<T>(items: seq<T>, size: int) returns (r: Result<seq<seq<T>>, ChunkError>)
    ensures r.Err? <==> size <= 0
    ensures r.Ok? ==> r.value == Chunks(items, size)
    ensures r.Ok? ==> IsChunking(r.value, items, size)
    ensures r.Ok? && items == [] ==> r.value == []
  {
    if size <= 0 {
      return Err(SizeNotPositive);
    }
    if |items| == 0 {
      ChunksAreChunking(items, size);
      return Ok([]);
    }
    var ret: seq<seq<T>> := [];
    var readIndex := 0;
    while readIndex < |items|
      invariant 0 <= readIndex
      invariant ret + Chunks(items[Min(readIndex, |items|)..], size) == Chunks(items, size)
      decreases |items| - readIndex
    {
      var end := Min(readIndex + size, |items|);
      ChunksStep(items, readIndex, size);
      ret := ret + [items[readIndex..end]];
      readIndex := readIndex + size;
    }
    assert items[Min(readIndex, |items|)..] == [];
    ChunksAreChunking(items, size);
    return Ok(ret);
  }

  /** One pass of the loop: the chunks from `readIndex` are its slice followed by the chunks after it. */
  lemma ChunksStep<T>(items: seq<T>, readIndex: nat, size: nat)
    requires size > 0 && readIndex < |items|
    ensures Chunks(items[readIndex..], size)
      == [items[readIndex..Min(readIndex + size, |items|)]] + Chunks(items[Min(Min(readIndex + size, |items|), |items|)..], size)
  {
    var rest := items[readIndex..];
    assert rest[..Min(size, |rest|)] == items[readIndex..Min(readIndex + size, |items|)];
    assert rest[Min(size, |rest|)..] == items[Min(readIndex + size, |items|)..];
  }

  /** The recursive chunks form a chunking of `s`. */
  lemma ChunksAreChunking<T>(s: seq<T>, size: nat)
    requires size > 0
    ensures IsChunking(Chunks(s, size), s, size)
  {
    ChunksFlatten(s, size);
    ChunksCount(s, size);
    ChunksSizes(s, size);
  }

  /** Concatenating the chunks gives the input back. */
  lemma {:induction false} ChunksFlatten<T>(s: seq<T>, size: nat)
    requires size > 0
    ensures Flatten(Chunks(s, size)) == s
    decreases |s|
  {
    if s != [] {
      var k := Min(size, |s|);
      ChunksFlatten(s[k..], size);
      assert Chunks(s, size)[1..] == Chunks(s[k..], size);
      assert s[..k] + s[k..] == s;
    }
  }

  /** There are `ceil(|s| / size)` chunks. */
  lemma {:induction false} ChunksCount<T>(s: seq<T>, size: nat)
    requires size > 0
    ensures |Chunks(s, size)| == CeilDiv(|s|, size)
    decreases |s|
  {
    if s != [] {
      var k := Min(size, |s|);
      ChunksCount(s[k..], size);
      if |s| <= size {
        assert s[k..] == [];
        DivOne(|s|, size);
      } else {
        DivStep(|s| - size, size);
      }
    }
  }

  /** `ceil(n / size)` is 1 for `0 < n <= size`. */
  lemma DivOne(n: nat, size: nat)
    requires 0 < n <= size
    ensures CeilDiv(n, size) == 1
  {
    assert size <= n + size - 1 < 2 * size;
  }

  /** Adding `size` elements adds one chunk. */
  lemma DivStep(m: nat, size: nat)
    requires size > 0
    ensures CeilDiv(m + size, size) == CeilDiv(m, size) + 1
  {
    var x := m + size - 1;
    DivUnique(x + size, x / size + 1, x % size, size);
  }

  /** Euclidean division is unique: `a * d + b` with `0 <= b < d` has quotient `a`. */
  lemma DivUnique(y: int, a: int, b: int, d: int)
    requires d > 0 && 0 <= b < d && y == a * d + b
    ensures y / d == a
  {
    var q, r := y / d, y % d;
    assert (q - a) * d == b - r;
    if q > a {
      MulAtLeast(q - a, d);
    } else if q < a {
      MulAtLeast(a - q, d);
    }
  }

  lemma MulAtLeast(k: int, d: int)
    requires k >= 1 && d > 0
    ensures k * d >= d
  {
    assert k * d == (k - 1) * d + d;
  }

  /** Every chunk but the last is full, and the last is not empty. */
  lemma {:induction false} ChunksSizes<T>(s: seq<T>, size: nat)
    requires size > 0
    ensures var cs := Chunks(s, size);
      (forall i :: 0 <= i < |cs| - 1 ==> |cs[i]| == size) && (cs != [] ==> 1 <= |cs[|cs| - 1]| <= size)
    decreases |s|
  {
    if s != [] {
      var k := Min(size, |s|);
      var cs := Chunks(s, size);
      var tail := Chunks(s[k..], size);
      ChunksSizes(s[k..], size);
      assert cs == [s[..k]] + tail;
      if |s| > size {
        assert s[k..] != [];
        assert tail != [];
      } else {
        assert s[k..] == [];
      }
    }
  }

  /** Seven elements in chunks of three make pieces of 3, 3 and 1, as in the source's own example. */
  lemma ChunkSevenByThree<T>(s: seq<T>)
    requires |s| == 7
    ensures var cs := Chunks(s, 3);
      |cs| == 3 && cs[0] == s[..3] && cs[1] == s[3..6] && cs[2] == s[6..]
  {
    var t, u := s[3..], s[6..];
    assert t[..3] == s[3..6] && t[3..] == u;
    assert u[..1] == u && u[1..] == [];
    assert Chunks(u, 3) == [u];
    assert Chunks(t, 3) == [s[3..6]] + Chunks(u, 3);
  }

  // ---------------------------------------------------------------- diff

  /**
   * `diff(arr1, arr2)`: the members of `new Set(arr1)`, in insertion order,
   * that `new Set(arr2)` does not hold.
   */
  function Diff<T(==)>(arr1: seq<T>, arr2: seq<T>): (r: seq<T>)
    ensures NoDup(r)
    ensures forall i :: 0 <= i < |r| ==> r[i] in arr1 && r[i] !in arr2
    ensures forall i :: 0 <= i < |arr1| && arr1[i] !in arr2 ==> arr1[i] in r
  {
    DiffIsDedupFrom(arr1, arr2);
    Filter(Dedup(arr1), x => x !in arr2)
  }

  /** The elements of a sequence, as a set. */
  function Elements<T>(s: seq<T>): set<T>
  {
    set x | x in s
  }

  /**
   * Filtering the de-duplicated first array is de-duplicating it with the
   * second array's elements already marked as seen.
   */
  lemma DiffIsDedupFrom<T>(arr1: seq<T>, arr2: seq<T>)
    ensures Filter(Dedup(arr1), x => x !in arr2) == DedupFrom(arr1, Elements(arr2))
  {
    FilterDedupFrom(arr1, {}, arr2);
    assert {} + Elements(arr2) == Elements(arr2);
  }

  lemma {:induction false} FilterDedupFrom<T>(s: seq<T>, seen: set<T>, b: seq<T>)
    ensures Filter(DedupFrom(s, seen), x => x !in b) == DedupFrom(s, seen + Elements(b))
    decreases |s|
  {
    var p := x => x !in b;
    if s != [] {
      var x := s[0];
      DedupFromHead(s, seen);
      DedupFromHead(s, seen + Elements(b));
      if x in seen {
        FilterDedupFrom(s[1..], seen, b);
      } else {
        FilterDedupFrom(s[1..], seen + {x}, b);
        FilterHead([x] + DedupFrom(s[1..], seen + {x}), p);
        assert ([x] + DedupFrom(s[1..], seen + {x}))[1..] == DedupFrom(s[1..], seen + {x});
        if x in b {
          assert seen + {x} + Elements(b) == seen + Elements(b);
        } else {
          assert seen + {x} + Elements(b) == seen + Elements(b) + {x};
        }
      }
    }
  }

  /** `diff` lists what it keeps in the order of first occurrence in the first array. */
  lemma DiffOrder<T>(arr1: seq<T>, arr2: seq<T>)
    ensures InFirstOccurrenceOrder(Diff(arr1, arr2), arr1)
  {
    DiffIsDedupFrom(arr1, arr2);
    DedupFromOrder(arr1, Elements(arr2));
  }

  /** Against an empty array, `diff` only removes duplicates. */
  lemma DiffWithNothing<T>(arr1: seq<T>)
    ensures Diff(arr1, []) == Dedup(arr1)
  {
    DiffIsDedupFrom(arr1, []);
    assert Elements<T>([]) == {};
  }

  /** Nothing is left of an empty first array. */
  lemma DiffOfNothing<T>(arr2: seq<T>)
    ensures Diff([], arr2) == []
  {
  }
}

=== FILE: legacy_extract.dfy ===
/**
 * The older media extractor of src/utils.ts: one `(type, url)` pair per media
 * entry, the highest-bitrate rendition standing for a video, followed along
 * the chain of quoted tweets. Unlike the normaliser in `TweetMedia` it does not
 * catch anything: every failure ends the whole extraction, modelled as `None`.
 */
module LegacyExtract {
  import opened Base
  import opened Seqs
  import opened Sorting
  import opened Payload
  import opened TweetMedia

  datatype LegacyItem = LegacyItem(mediaType: string, url: string)

  /** Outcome of `getMediaURL` that is not a list of items. */
  datatype LegacyError = NotTwitterUrl | Thrown

  predicate HasNumericBitrate(v: RawVariant)
  {
    v.bitrate.Some?
  }

  /** The renditions with a numeric `bitrate`, in input order. */
  function NumericVariants(m: MediaDetails): seq<RawVariant>
  {
    Filter(m.videoInfo.variants, HasNumericBitrate)
  }

  /**
   * The head of `variants.sort((a, b) => b.bitrate - a.bitrate)`: the earliest
   * rendition of maximal bitrate, or nothing for an empty list.
   */
  function TopRendition(vs: seq<RawVariant>): (r: Option<RawVariant>)
    ensures r.Some? <==> vs != []
    ensures r.Some? ==> r.value == vs[FirstMaxIndex(vs, Bitrate)]
  {
    var sorted := SortBy(vs, BitrateCmp);
    if sorted == [] then None
    else
      BitrateCmpDescending();
      SortByHead(vs, BitrateCmp, Bitrate);
      Some(sorted[0])
  }

  /**
   * One entry of `getTweetDetails`. A video or GIF becomes a 'video' whose url is
   * that of its top numeric-bitrate rendition; with no numeric bitrate at all
   * `variants[0]` is undefined and reading its url throws.
   */
  function LegacyItemOf(m: MediaDetails): (r: Option<LegacyItem>)
    ensures IsVideoType(m.mediaType) ==> (r.Some? <==> NumericVariants(m) != [])
    ensures IsVideoType(m.mediaType) && r.Some? ==>
      r.value == LegacyItem("video", NumericVariants(m)[FirstMaxIndex(NumericVariants(m), Bitrate)].url)
    ensures !IsVideoType(m.mediaType) ==> r == Some(LegacyItem(m.mediaType, m.mediaUrlHttps))
  {
    if IsVideoType(m.mediaType) then
      match TopRendition(NumericVariants(m))
      case None => None
      case Some(v) => Some(LegacyItem("video", v.url))
    else Some(LegacyItem(m.mediaType, m.mediaUrlHttps))
  }

  /** `getTweetDetails`: every entry mapped in order, or a throw if any entry throws. */
  function GetTweetDetails(details: seq<MediaDetails>): (r: Option<seq<LegacyItem>>)
    ensures r.Some? <==> forall i :: 0 <= i < |details| ==> LegacyItemOf(details[i]).Some?
    ensures r.Some? ==> |r.value| == |details| && forall i :: 0 <= i < |details| ==> LegacyItemOf(details[i]) == Some(r.value[i])
  {
    if details == [] then Some([])
    else
      var head := LegacyItemOf(details[0]);
      var tail := GetTweetDetails(details[1..]);
      assert forall i :: 1 <= i < |details| ==> details[i] == details[1..][i - 1];
      if head.Some? && tail.Some? then Some([head.value] + tail.value) else None
  }

  /** `Object.values(object)`. */
  function Values<V>(entries: seq<(string, V)>): (r: seq<V>)
    ensures |r| == |entries| && forall i :: 0 <= i < |entries| ==> r[i] == entries[i].1
  {
    seq(|entries|, i requires 0 <= i < |entries| => entries[i].1)
  }

  /**
   * `getCardDetails`. With a `unified_card` binding, every media entity of the
   * parsed payload goes through `getTweetDetails` (a missing string, bad JSON or
   * missing `media_entities` throws); otherwise the `thumbnail_image_original`
   * image, if that binding exists (without an image value it throws).
   */
  function GetCardDetails(card: TwitterCard, parse: Parser): (r: Option<seq<LegacyItem>>)
    ensures !HasKey(card.bindingValues, "unified_card") ==>
      match Lookup(card.bindingValues, "thumbnail_image_original")
      case None => r == Some([])
      case Some(t) => r == (if t.imageValue.Some? then Some([LegacyItem("photo", t.imageValue.value.url)]) else None)
    ensures HasKey(card.bindingValues, "unified_card") ==>
      var u := Lookup(card.bindingValues, "unified_card").value;
      (r.Some? <==>
        && u.stringValue.Some?
        && parse(u.stringValue.value).Some?
        && parse(u.stringValue.value).value.mediaEntities.Some?
        && var entities := parse(u.stringValue.value).value.mediaEntities.value;
           forall i :: 0 <= i < |entities| ==> LegacyItemOf(entities[i].1).Some?)
    ensures HasKey(card.bindingValues, "unified_card") && r.Some? ==>
      var entities := parse(Lookup(card.bindingValues, "unified_card").value.stringValue.value).value.mediaEntities.value;
      |r.value| == |entities| && forall i :: 0 <= i < |entities| ==> LegacyItemOf(entities[i].1) == Some(r.value[i])
  {
    var b := card.bindingValues;
    if HasKey(b, "unified_card") then
      var u := Lookup(b, "unified_card").value;
      if u.stringValue.None? then None
      else
        match parse(u.stringValue.value)
        case None => None
        case Some(d) =>
          if d.mediaEntities.None? then None else GetTweetDetails(Values(d.mediaEntities.value))
    else
      match Lookup(b, "thumbnail_image_original")
      case None => Some([])
      case Some(t) => if t.imageValue.Some? then Some([LegacyItem("photo", t.imageValue.value.url)]) else None
  }

  /** Concatenation of two partial results: a throw on either side is a throw. */
  function Then(a: Option<seq<LegacyItem>>, b: Option<seq<LegacyItem>>): (r: Option<seq<LegacyItem>>)
    ensures r.Some? <==> a.Some? && b.Some?
    ensures r.Some? ==> r.value == a.value + b.value
  {
    if a.Some? && b.Some? then Some(a.value + b.value) else None
  }

  /** What one tweet of the chain adds: its media when present, then its card when present. */
  function TweetItems(t: Tweet, parse: Parser): Option<seq<LegacyItem>>
  {
    Then(
      if t.mediaDetails.Some? then GetTweetDetails(t.mediaDetails.value) else Some([]),
      if t.card.Some? then GetCardDetails(t.card.value, parse) else Some([]))
  }

  /** Reference definition: the tweet's items followed by those of its quoted chain. */
  function ChainItems(t: Tweet, parse: Parser): Option<seq<LegacyItem>>
    decreases t
  {
    Then(TweetItems(t, parse), if t.quotedTweet.Some? then ChainItems(t.quotedTweet.value, parse) else Some([]))
  }

  function QuotedChainItems(t: Tweet, parse: Parser): Option<seq<LegacyItem>>
  {
    if t.quotedTweet.Some? then ChainItems(t.quotedTweet.value, parse) else Some([])
  }

  /** The aggregation loop of `getMediaURL`, walking `quoted_tweet` until it is absent. */
  method AggregateChain(res: Tweet, parse: Parser) returns (r: Option<seq<LegacyItem>>)
    ensures r == ChainItems(res, parse)
  {
    var obj := res;
    var first := TweetItems(obj, parse);
    ChainUnfold(obj, parse);
    if first.None? {
      return None;
    }
    var arr := first.value;
    ThenShift([], first, QuotedChainItems(obj, parse));
    while obj.quotedTweet.Some?
      invariant ChainItems(res, parse) == Then(Some(arr), QuotedChainItems(obj, parse))
      decreases obj
    {
      var next := obj.quotedTweet.value;
      var step := TweetItems(next, parse);
      ChainUnfold(next, parse);
      ThenShift(arr, step, QuotedChainItems(next, parse));
      if step.None? {
        return None;
      }
      obj := next;
      arr := arr + step.value;
    }
    assert arr + [] == arr;
    return Some(arr);
  }

  lemma ChainUnfold(t: Tweet, parse: Parser)
    ensures ChainItems(t, parse) == Then(TweetItems(t, parse), QuotedChainItems(t, parse))
  {
  }

  /** Moving a settled step from the pending side of `Then` to the accumulated side. */
  lemma ThenShift(arr: seq<LegacyItem>, step: Option<seq<LegacyItem>>, rest: Option<seq<LegacyItem>>)
    ensures Then(Some(arr), Then(step, rest)) == if step.None? then None else Then(Some(arr + step.value), rest)
  {
    if step.Some? && rest.Some? {
      assert arr + (step.value + rest.value) == arr + step.value + rest.value;
    }
  }

  /**
   * `getMediaURL` once the URL is parsed: only the exact hostname 'twitter.com'
   * is accepted; a path that does not match the status pattern yields undefined
   * (`Ok(None)`); otherwise the fetched tweet `res` is aggregated.
   */
  method GetMediaURL(hostname: string, pathMatches: bool, res: Tweet, parse: Parser)
    returns (r: Result<Option<seq<LegacyItem>>, LegacyError>)
    ensures hostname != "twitter.com" <==> r == Err(NotTwitterUrl)
    ensures hostname == "twitter.com" && !pathMatches ==> r == Ok(None)
    ensures hostname == "twitter.com" && pathMatches ==>
      (r == Err(Thrown) <==> ChainItems(res, parse).None?)
      && (r.Ok? ==> r.value == Some(ChainItems(res, parse).value))
  {
    if hostname != "twitter.com" {
      return Err(NotTwitterUrl);
    }
    if !pathMatches {
      return Ok(None);
    }
    var items := AggregateChain(res, parse);
    if items.None? {
      return Err(Thrown);
    }
    return Ok(items);
  }

  // ---------------------------------------------------------------- properties

  /** The `parent` field is never read: replacing it changes nothing. */
  lemma {:induction false} ChainIgnoresParent(t: Tweet, other: Option<Tweet>, parse: Parser)
    ensures ChainItems(t, parse) == ChainItems(t.(parent := other), parse)
  {
  }

  /** The chain is each tweet's media then its card, the quoted tweet's after its quoting tweet's. */
  lemma ChainOrder(t: Tweet, q: Tweet, parse: Parser)
    requires t.quotedTweet == Some(q)
    requires ChainItems(t, parse).Some?
    ensures TweetItems(t, parse).Some? && ChainItems(q, parse).Some?
    ensures ChainItems(t, parse).value == TweetItems(t, parse).value + ChainItems(q, parse).value
  {
  }

  /** A video with no numeric-bitrate rendition makes the whole extraction throw. */
  lemma VideoWithoutBitrateThrows(details: seq<MediaDetails>, i: nat)
    requires i < |details| && IsVideoType(details[i].mediaType)
    requires forall k :: 0 <= k < |details[i].videoInfo.variants| ==> details[i].videoInfo.variants[k].bitrate.None?
    ensures GetTweetDetails(details).None?
  {
  }
}

=== FILE: m3u_parser.dfy ===
/**
 * The extended-M3U line parser of src/lib/m3u8/parser.ts (`M3U8Parser`). The
 * playlist is split on '\n'; the first line must start with `#EXTM3U` and is
 * kept as the header. Every `#EXTINF:` line opens a pending entry at the
 * current slot; `#EXTVLCOPT:` and `#EXTGRP:` lines adjust it; any other line
 * whose text before '|' is non-empty becomes its URL and closes the slot.
 *
 * The regular expressions of the source are modelled as first-match searches
 * with an ASCII case-insensitive literal and the continuation each pattern
 * demands; the zod validator is the identity on the item's schema fields.
 */
module M3uParser {
  import opened Base
  import opened Text
  import opened Seqs

  // ---------------------------------------------------------------- data

  datatype Tvg = Tvg(id: string, name: string, url: string, logo: string, rec: string)

  datatype Http = Http(referrer: string, userAgent: string)

  datatype Catchup = Catchup(kind: string, source: string, days: string)

  /** One playlist entry (`PlaylistItem`). */
  datatype Item = Item(
    name: string,
    index: nat,
    tvg: Tvg,
    groupTitle: string,
    http: Http,
    url: Option<string>,
    raw: string,
    timeshift: string,
    catchup: Catchup)

  /** `PlaylistHeader`: an attribute is recorded only when its value is non-empty. */
  datatype Header = Header(xTvgUrl: Option<string>, urlTvg: Option<string>, raw: string)

  /**
   * The parser's fields. The `items` map is `done` (slots 0 .. |done|-1, each
   * closed by a URL line) followed by the entry still pending at slot |done|;
   * `header` is absent until a playlist has been parsed.
   */
  datatype Parser = Parser(
    rawPlaylist: string,
    header: Option<Header>,
    done: seq<Item>,
    pending: Option<Item>,
    groups: seq<string>)

  datatype Playlist = Playlist(header: Option<Header>, items: seq<Item>, raw: Option<string>)

  /** `Array.from(this.items.values())`: slot order, which is insertion order. */
  function Items(p: Parser): seq<Item>
  {
    p.done + (if p.pending.Some? then [p.pending.value] else [])
  }

  // ---------------------------------------------------------------- regular expressions

  /**
   * `new RegExp(lit + <rest>, "gi").exec(s)` for a literal given in lower case:
   * the leftmost position from `p` on where `lit` matches and `cont` accepts
   * what follows; `cont` yields the first capture group.
   */
  function MatchFrom(s: string, lit: string, cont: string -> Option<string>, p: nat): Option<string>
    decreases |s| - p
  {
    if p + |lit| > |s| then None
    else if StartsWithCI(s[p..], lit) && cont(s[p + |lit|..]).Some? then cont(s[p + |lit|..])
    else MatchFrom(s, lit, cont, p + 1)
  }

  /** `(.*?)"`: the shortest run up to a quote, which must not cross a line terminator. */
  function QuotedValue(s: string): (r: Option<string>)
    ensures r.Some? ==> '"' !in r.value
  {
    var v := BeforeFirst(s, '"');
    if |v| < |s| && forall k :: 0 <= k < |v| ==> !IsLineTerminator(v[k]) then Some(v) else None
  }

  /** `(.*)`: the rest of the line, greedily. */
  function RestOfLine(s: string): Option<string>
  {
    Some(TakeLine(s))
  }

  predicate IsWordChar(c: char)
  {
    ('a' <= c <= 'z') || ('A' <= c <= 'Z') || ('0' <= c <= '9') || c == '_'
  }

  /** `(\w[^&]*)`: a word character and everything up to the next '&'. */
  function WordRun(s: string): (r: Option<string>)
    ensures r.Some? ==> r.value != [] && IsWordChar(r.value[0]) && '&' !in r.value[1..]
  {
    if s != [] && IsWordChar(s[0]) then Some([s[0]] + BeforeFirst(s[1..], '&')) else None
  }

  /** `getAttribute`: the quoted value after `name="`, trimmed, or "" without a match. */
  function Attribute(name: string, line: string): string
  {
    Trim(MatchFrom(line, name + "=\"", QuotedValue, 0).GetOr(""))
  }

  /** `getOption` and `getValue`: the rest of the line after `lit`, with every '"' removed. */
  function LineValue(line: string, lit: string): (r: string)
    ensures '"' !in r
  {
    match MatchFrom(line, lit, RestOfLine, 0)
    case None => ""
    case Some(v) => RemoveAll(v, '"')
  }

  /** The text before the first CR or LF (`split(/[\r\n]+/).shift()`). */
  function FirstPhysicalLine(s: string): (r: string)
    ensures StartsWith(s, r)
    ensures '\r' !in r && '\n' !in r
  {
    if s == [] || s[0] == '\r' || s[0] == '\n' then [] else [s[0]] + FirstPhysicalLine(s[1..])
  }

  /** `getName`: the text after the last ',' of the first physical line, trimmed. */
  function Name(line: string): (r: string)
    ensures ',' !in r
  {
    var tail := AfterLast(FirstPhysicalLine(line), ',');
    var r := Trim(tail);
    assert forall k :: 0 <= k < |r| ==> r[k] in tail by {
      forall k | 0 <= k < |r| ensures r[k] in tail {
        assert r == TrimEnd(TrimStart(tail));
        assert r[k] == TrimStart(tail)[k];
        assert TrimStart(tail)[k] == tail[|tail| - |TrimStart(tail)| + k];
      }
    }
    r
  }

  /** `line.replace(/^(.*)\|/, "")`: what follows the last '|' that `.*` can reach. */
  function ParamsOf(line: string): (r: string)
    ensures EndsWith(line, r)
  {
    var reach := TakeLine(line);
    var after := AfterLast(reach, '|');
    if |after| < |reach| then line[|reach| - |after|..] else line
  }

  /** `getParameter`: the value of `name=` among the parameters after '|', or "". */
  function Parameter(line: string, name: string): string
  {
    MatchFrom(ParamsOf(line), name + "=", WordRun, 0).GetOr("")
  }

  /** `getUrl`: the text before the first '|'. */
  function Url(line: string): (r: string)
    ensures StartsWith(line, r) && '|' !in r
  {
    BeforeFirst(line, '|')
  }

  // ---------------------------------------------------------------- entries

  /** `mergeRaw`: a non-empty raw text gets the line after a '\n'; an empty one is replaced. */
  function MergeRaw(raw: string, line: string): (r: string)
    ensures raw != "" ==> r == raw + "\n" + line
    ensures raw == "" ==> r == line
  {
    if raw != "" then raw + "\n" + line else line
  }

  /** `handleEXTINF` for the line numbered `n`; its `index` is n + 1. */
  function ExtInfItem(n: nat, line: string): (r: Item)
    ensures r.index == n + 1 && r.url.None? && r.raw == line && r.http.referrer == ""
  {
    Item(
      name := Name(line),
      index := n + 1,
      tvg := Tvg(
        id := Attribute("tvg-id", line),
        name := Attribute("tvg-name", line),
        url := Attribute("tvg-url", line),
        logo := Attribute("tvg-logo", line),
        rec := Attribute("tvg-rec", line)),
      groupTitle := Attribute("group-title", line),
      http := Http(referrer := "", userAgent := Attribute("user-agent", line)),
      url := None,
      raw := line,
      timeshift := Attribute("timeshift", line),
      catchup := Catchup(
        kind := Attribute("catchup", line),
        source := Attribute("catchup-source", line),
        days := Attribute("catchup-days", line)))
  }

  /**
   * `handleEXTVLCOPT` with the trimmed line: both HTTP fields take the option
   * values ("" when the option is absent, which is not nullish, so the old value
   * never survives) and the raw text is replaced.
   */
  function ApplyVlcOpt(it: Item, s: string): Item
  {
    it.(http := Http(referrer := LineValue(s, ":http-referrer="), userAgent := LineValue(s, ":http-user-agent=")),
        raw := "\r\n" + s)
  }

  /** `handleEXTGRP` with the trimmed line: the title becomes the text after ':'; the line is merged. */
  function ApplyGroup(it: Item, s: string): Item
  {
    it.(groupTitle := LineValue(s, ":"), raw := MergeRaw(it.raw, s))
  }

  /** `Set.prototype.add` on an insertion-ordered set. */
  function AddGroup(groups: seq<string>, title: string): (r: seq<string>)
    ensures title in r
    ensures forall g :: g in groups ==> g in r
  {
    if title in groups then groups else groups + [title]
  }

  predicate Tagged(line: string, tag: string)
  {
    StartsWith(Trim(line), tag)
  }

  predicate IsExtInf(line: string)
  {
    Tagged(line, "#EXTINF:")
  }

  /** A line none of the three recognised tags claims. */
  predicate Untagged(line: string)
  {
    !Tagged(line, "#EXTINF:") && !Tagged(line, "#EXTVLCOPT:") && !Tagged(line, "#EXTGRP:")
  }

  // ---------------------------------------------------------------- parsing

  /** One iteration of the loop of `parse` over the line numbered `n`. */
  function Feed(p: Parser, n: nat, line: string): (r: Parser)
    ensures r.header == p.header && r.rawPlaylist == p.rawPlaylist
  {
    var s := Trim(line);
    if StartsWith(s, "#EXTINF:") then
      p.(pending := Some(ExtInfItem(n, line)))
    else if StartsWith(s, "#EXTVLCOPT:") then
      if p.pending.None? then p else p.(pending := Some(ApplyVlcOpt(p.pending.value, s)))
    else if StartsWith(s, "#EXTGRP:") then
      if p.pending.None? then p else p.(pending := Some(ApplyGroup(p.pending.value, s)))
    else if p.pending.None? then p
    else
      var it := p.pending.value;
      var groups := AddGroup(p.groups, it.groupTitle);
      var url := Url(s);
      if url != "" then
        var closed := it.(url := Some(url), http := it.http.(referrer := Parameter(s, "referer")), raw := MergeRaw(it.raw, line));
        p.(done := p.done + [closed], pending := None, groups := groups)
      else
        p.(pending := Some(it.(raw := MergeRaw(it.raw, line))), groups := groups)
  }

  /** The loop of `parse` from the line numbered `n` on. */
  function FeedAll(p: Parser, lines: seq<string>, n: nat): (r: Parser)
    ensures r.header == p.header && r.rawPlaylist == p.rawPlaylist
    decreases |lines|
  {
    if lines == [] then p else FeedAll(Feed(p, n, lines[0]), lines[1..], n + 1)
  }

  /** `parseHeader`. */
  function HeaderOf(line: string): (r: Header)
    ensures r.raw == line
    ensures r.xTvgUrl.Some? ==> r.xTvgUrl.value != ""
    ensures r.urlTvg.Some? ==> r.urlTvg.value != ""
  {
    var x := Attribute("x-tvg-url", line);
    var u := Attribute("url-tvg", line);
    Header(if x != "" then Some(x) else None, if u != "" then Some(u) else None, line)
  }

  /** `parse` on a fresh parser; `None` where it throws 'Playlist is not valid'. */
  function Parse(raw: string): (r: Option<Parser>)
    ensures r.Some? <==> StartsWith(BeforeFirst(raw, '\n'), "#EXTM3U")
    ensures r.Some? ==> r.value.header == Some(HeaderOf(BeforeFirst(raw, '\n'))) && r.value.rawPlaylist == raw
  {
    var lines := Split(raw, '\n');
    if !StartsWith(lines[0], "#EXTM3U") then None
    else Some(FeedAll(Parser(raw, Some(HeaderOf(lines[0])), [], None, []), lines[1..], 1))
  }

  /** The constructor given only a playlist: the empty string is not parsed at all. */
  function New(playlist: string): (r: Option<Parser>)
    ensures playlist == "" ==> r == Some(Parser("", None, [], None, []))
    ensures playlist != "" ==> (r.Some? <==> StartsWith(BeforeFirst(playlist, '\n'), "#EXTM3U"))
  {
    if playlist == "" then Some(Parser("", None, [], None, [])) else Parse(playlist)
  }

  // ---------------------------------------------------------------- output

  /** `${header.raw}`: an unset header prints as "undefined". */
  function HeaderText(p: Parser): string
  {
    match p.header
    case None => "undefined"
    case Some(h) => h.raw
  }

  /** `items.map((item) => item.raw)`. */
  function Raws(items: seq<Item>): (r: seq<string>)
    ensures |r| == |items|
  {
    if items == [] then [] else Raws(items[..|items| - 1]) + [items[|items| - 1].raw]
  }

  function GetPlaylist(p: Parser): Playlist
  {
    Playlist(p.header, Items(p), Some(p.rawPlaylist))
  }

  /** `write()`. */
  function Write(p: Parser): string
  {
    HeaderText(p) + "\n" + Join(Raws(GetPlaylist(p).items), "\n")
  }

  // ---------------------------------------------------------------- groups

  /**
   * The item's group title, lower-cased, starts with the lower-cased query.
   * `lower` is `String.prototype.toLowerCase`, whose full Unicode case mapping
   * is not modelled and is left as a parameter.
   */
  predicate InGroup(lower: string -> string, it: Item, group: string)
  {
    StartsWith(lower(it.groupTitle), lower(group))
  }

  /** `getPlaylistItems`: the items whose title starts with the query, ignoring case, in order. */
  function PlaylistItems(lower: string -> string, items: seq<Item>, group: string): (r: seq<Item>)
    ensures forall k :: 0 <= k < |r| ==> r[k] in items && InGroup(lower, r[k], group)
    ensures forall k :: 0 <= k < |items| && InGroup(lower, items[k], group) ==> items[k] in r
    ensures IsSubsequence(r, items)
    ensures forall x :: multiset(r)[x] == if InGroup(lower, x, group) then multiset(items)[x] else 0
  {
    var keep := it => InGroup(lower, it, group);
    FilterIsSubsequence(items, keep);
    FilterMultiset(items, keep);
    Filter(items, keep)
  }

  /** `group.split("").join("-")`: the characters with '-' between them. */
  function CacheKey(group: string): (r: string)
    ensures group == "" <==> r == ""
    ensures group != "" ==> |r| == 2 * |group| - 1 && r[0] == group[0]
  {
    if |group| <= 1 then group else [group[0], '-'] + CacheKey(group[1..])
  }

  /** What `getPlaylistByGroup` builds when nothing is cached. */
  function GroupPlaylist(lower: string -> string, p: Parser, group: string): Playlist
  {
    Playlist(p.header, PlaylistItems(lower, Items(p), group), None)
  }

  /** `getPlaylistByGroup`: the cached playlist under the key, else a fresh one that is then cached. */
  function PlaylistByGroup(lower: string -> string, p: Parser, cache: map<string, Playlist>, group: string): (r: (Playlist, map<string, Playlist>))
    ensures CacheKey(group) in r.1 && r.1[CacheKey(group)] == r.0
    ensures CacheKey(group) in cache ==> r == (cache[CacheKey(group)], cache)
    ensures CacheKey(group) !in cache ==> r.0 == GroupPlaylist(lower, p, group)
    ensures forall k :: k in cache ==> k in r.1 && r.1[k] == cache[k]
  {
    var key := CacheKey(group);
    if key in cache then (cache[key], cache)
    else
      var playlist := GroupPlaylist(lower, p, group);
      (playlist, cache[key := playlist])
  }

  // ---------------------------------------------------------------- one line

  /** A `#EXTINF:` line opens a fresh entry at the current slot, discarding one still pending there. */
  lemma ExtInfOpens(p: Parser, n: nat, line: string)
    requires IsExtInf(line)
    ensures Feed(p, n, line).done == p.done && Feed(p, n, line).groups == p.groups
    ensures Feed(p, n, line).pending == Some(ExtInfItem(n, line))
  {
  }

  /** Without a pending entry every line other than `#EXTINF:` is ignored. */
  lemma IgnoredWithoutPending(p: Parser, n: nat, line: string)
    requires p.pending.None? && !IsExtInf(line)
    ensures Feed(p, n, line) == p
  {
  }

  /**
   * Any untagged line with text before '|' closes the pending entry with that
   * text as its URL, even an unrecognised '#' tag; the line is merged into raw
   * and the referrer becomes the `referer` parameter ("" without one).
   */
  lemma UrlLineCloses(p: Parser, n: nat, line: string)
    requires p.pending.Some? && Untagged(line) && Url(Trim(line)) != ""
    ensures var q := Feed(p, n, line);
      && q.pending.None?
      && |q.done| == |p.done| + 1 && q.done[..|p.done|] == p.done
      && q.done[|p.done|].url == Some(Url(Trim(line)))
      && q.done[|p.done|].raw == MergeRaw(p.pending.value.raw, line)
      && q.done[|p.done|].http == Http(Parameter(Trim(line), "referer"), p.pending.value.http.userAgent)
      && SameOrigin(q.done[|p.done|], p.pending.value)
      && q.done[|p.done|].groupTitle == p.pending.value.groupTitle
      && p.pending.value.groupTitle in q.groups
  {
    var q := Feed(p, n, line);
    assert q.done[..|p.done|] == p.done;
  }

  /** An untagged line with nothing before '|' (a blank line, say) extends the pending raw text and records its group. */
  lemma BlankLineMerges(p: Parser, n: nat, line: string)
    requires p.pending.Some? && Untagged(line) && Url(Trim(line)) == ""
    ensures Feed(p, n, line).done == p.done
    ensures Feed(p, n, line).pending == Some(p.pending.value.(raw := MergeRaw(p.pending.value.raw, line)))
    ensures p.pending.value.groupTitle in Feed(p, n, line).groups
    ensures forall g :: g in p.groups ==> g in Feed(p, n, line).groups
  {
  }

  /**
   * `#EXTVLCOPT:` replaces the raw text, dropping the `#EXTINF` line
   * accumulated so far, and sets both HTTP fields from the options: an option
   * the line lacks gives "", so a user agent from `#EXTINF` does not survive.
   */
  lemma VlcOptResetsRaw(p: Parser, n: nat, line: string)
    requires p.pending.Some? && Tagged(line, "#EXTVLCOPT:")
    ensures Feed(p, n, line).done == p.done
    ensures Feed(p, n, line).pending.Some?
    ensures Feed(p, n, line).pending.value.raw == "\r\n" + Trim(line)
    ensures Feed(p, n, line).pending.value.url == p.pending.value.url
    ensures SameOrigin(Feed(p, n, line).pending.value, p.pending.value)
    ensures Feed(p, n, line).pending.value.groupTitle == p.pending.value.groupTitle
    ensures Feed(p, n, line).pending.value.http ==
      Http(LineValue(Trim(line), ":http-referrer="), LineValue(Trim(line), ":http-user-agent="))
    ensures Feed(p, n, line).groups == p.groups
  {
    assert !IsExtInf(line) by { TagsExclusive(Trim(line)); }
  }

  /** A literal that occurs at no position from `p` on is never matched. */
  lemma {:induction false} MatchFromAbsent(s: string, lit: string, cont: string -> Option<string>, p: nat)
    requires forall q :: p <= q <= |s| ==> !StartsWithCI(s[q..], lit)
    ensures MatchFrom(s, lit, cont, p) == None
    decreases |s| - p
  {
    if p + |lit| <= |s| {
      assert !StartsWithCI(s[p..], lit);
      MatchFromAbsent(s, lit, cont, p + 1);
    }
  }

  /** A `#EXTVLCOPT:` line without the user-agent option clears the user agent, whatever `#EXTINF` set. */
  lemma VlcOptWithoutUserAgentClearsIt(p: Parser, n: nat, line: string)
    requires p.pending.Some? && Tagged(line, "#EXTVLCOPT:")
    requires forall q :: 0 <= q <= |Trim(line)| ==> !StartsWithCI(Trim(line)[q..], ":http-user-agent=")
    ensures Feed(p, n, line).pending.Some?
    ensures Feed(p, n, line).pending.value.http.userAgent == ""
  {
    VlcOptResetsRaw(p, n, line);
    MatchFromAbsent(Trim(line), ":http-user-agent=", RestOfLine, 0);
  }

  /** `#EXTGRP:` appends to the raw text and overwrites the group title. */
  lemma GroupAppends(p: Parser, n: nat, line: string)
    requires p.pending.Some? && Tagged(line, "#EXTGRP:")
    ensures Feed(p, n, line).done == p.done
    ensures Feed(p, n, line).pending.Some?
    ensures Feed(p, n, line).pending.value.raw == MergeRaw(p.pending.value.raw, Trim(line))
    ensures Feed(p, n, line).pending.value.groupTitle == LineValue(Trim(line), ":")
    ensures SameOrigin(Feed(p, n, line).pending.value, p.pending.value)
  {
    TagsExclusive(Trim(line));
  }

  lemma TagsExclusive(s: string)
    ensures !(StartsWith(s, "#EXTINF:") && StartsWith(s, "#EXTVLCOPT:"))
    ensures !(StartsWith(s, "#EXTINF:") && StartsWith(s, "#EXTGRP:"))
    ensures !(StartsWith(s, "#EXTVLCOPT:") && StartsWith(s, "#EXTGRP:"))
  {
    if StartsWith(s, "#EXTINF:") {
      assert s[4] == 'I';
    }
    if StartsWith(s, "#EXTVLCOPT:") {
      assert s[4] == 'V';
    }
  }

  // ---------------------------------------------------------------- whole playlist

  /** The fields an `#EXTINF` line sets and no later line of the same entry changes. */
  predicate SameOrigin(it: Item, src: Item)
  {
    && it.name == src.name && it.index == src.index && it.tvg == src.tvg
    && it.timeshift == src.timeshift && it.catchup == src.catchup
  }

  /** Which lines are `#EXTINF` lines, one flag per line. */
  ghost function ExtInfMarks(lines: seq<string>): (r: seq<bool>)
    ensures |r| == |lines|
  {
    Marks(lines, IsExtInf)
  }

  /** `it` was opened by the line numbered index - 1, one of the first `n` lines, which `marks` flags as `#EXTINF`. */
  ghost predicate FromLine(it: Item, marks: seq<bool>, n: nat)
  {
    2 <= it.index <= n && it.index - 1 < |marks| && marks[it.index - 1]
  }

  /** A closed entry carries a non-empty URL free of '|'. */
  predicate Closed(it: Item)
  {
    it.url.Some? && it.url.value != "" && '|' !in it.url.value
  }

  /** The pending entry: traced to its line, without a URL, opened after every closed one. */
  ghost predicate PendingFrom(it: Item, done: seq<Item>, marks: seq<bool>, n: nat)
  {
    FromLine(it, marks, n) && it.url.None? && forall k :: 0 <= k < |done| ==> done[k].index < it.index
  }

  /**
   * What holds of the parser after the first `n` lines, `marks` flagging the
   * `#EXTINF` lines: entries traced to their lines, in line order.
   */
  ghost predicate Tracks(p: Parser, marks: seq<bool>, n: nat)
  {
    && n <= |marks|
    && (forall k :: 0 <= k < |p.done| ==> FromLine(p.done[k], marks, n))
    && (forall k :: 0 <= k < |p.done| ==> Closed(p.done[k]))
    && (forall i, j :: 0 <= i < j < |p.done| ==> p.done[i].index < p.done[j].index)
    && (p.pending.Some? ==> PendingFrom(p.pending.value, p.done, marks, n))
  }

  /** Feeding line `n` keeps `Tracks`, given the flag of that line. */
  lemma FeedTracks(p: Parser, marks: seq<bool>, n: nat, line: string)
    requires Tracks(p, marks, n) && 1 <= n < |marks| && (marks[n] <==> IsExtInf(line))
    ensures Tracks(Feed(p, n, line), marks, n + 1)
  {
    var q := Feed(p, n, line);
    TagsExclusive(Trim(line));
    if IsExtInf(line) {
      ExtInfOpens(p, n, line);
      TracksOpen(p, q, marks, n);
    } else if p.pending.None? {
      IgnoredWithoutPending(p, n, line);
      TracksWiden(p, marks, n);
    } else if Tagged(line, "#EXTVLCOPT:") {
      VlcOptResetsRaw(p, n, line);
      TracksPendingChanged(p, q, marks, n);
    } else if Tagged(line, "#EXTGRP:") {
      GroupAppends(p, n, line);
      TracksPendingChanged(p, q, marks, n);
    } else if Url(Trim(line)) != "" {
      UrlLineCloses(p, n, line);
      assert q.done == p.done + [q.done[|p.done|]];
      TracksClosed(p, q, q.done[|p.done|], marks, n);
    } else {
      BlankLineMerges(p, n, line);
      TracksPendingChanged(p, q, marks, n);
    }
  }

  lemma TracksWiden(p: Parser, marks: seq<bool>, n: nat)
    requires Tracks(p, marks, n) && n < |marks|
    ensures Tracks(p, marks, n + 1)
  {
  }

  lemma TracksOpen(p: Parser, q: Parser, marks: seq<bool>, n: nat)
    requires Tracks(p, marks, n) && 1 <= n < |marks| && marks[n]
    requires q.done == p.done && q.pending.Some? && q.pending.value.index == n + 1 && q.pending.value.url.None?
    ensures Tracks(q, marks, n + 1)
  {
  }

  lemma TracksPendingChanged(p: Parser, q: Parser, marks: seq<bool>, n: nat)
    requires Tracks(p, marks, n) && n < |marks|
    requires p.pending.Some? && q.pending.Some? && q.done == p.done
    requires q.pending.value.index == p.pending.value.index && q.pending.value.url.None?
    ensures Tracks(q, marks, n + 1)
  {
  }

  lemma TracksClosed(p: Parser, q: Parser, c: Item, marks: seq<bool>, n: nat)
    requires Tracks(p, marks, n) && n < |marks|
    requires p.pending.Some? && q.pending.None? && q.done == p.done + [c]
    requires c.index == p.pending.value.index && Closed(c)
    ensures Tracks(q, marks, n + 1)
  {
    forall k | 0 <= k < |q.done|
      ensures FromLine(q.done[k], marks, n + 1) && Closed(q.done[k])
    {
      if k < |p.done| {
        assert q.done[k] == p.done[k];
      }
    }
  }

  /** Under `Tracks`, the entries in slot order come from flagged lines in increasing line order. */
  lemma ItemsInLineOrder(p: Parser, marks: seq<bool>, n: nat)
    requires Tracks(p, marks, n)
    ensures forall k :: 0 <= k < |Items(p)| ==> FromLine(Items(p)[k], marks, n)
    ensures forall i, j :: 0 <= i < j < |Items(p)| ==> Items(p)[i].index < Items(p)[j].index
  {
    if p.pending.None? {
      assert Items(p) == p.done;
    } else {
      var x := p.pending.value;
      assert Items(p) == p.done + [x];
      ItemsAppend(p.done, x, marks, n);
    }
  }

  lemma ItemsAppend(done: seq<Item>, x: Item, marks: seq<bool>, n: nat)
    requires forall k :: 0 <= k < |done| ==> FromLine(done[k], marks, n)
    requires forall i, j :: 0 <= i < j < |done| ==> done[i].index < done[j].index
    requires FromLine(x, marks, n) && forall k :: 0 <= k < |done| ==> done[k].index < x.index
    ensures forall k :: 0 <= k < |done + [x]| ==> FromLine((done + [x])[k], marks, n)
    ensures forall i, j :: 0 <= i < j < |done + [x]| ==> (done + [x])[i].index < (done + [x])[j].index
  {
  }

  lemma {:induction false} FeedAllTracks(p: Parser, lines: seq<string>, n: nat)
    requires Tracks(p, ExtInfMarks(lines), n) && 1 <= n
    ensures Tracks(FeedAll(p, lines[n..], n), ExtInfMarks(lines), |lines|)
    decreases |lines| - n
  {
    if n < |lines| {
      MarksAt(lines, IsExtInf, n);
      FeedTracks(p, ExtInfMarks(lines), n, lines[n]);
      assert lines[n..][1..] == lines[n + 1..];
      FeedAllTracks(Feed(p, n, lines[n]), lines, n + 1);
    }
  }

  /**
   * After a successful parse every entry, in slot order, was opened by an
   * `#EXTINF` line whose number is its `index` minus one; indices increase, the
   * closed entries carry a non-empty URL with no '|', and the pending one none.
   */
  lemma ParseTracksLines(raw: string)
    requires Parse(raw).Some?
    ensures Tracks(Parse(raw).value, ExtInfMarks(Split(raw, '\n')), |Split(raw, '\n')|)
  {
    var lines := Split(raw, '\n');
    var p0 := Parser(raw, Some(HeaderOf(lines[0])), [], None, []);
    assert Items(p0) == [];
    FeedAllTracks(p0, lines, 1);
  }

  /** `Tracks` read off the lines themselves: the entries stand on increasing `#EXTINF` lines after the header. */
  lemma EntriesOnExtInfLines(p: Parser, lines: seq<string>, n: nat)
    requires Tracks(p, ExtInfMarks(lines), n)
    ensures forall k :: 0 <= k < |Items(p)| ==> 2 <= Items(p)[k].index <= n && IsExtInf(lines[Items(p)[k].index - 1])
    ensures forall i, j :: 0 <= i < j < |Items(p)| ==> Items(p)[i].index < Items(p)[j].index
  {
    ItemsInLineOrder(p, ExtInfMarks(lines), n);
    forall k | 0 <= k < |Items(p)|
      ensures 2 <= Items(p)[k].index <= n && IsExtInf(lines[Items(p)[k].index - 1])
    {
      MarksAt(lines, IsExtInf, Items(p)[k].index - 1);
    }
  }

  // ---------------------------------------------------------------- round trip

  /** An `#EXTINF` line followed by a line that closes the entry, neither containing '\n'. */
  predicate CanonicalEntry(entry: (string, string))
  {
    && '\n' !in entry.0 && '\n' !in entry.1
    && IsExtInf(entry.0) && Untagged(entry.1) && Url(Trim(entry.1)) != ""
  }

  /** A header line and `#EXTINF`/URL pairs, one per entry, none containing '\n'. */
  ghost predicate Canonical(header: string, entries: seq<(string, string)>)
  {
    && StartsWith(header, "#EXTM3U") && '\n' !in header
    && forall k :: 0 <= k < |entries| ==> CanonicalEntry(entries[k])
  }

  function PairLines(entries: seq<(string, string)>): (r: seq<string>)
    ensures |r| == 2 * |entries|
  {
    if entries == [] then [] else [entries[0].0, entries[0].1] + PairLines(entries[1..])
  }

  function PairRaws(entries: seq<(string, string)>): (r: seq<string>)
    ensures |r| == |entries|
  {
    if entries == [] then [] else [entries[0].0 + "\n" + entries[0].1] + PairRaws(entries[1..])
  }

  /** One canonical entry adds one closed entry whose raw text is its two lines. */
  lemma FeedEntry(p: Parser, entry: (string, string), n: nat)
    requires CanonicalEntry(entry) && p.pending.None?
    ensures Feed(Feed(p, n, entry.0), n + 1, entry.1).pending.None?
    ensures Raws(Feed(Feed(p, n, entry.0), n + 1, entry.1).done) == Raws(p.done) + [entry.0 + "\n" + entry.1]
  {
    var e := entry.0;
    ExtInfOpens(p, n, e);
    assert e != "" by {
      assert |Trim(e)| >= 8;
    }
    UrlLineAppendsRaw(Feed(p, n, e), n + 1, entry.1);
  }

  /** A URL line closing a pending entry with a non-empty raw text appends that text and the line. */
  lemma UrlLineAppendsRaw(p: Parser, n: nat, line: string)
    requires p.pending.Some? && p.pending.value.raw != "" && Untagged(line) && Url(Trim(line)) != ""
    ensures Feed(p, n, line).pending.None?
    ensures Raws(Feed(p, n, line).done) == Raws(p.done) + [p.pending.value.raw + "\n" + line]
  {
    UrlLineCloses(p, n, line);
    RawsSnoc(p.done, Feed(p, n, line).done);
  }

  lemma RawsSnoc(done: seq<Item>, longer: seq<Item>)
    requires |longer| == |done| + 1 && longer[..|done|] == done
    ensures Raws(longer) == Raws(done) + [longer[|done|].raw]
  {
  }

  lemma {:induction false} FeedPairs(p: Parser, entries: seq<(string, string)>, n: nat)
    requires (forall k :: 0 <= k < |entries| ==> CanonicalEntry(entries[k])) && p.pending.None?
    ensures FeedAll(p, PairLines(entries), n).pending.None?
    ensures Raws(FeedAll(p, PairLines(entries), n).done) == Raws(p.done) + PairRaws(entries)
    decreases |entries|
  {
    if entries == [] {
      assert Raws(p.done) + [] == Raws(p.done);
    } else {
      CanonicalTail(entries);
      var lines := PairLines(entries);
      assert lines == [entries[0].0, entries[0].1] + PairLines(entries[1..]);
      assert lines[0] == entries[0].0 && lines[1..][0] == entries[0].1;
      assert lines[1..][1..] == PairLines(entries[1..]);
      var p1 := Feed(p, n, entries[0].0);
      var p2 := Feed(p1, n + 1, entries[0].1);
      assert FeedAll(p, lines, n) == FeedAll(p1, lines[1..], n + 1);
      assert FeedAll(p1, lines[1..], n + 1) == FeedAll(p2, PairLines(entries[1..]), n + 2);
      FeedEntry(p, entries[0], n);
      FeedPairs(p2, entries[1..], n + 2);
      AppendAssoc(Raws(p.done), [entries[0].0 + "\n" + entries[0].1], PairRaws(entries[1..]));
    }
  }

  lemma CanonicalTail(entries: seq<(string, string)>)
    requires entries != [] && forall k :: 0 <= k < |entries| ==> CanonicalEntry(entries[k])
    ensures CanonicalEntry(entries[0])
    ensures forall k :: 0 <= k < |entries[1..]| ==> CanonicalEntry(entries[1..][k])
  {
    assert forall k :: 0 <= k < |entries[1..]| ==> entries[1..][k] == entries[k + 1];
  }

  lemma {:induction false} JoinPairs(entries: seq<(string, string)>)
    requires entries != []
    ensures Join(PairRaws(entries), "\n") == Join(PairLines(entries), "\n")
    decreases |entries|
  {
    var e := entries[0].0;
    var u := entries[0].1;
    var lines := PairLines(entries);
    assert lines[1..][1..] == PairLines(entries[1..]);
    if |entries| == 1 {
      assert PairRaws(entries) == [e + "\n" + u];
      assert lines == [e, u];
    } else {
      JoinPairs(entries[1..]);
      assert PairRaws(entries)[1..] == PairRaws(entries[1..]);
    }
  }

  lemma NoNewlineInLines(entries: seq<(string, string)>)
    requires forall k :: 0 <= k < |entries| ==> '\n' !in entries[k].0 && '\n' !in entries[k].1
    ensures forall k :: 0 <= k < |PairLines(entries)| ==> '\n' !in PairLines(entries)[k]
    decreases |entries|
  {
    if entries != [] {
      NoNewlineInLines(entries[1..]);
      var lines := PairLines(entries);
      forall k | 0 <= k < |lines|
        ensures '\n' !in lines[k]
      {
        if k >= 2 {
          assert lines[k] == PairLines(entries[1..])[k - 2];
        }
      }
    }
  }

  /** Splitting the joined playlist on '\n' gives back its lines. */
  lemma PlaylistLines(header: string, entries: seq<(string, string)>)
    requires Canonical(header, entries)
    ensures Split(Join([header] + PairLines(entries), "\n"), '\n') == [header] + PairLines(entries)
  {
    var lines := [header] + PairLines(entries);
    NoNewlineInLines(entries);
    forall k | 0 <= k < |lines|
      ensures '\n' !in lines[k]
    {
      if k > 0 {
        assert lines[k] == PairLines(entries)[k - 1];
      }
    }
    SplitJoin(lines, '\n');
  }

  lemma JoinHeader(header: string, rest: seq<string>)
    requires rest != []
    ensures Join([header] + rest, "\n") == header + "\n" + Join(rest, "\n")
  {
    assert ([header] + rest)[1..] == rest;
  }

  /** Parsing a canonical playlist runs the loop over its entry lines after the header. */
  lemma ParseCanonical(header: string, entries: seq<(string, string)>)
    requires Canonical(header, entries)
    ensures var raw := Join([header] + PairLines(entries), "\n");
      Parse(raw) == Some(FeedAll(Parser(raw, Some(HeaderOf(header)), [], None, []), PairLines(entries), 1))
  {
    var lines := [header] + PairLines(entries);
    PlaylistLines(header, entries);
    assert lines[0] == header && lines[1..] == PairLines(entries);
  }

  /** Writing a parser with no pending entry whose raw texts are those of the entries. */
  lemma WriteClosed(p: Parser, header: string, entries: seq<(string, string)>)
    requires p.header == Some(HeaderOf(header)) && p.pending.None? && Raws(p.done) == PairRaws(entries)
    ensures Write(p) == header + "\n" + Join(PairRaws(entries), "\n")
  {
    assert GetPlaylist(p).items == p.done;
  }

  /**
   * `write` undoes `parse` on a playlist made of a header and `#EXTINF`/URL line
   * pairs: joining the lines with '\n', parsing and writing gives the text back.
   */
  lemma WriteParseRoundTrip(header: string, entries: seq<(string, string)>)
    requires Canonical(header, entries) && entries != []
    ensures Parse(Join([header] + PairLines(entries), "\n")).Some?
    ensures Write(Parse(Join([header] + PairLines(entries), "\n")).value) == Join([header] + PairLines(entries), "\n")
  {
    var raw := Join([header] + PairLines(entries), "\n");
    var p0 := Parser(raw, Some(HeaderOf(header)), [], None, []);
    ParseCanonical(header, entries);
    FeedPairs(p0, entries, 1);
    var p := FeedAll(p0, PairLines(entries), 1);
    assert Raws(p0.done) + PairRaws(entries) == PairRaws(entries);
    WriteClosed(p, header, entries);
    JoinPairs(entries);
    JoinHeader(header, PairLines(entries));
  }

  // ---------------------------------------------------------------- group cache

  /** Different queries never share a cache key. */
  lemma {:induction false} CacheKeyInjective(a: string, b: string)
    requires CacheKey(a) == CacheKey(b)
    ensures a == b
    decreases |a|
  {
    if |a| >= 2 {
      assert |b| >= 2;
      assert CacheKey(a)[2..] == CacheKey(a[1..]);
      assert CacheKey(b)[2..] == CacheKey(b[1..]);
      CacheKeyInjective(a[1..], b[1..]);
      assert a == [a[0]] + a[1..] && b == [b[0]] + b[1..];
    }
  }

  /** Every cached playlist is the one its query would build now. */
  ghost predicate CacheCoherent(lower: string -> string, p: Parser, cache: map<string, Playlist>)
  {
    forall g :: CacheKey(g) in cache ==> cache[CacheKey(g)] == GroupPlaylist(lower, p, g)
  }

  /**
   * While the entries do not change, the cache is transparent: the answer is the
   * freshly filtered playlist and the cache stays coherent.
   */
  lemma CachedAnswerIsFresh(lower: string -> string, p: Parser, cache: map<string, Playlist>, group: string)
    requires CacheCoherent(lower, p, cache)
    ensures PlaylistByGroup(lower, p, cache, group).0 == GroupPlaylist(lower, p, group)
    ensures CacheCoherent(lower, p, PlaylistByGroup(lower, p, cache, group).1)
  {
    var r := PlaylistByGroup(lower, p, cache, group);
    forall g | CacheKey(g) in r.1
      ensures r.1[CacheKey(g)] == GroupPlaylist(lower, p, g)
    {
      if CacheKey(g) == CacheKey(group) {
        CacheKeyInjective(g, group);
      }
    }
  }

  /** Asking twice gives the same playlist and leaves the cache as the first call left it. */
  lemma RepeatedQueryIsCached(lower: string -> string, p: Parser, cache: map<string, Playlist>, group: string)
    ensures var first := PlaylistByGroup(lower, p, cache, group);
      PlaylistByGroup(lower, p, first.1, group) == first
  {
  }
}

=== FILE: payload.dfy ===
/**
 * The shapes of the tweet-syndication payload the extractors read
 * (src/types/card.ts and the media records it refers to). Only the fields the
 * extractors touch are kept; JSON object entries are sequences of key/value
 * pairs in property-iteration order, and an optional property is an `Option`.
 */
module Payload {
  import opened Base

  /** One rendition listed in `video_info.variants`. */
  datatype RawVariant = RawVariant(bitrate: Option<nat>, contentType: string, url: string)

  datatype VideoInfo = VideoInfo(aspectRatio: seq<nat>, variants: seq<RawVariant>)

  datatype OriginalInfo = OriginalInfo(width: nat, height: nat)

  /** A `mediaDetails` entry, also used for the `media_entities` of a unified card. */
  datatype MediaDetails = MediaDetails(
    mediaType: string,
    mediaUrlHttps: string,
    originalInfo: OriginalInfo,
    extAltText: Option<string>,
    videoInfo: VideoInfo)

  datatype ImageValue = ImageValue(height: nat, width: nat, url: string)

  /** A card binding value; only the string and image payloads are read. */
  datatype BindingValue = BindingValue(stringValue: Option<string>, imageValue: Option<ImageValue>)

  datatype TwitterCard = TwitterCard(bindingValues: seq<(string, BindingValue)>)

  /** A `component_objects` entry; `dataId` is `data.id` (absent when `data` is). */
  datatype ComponentObject = ComponentObject(componentType: string, dataId: Option<string>)

  /** The JSON document carried in the `unified_card` binding's `string_value`. */
  datatype UnifiedCardData = UnifiedCardData(
    componentObjects: Option<seq<(string, ComponentObject)>>,
    mediaEntities: Option<seq<(string, MediaDetails)>>)

  /** A tweet, its quoted tweet or its parent: the same record shape nested. */
  datatype Tweet = Tweet(
    mediaDetails: Option<seq<MediaDetails>>,
    quotedTweet: Option<Tweet>,
    parent: Option<Tweet>,
    card: Option<TwitterCard>)

  /** `object[key]` on an object given as its entries (JSON objects have distinct keys). */
  function Lookup<V>(entries: seq<(string, V)>, key: string): (r: Option<V>)
    ensures r.Some? <==> exists i :: 0 <= i < |entries| && entries[i].0 == key
    ensures r.Some? ==> exists i :: 0 <= i < |entries| && entries[i] == (key, r.value)
  {
    if entries == [] then None
    else if entries[0].0 == key then Some(entries[0].1)
    else
      var r := Lookup(entries[1..], key);
      assert forall i :: 0 < i < |entries| ==> entries[i] == entries[1..][i - 1];
      r
  }

  /** `key in object`. */
  predicate HasKey<V>(entries: seq<(string, V)>, key: string)
  {
    exists i :: 0 <= i < |entries| && entries[i].0 == key
  }
}

=== FILE: range_requests.dfy ===
/**
 * The byte-range plugin of range-requests.mjs: a request carrying a single
 * `Range: bytes=...` header (section 2.1 of RFC 7233) is answered from a
 * complete cached response with a 206 Partial Content slice, or with a 416
 * Range Not Satisfiable when anything goes wrong (sections 4.1, 4.2 and 4.4
 * of RFC 7233). Blob, Request, Response and Headers are plain values here: a
 * body is a byte sequence and a header list a map keyed by lower-case name.
 */
module RangeRequests {
  import opened Base
  import opened Text
  import opened Seqs

  /** What `parseRangeHeader` returns: at least one of the two bounds is always present. */
  datatype ByteRange =
    | FromTo(first: nat, last: nat)   // bytes=first-last
    | From(first: nat)                // bytes=first-
    | Suffix(length: nat)             // bytes=-length

  /** Why no partial response could be built; each one ends in a 416. */
  datatype RangeError =
    | UnitNotBytes     // the normalised header does not start with 'bytes='
    | MultipleRanges   // it holds a ','
    | NoRangeValues    // no '-', or no digit on either side of the first one
    | NotSatisfiable   // the last position lies beyond the body
    | NoRangeHeader    // the request has no (or an empty) Range header

  // ---------------------------------------------------------------- the regular expression /(\d*)-(\d*)/

  /** The longest run of decimal digits `s` starts with. */
  function LeadingDigits(s: string): (r: string)
    ensures StartsWith(s, r) && AllDigits(r)
    ensures |r| < |s| ==> !IsDigit(s[|r|])
  {
    if s != [] && IsDigit(s[0]) then [s[0]] + LeadingDigits(s[1..]) else []
  }

  /** The longest run of decimal digits `s` ends with. */
  function TrailingDigits(s: string): (r: string)
    ensures EndsWith(s, r) && AllDigits(r)
    ensures |r| < |s| ==> !IsDigit(s[|s| - |r| - 1])
  {
    if s != [] && IsDigit(s[|s| - 1]) then TrailingDigits(s[..|s| - 1]) + [s[|s| - 1]] else []
  }

  /**
   * One match attempt at position `i`. The greedy `\d*` takes the whole digit
   * run; backtracking to a shorter run cannot help, since a digit and not a
   * '-' would follow it.
   */
  function MatchAt(s: string, i: nat): Option<(string, string)>
    requires i <= |s|
  {
    var d := LeadingDigits(s[i..]);
    if i + |d| < |s| && s[i + |d|] == '-' then Some((d, LeadingDigits(s[i + |d| + 1..]))) else None
  }

  /** `exec` from position `i`: the leftmost match and its two capture groups, or `null`. */
  function Exec(s: string, i: nat): Option<(string, string)>
    requires i <= |s|
    decreases |s| - i
  {
    if MatchAt(s, i).Some? then MatchAt(s, i)
    else if i == |s| then None
    else Exec(s, i + 1)
  }

  /** The digits immediately before the first '-'. */
  function DigitsBeforeDash(s: string): string
  {
    TrailingDigits(BeforeFirst(s, '-'))
  }

  /** The digits immediately after the first '-'. */
  function DigitsAfterDash(s: string): string
    requires '-' in s
  {
    BeforeFirstBound(s, '-');
    LeadingDigits(s[|BeforeFirst(s, '-')| + 1..])
  }

  lemma BeforeFirstBound(s: string, c: char)
    requires c in s
    ensures |BeforeFirst(s, c)| < |s|
  {
  }

  /** The leftmost match is anchored at the first '-': its groups are the digit runs on either side of it. */
  lemma ExecAtFirstDash(s: string)
    requires '-' in s
    ensures Exec(s, 0) == Some((DigitsBeforeDash(s), DigitsAfterDash(s)))
  {
    var m := |BeforeFirst(s, '-')|;
    var t := DigitsBeforeDash(s);
    var i0 := m - |t|;
    BeforeFirstBound(s, '-');
    LeadingDigitsUnique(s[i0..], t);
    forall k | 0 <= k < i0
      ensures MatchAt(s, k).None?
    {
      NoMatchBeforeRun(s, k);
    }
    ExecFrom(s, 0, i0, (t, DigitsAfterDash(s)));
  }

  /** `exec` returns the first position from `i` on where an attempt matches. */
  lemma {:induction false} ExecFrom(s: string, i: nat, i0: nat, g: (string, string))
    requires i <= i0 <= |s| && MatchAt(s, i0) == Some(g)
    requires forall k :: i <= k < i0 ==> MatchAt(s, k).None?
    ensures Exec(s, i) == Some(g)
    decreases i0 - i
  {
    if i < i0 {
      ExecFrom(s, i + 1, i0, g);
    }
  }

  /** Left of the digit run before the first '-', no attempt matches. */
  lemma NoMatchBeforeRun(s: string, i: nat)
    requires '-' in s
    requires i < |BeforeFirst(s, '-')| - |DigitsBeforeDash(s)|
    ensures MatchAt(s, i).None?
  {
    var m := |BeforeFirst(s, '-')|;
    var i0 := m - |DigitsBeforeDash(s)|;
    var d := LeadingDigits(s[i..]);
    assert s[..m] == BeforeFirst(s, '-');
  }

  /** A digit run followed by a non-digit (or the end) is the leading digit run. */
  lemma {:induction false} LeadingDigitsUnique(s: string, d: string)
    requires StartsWith(s, d) && AllDigits(d)
    requires |d| < |s| ==> !IsDigit(s[|d|])
    ensures LeadingDigits(s) == d
    decreases |d|
  {
    if d != [] {
      assert s[0] == d[0];
      assert s[1..][..|d| - 1] == d[1..];
      LeadingDigitsUnique(s[1..], d[1..]);
    }
  }

  /** Without a '-' the pattern never matches. */
  lemma {:induction false} ExecNoDash(s: string, i: nat)
    requires '-' !in s && i <= |s|
    ensures Exec(s, i).None?
    decreases |s| - i
  {
    if i < |s| {
      ExecNoDash(s, i + 1);
    }
  }

  // ---------------------------------------------------------------- parseRangeHeader

  /** `rangeHeader.trim().toLowerCase()`. */
  function Normalize(header: string): string
  {
    Lower(Trim(header))
  }

  /** The range two capture groups describe; an empty group is an absent bound. */
  function RangeOf(start: string, end: string): (r: ByteRange)
    requires AllDigits(start) && AllDigits(end) && (start != [] || end != [])
    ensures start == [] ==> r == Suffix(DigitsValue(end))
    ensures start != [] && end == [] ==> r == From(DigitsValue(start))
    ensures start != [] && end != [] ==> r == FromTo(DigitsValue(start), DigitsValue(end))
  {
    if start == [] then Suffix(DigitsValue(end))
    else if end == [] then From(DigitsValue(start))
    else FromTo(DigitsValue(start), DigitsValue(end))
  }

  /**
   * `parseRangeHeader` after normalisation: the unit must be 'bytes', a list
   * of ranges is refused, and the bounds are the digit runs on either side of
   * the first '-', at least one of them non-empty.
   */
  function ParseNormalized(n: string): (r: Result<ByteRange, RangeError>)
    ensures r == Err(UnitNotBytes) <==> !StartsWith(n, "bytes=")
    ensures r == Err(MultipleRanges) <==> StartsWith(n, "bytes=") && ',' in n
    ensures r == Err(NoRangeValues) <==>
      StartsWith(n, "bytes=") && ',' !in n && ('-' !in n || (DigitsBeforeDash(n) == [] && DigitsAfterDash(n) == []))
    ensures r.Err? ==> r.error in {UnitNotBytes, MultipleRanges, NoRangeValues}
    ensures r.Ok? ==> '-' in n && r.value == RangeOf(DigitsBeforeDash(n), DigitsAfterDash(n))
  {
    if !StartsWith(n, "bytes=") then Err(UnitNotBytes)
    else if ',' in n then Err(MultipleRanges)
    else
      if '-' in n then ExecAtFirstDash(n); ParseGroups(Exec(n, 0))
      else ExecNoDash(n, 0); ParseGroups(Exec(n, 0))
  }

  /** `parseRangeHeader`. */
  function ParseRangeHeader(header: string): Result<ByteRange, RangeError>
  {
    ParseNormalized(Normalize(header))
  }

  /** The header is read only through its trimmed, lower-cased form: normalising it first changes nothing. */
  lemma ParseIgnoresCaseAndSpace(header: string)
    ensures ParseRangeHeader(header) == ParseRangeHeader(Normalize(header))
  {
    NormalizeIdempotent(header);
  }

  lemma NormalizeIdempotent(header: string)
    ensures Normalize(Normalize(header)) == Normalize(header)
  {
    var t := Trim(header);
    var n := Lower(t);
    if n != [] {
      LowerKeepsSpace(t[0]);
      LowerKeepsSpace(t[|t| - 1]);
    }
    assert Trim(n) == n;
    forall i | 0 <= i < |n|
      ensures AsciiLower(n[i]) == n[i]
    {
    }
    assert Lower(n) == n;
  }

  lemma LowerKeepsSpace(c: char)
    ensures IsJsSpace(AsciiLower(c)) <==> IsJsSpace(c)
  {
  }

  /** The tail of `parseRangeHeader` once the regular expression has run. */
  function ParseGroups(m: Option<(string, string)>): (r: Result<ByteRange, RangeError>)
    requires m.Some? ==> AllDigits(m.value.0) && AllDigits(m.value.1)
    ensures r.Err? <==> m.None? || (m.value.0 == [] && m.value.1 == [])
    ensures r.Err? ==> r.error == NoRangeValues
  {
    match m
    case None => Err(NoRangeValues)
    case Some((start, end)) =>
      if start == [] && end == [] then Err(NoRangeValues) else Ok(RangeOf(start, end))
  }

  // ---------------------------------------------------------------- the header a client sends

  /** The header a client writes for a range (section 2.1 of RFC 7233). */
  function FormatRange(r: ByteRange): string
  {
    match r
    case FromTo(a, b) => "bytes=" + NatToString(a) + "-" + NatToString(b)
    case From(a) => "bytes=" + NatToString(a) + "-"
    case Suffix(n) => "bytes=-" + NatToString(n)
  }

  /** The digit strings a range is written with; the absent bound is empty. */
  function StartText(r: ByteRange): string
  {
    if r.Suffix? then [] else NatToString(r.first)
  }

  function EndText(r: ByteRange): string
  {
    match r
    case FromTo(_, b) => NatToString(b)
    case From(_) => []
    case Suffix(n) => NatToString(n)
  }

  lemma FormatShape(r: ByteRange)
    ensures FormatRange(r) == "bytes=" + StartText(r) + ['-'] + EndText(r)
    ensures AllDigits(StartText(r)) && AllDigits(EndText(r))
    ensures StartText(r) != [] || EndText(r) != []
  {
  }

  /** Every header the client writes parses back to the range it was written for. */
  lemma ParseFormatRoundTrip(r: ByteRange)
    ensures ParseRangeHeader(FormatRange(r)) == Ok(r)
  {
    FormatIsNormal(r);
    FormatParsesNormalized(r);
    ParseNormalString(FormatRange(r), Ok(RangeOf(StartText(r), EndText(r))));
    if r.FromTo? || r.From? {
      DecimalRoundTrip(r.first);
    }
    if r.FromTo? {
      DecimalRoundTrip(r.last);
    }
    if r.Suffix? {
      DecimalRoundTrip(r.length);
    }
  }

  lemma ParseNormalString(h: string, v: Result<ByteRange, RangeError>)
    requires Normalize(h) == h && ParseNormalized(h) == v
    ensures ParseRangeHeader(h) == v
  {
  }

  lemma FormatIsNormal(r: ByteRange)
    ensures Normalize(FormatRange(r)) == FormatRange(r)
  {
    FormatShape(r);
    WrittenIsNormal(StartText(r), EndText(r));
  }

  lemma FormatParsesNormalized(r: ByteRange)
    ensures AllDigits(StartText(r)) && AllDigits(EndText(r)) && (StartText(r) != [] || EndText(r) != [])
    ensures ParseNormalized(FormatRange(r)) == Ok(RangeOf(StartText(r), EndText(r)))
  {
    FormatShape(r);
    ParseWritten(StartText(r), EndText(r));
  }

  /** 'bytes=' and two digit runs around a '-' parse to the range those runs describe. */
  lemma ParseWritten(a: string, b: string)
    requires AllDigits(a) && AllDigits(b)
    ensures a != [] || b != [] ==> ParseNormalized("bytes=" + a + "-" + b) == Ok(RangeOf(a, b))
    ensures a == [] && b == [] ==> ParseNormalized("bytes=" + a + "-" + b) == Err(NoRangeValues)
  {
    FormatNormal(a, b);
    var p := "bytes=" + a;
    var s := p + "-" + b;
    assert StartsWith(s, "bytes=") by {
      assert s[..6] == "bytes=";
    }
    assert s == p + ("-" + b);
    BeforeFirstPrefix(p, "-" + b, '-');
    assert DigitsBeforeDash(s) == a by {
      TrailingDigitsUnique(p, a);
    }
    assert DigitsAfterDash(s) == b by {
      assert s[|p| + 1..] == b;
      LeadingDigitsUnique(b, b);
    }
    assert s[|p|] == '-';
  }

  lemma WrittenIsNormal(a: string, b: string)
    requires AllDigits(a) && AllDigits(b)
    ensures Normalize("bytes=" + a + "-" + b) == "bytes=" + a + "-" + b
  {
    FormatNormal(a, b);
    PlainNormal("bytes=" + a + "-" + b);
  }

  /** A character that neither trimming nor lower-casing touches. */
  predicate PlainChar(c: char)
  {
    !('A' <= c <= 'Z') && !IsJsSpace(c)
  }

  /** A written header holds only characters normalisation keeps, and no ','. */
  lemma FormatNormal(a: string, b: string)
    requires AllDigits(a) && AllDigits(b)
    ensures var s := "bytes=" + a + "-" + b;
      (forall i :: 0 <= i < |s| ==> PlainChar(s[i])) && ',' !in s && '-' !in "bytes=" + a
  {
    var p := "bytes=" + a;
    var s := p + "-" + b;
    forall i | 0 <= i < |s|
      ensures PlainChar(s[i]) && s[i] != ',' && (i < |p| ==> s[i] != '-')
    {
      if i < 6 {
        assert s[i] == "bytes="[i];
      } else if i < |p| {
        assert s[i] == a[i - 6];
      } else if i > |p| {
        assert s[i] == b[i - |p| - 1];
      }
    }
    assert p == s[..|p|];
  }

  /** A string of plain characters is its own normal form. */
  lemma PlainNormal(s: string)
    requires forall i :: 0 <= i < |s| ==> PlainChar(s[i])
    ensures Normalize(s) == s
  {
    assert Trim(s) == s;
    assert Lower(s) == s;
  }

  /** A digit run preceded by a non-digit (or the start) is the trailing digit run. */
  lemma {:induction false} TrailingDigitsUnique(s: string, d: string)
    requires EndsWith(s, d) && AllDigits(d)
    requires |d| < |s| ==> !IsDigit(s[|s| - |d| - 1])
    ensures TrailingDigits(s) == d
    decreases |d|
  {
    if d != [] {
      var s', d' := s[..|s| - 1], d[..|d| - 1];
      assert s[|s| - 1] == d[|d| - 1];
      assert s'[|s'| - |d'|..] == d';
      TrailingDigitsUnique(s', d');
      assert d == d' + [d[|d| - 1]];
    }
  }

  /** A suffix request: 'bytes=-500' asks for the last 500 bytes. */
  lemma ParseSuffixExample()
    ensures ParseRangeHeader("bytes=-500") == Ok(Suffix(500))
  {
    assert NatToString(500) == "500";
    assert FormatRange(Suffix(500)) == "bytes=-500";
    ParseFormatRoundTrip(Suffix(500));
  }

  /** 'bytes=-' names neither bound and is refused. */
  lemma ParseNoBoundsExample()
    ensures ParseNormalized("bytes=-") == Err(NoRangeValues)
  {
    ParseWritten("", "");
    assert "bytes=" + "" + "-" + "" == "bytes=-";
  }

  // ---------------------------------------------------------------- calculateEffectiveBoundaries

  /** The effective half-open interval `[start, end)` of the body to send. */
  datatype Span = Span(start: nat, end: nat)

  /** The `end` the parser produced, if any. */
  function LastOf(range: ByteRange): Option<nat>
  {
    match range
    case FromTo(_, b) => Some(b)
    case From(_) => None
    case Suffix(n) => Some(n)
  }

  /**
   * `calculateEffectiveBoundaries`: refuses only a truthy `end` beyond the
   * body (`start < 0` cannot arise from the parser), then turns an inclusive
   * last position into an exclusive end and a suffix length into a start.
   */
  function EffectiveBoundaries(size: nat, range: ByteRange): (r: Result<Span, RangeError>)
    ensures r.Err? <==> (range.FromTo? && range.last > size) || (range.Suffix? && range.length > size)
    ensures r.Err? ==> r.error == NotSatisfiable
    ensures r.Ok? ==> r.value.end <= size + 1
    ensures r.Ok? && range.FromTo? ==> r.value.end - r.value.start == range.last + 1 - range.first
    ensures r.Ok? && !range.FromTo? ==> r.value.end == size
    ensures r.Ok? && range.From? ==> r.value.start == range.first
    ensures r.Ok? && range.Suffix? ==> r.value.end - r.value.start == range.length
  {
    var end := LastOf(range);
    if end.Some? && end.value != 0 && end.value > size then Err(NotSatisfiable)
    else
      match range
      case FromTo(a, b) => Ok(Span(a, b + 1))
      case From(a) => Ok(Span(a, size))
      case Suffix(n) => Ok(Span(size - n, size))
  }

  /**
   * What section 2.1 of RFC 7233 selects for a range on a body of `size`
   * bytes: nothing when unsatisfiable or (first > last) invalid; otherwise the
   * positions from the first one up to the last one or the body's end,
   * whichever comes first, or the last `length` bytes (all of them if fewer).
   */
  function RfcSelection(size: nat, range: ByteRange): Option<Span>
  {
    match range
    case FromTo(a, b) => if a <= b && a < size then Some(Span(a, if b + 1 < size then b + 1 else size)) else None
    case From(a) => if a < size then Some(Span(a, size)) else None
    case Suffix(n) => if n > 0 && size > 0 then Some(Span(if n < size then size - n else 0, size)) else None
  }

  // ---------------------------------------------------------------- Blob.slice

  function Min(a: nat, b: nat): nat
  {
    if a < b then a else b
  }

  /** `blob.slice(start, end)` for non-negative offsets: both are clamped to the size, and a reversed pair is empty. */
  function Slice(body: Bytes, start: nat, end: nat): (r: Bytes)
    ensures |r| == (if Min(start, |body|) < Min(end, |body|) then Min(end, |body|) - Min(start, |body|) else 0)
    ensures forall i :: 0 <= i < |r| ==> r[i] == body[start + i]
  {
    var from, to := Min(start, |body|), Min(end, |body|);
    if from < to then body[from..to] else []
  }

  /** Whenever the range is satisfiable and not refused, the slice is exactly the bytes section 2.1 of RFC 7233 selects. */
  lemma SliceIsRfcSelection(body: Bytes, range: ByteRange)
    requires EffectiveBoundaries(|body|, range).Ok? && RfcSelection(|body|, range).Some?
    ensures var span := EffectiveBoundaries(|body|, range).value;
      var sel := RfcSelection(|body|, range).value;
      Slice(body, span.start, span.end) == body[sel.start..sel.end]
  {
  }

  /** A start at or past the end is not refused: the answer is an empty 206 where the RFC asks for a 416. */
  lemma StartPastEndAccepted(body: Bytes, a: nat)
    requires a >= |body|
    ensures RfcSelection(|body|, From(a)).None?
    ensures EffectiveBoundaries(|body|, From(a)).Ok?
    ensures Slice(body, a, |body|) == []
  {
  }

  /** A suffix longer than the body is refused, where the RFC would send the whole body. */
  lemma LongSuffixRefused(body: Bytes, n: nat)
    requires |body| > 0 && n > |body|
    ensures RfcSelection(|body|, Suffix(n)) == Some(Span(0, |body|))
    ensures EffectiveBoundaries(|body|, Suffix(n)) == Err(NotSatisfiable)
  {
  }

  /**
   * The boundaries section 2.1 of RFC 7233 asks for: the selected bytes when
   * there are any, a 416 otherwise. The span is never empty and never runs
   * past the body.
   */
  function RfcBoundaries(size: nat, range: ByteRange): (r: Result<Span, RangeError>)
    ensures r.Ok? <==> RfcSelection(size, range).Some?
    ensures r.Ok? ==> r.value.start < r.value.end <= size
  {
    match RfcSelection(size, range)
    case None => Err(NotSatisfiable)
    case Some(span) => Ok(span)
  }

  /**
   * With the corrected boundaries the headers agree with the body: the
   * Content-Range's last position lies inside the body and Content-Length is
   * the length of the span it reports.
   */
  lemma RfcHeadersConsistent(body: Bytes, range: ByteRange)
    requires RfcBoundaries(|body|, range).Ok?
    ensures var span := RfcBoundaries(|body|, range).value;
      && span.end - 1 < |body|
      && |Slice(body, span.start, span.end)| == span.end - span.start
  {
  }

  /**
   * The correction only touches the divergent inputs: wherever the source
   * answers, the RFC selects something and a first-last range ends inside the
   * body, both give the same span.
   */
  lemma RfcBoundariesAgree(size: nat, range: ByteRange)
    requires EffectiveBoundaries(size, range).Ok? && RfcSelection(size, range).Some?
    requires range.FromTo? ==> range.last < size
    ensures RfcBoundaries(size, range) == EffectiveBoundaries(size, range)
  {
  }

  /**
   * The corrected boundaries on the three divergent inputs: 'bytes=0-10' on
   * ten bytes reports the last position 9, a start past the end is refused,
   * and a suffix longer than the body selects all of it.
   */
  lemma RfcBoundariesOnDivergences(size: nat, a: nat, n: nat)
    ensures RfcBoundaries(10, FromTo(0, 10)) == Ok(Span(0, 10))
    ensures ContentRange(Span(0, 10), 10) == "bytes 0-9/10"
    ensures a >= size ==> RfcBoundaries(size, From(a)) == Err(NotSatisfiable)
    ensures 0 < size < n ==> RfcBoundaries(size, Suffix(n)) == Ok(Span(0, size))
  {
    assert NatToString(0) == "0" && NatToString(10) == "10";
    assert IntToString(0) == "0" && IntToString(9) == "9";
  }

  // ---------------------------------------------------------------- createPartialResponse

  datatype Request = Request(headers: map<string, string>, destination: string)

  datatype Response = Response(status: nat, statusText: string, headers: map<string, string>, body: Bytes)

  /** `new Response('', { status: 416, ... })`; a string body brings its content type. */
  function NotSatisfiableResponse(): Response
  {
    Response(416, "Range Not Satisfiable", map["content-type" := "text/plain;charset=UTF-8"], [])
  }

  /** `bytes ${start}-${end - 1}/${size}`, from the effective (unclamped) bounds. */
  function ContentRange(span: Span, size: nat): string
  {
    "bytes " + IntToString(span.start) + "-" + IntToString(span.end - 1) + "/" + NatToString(size)
  }

  /**
   * The 206 built from the original: its headers, with Content-Length set to
   * the slice's length and Content-Range to the effective bounds.
   */
  function PartialOf(original: Response, span: Span): (r: Response)
    ensures r.status == 206 && r.statusText == "Partial Content"
    ensures r.body == Slice(original.body, span.start, span.end)
    ensures "content-length" in r.headers && r.headers["content-length"] == NatToString(|r.body|)
    ensures "content-range" in r.headers && r.headers["content-range"] == ContentRange(span, |original.body|)
  {
    var sliced := Slice(original.body, span.start, span.end);
    var headers := original.headers["content-length" := NatToString(|sliced|)];
    Response(206, "Partial Content", headers["content-range" := ContentRange(span, |original.body|)], sliced)
  }

  /** The partial response keeps every other header of the original and adds only the two it sets. */
  lemma PartialKeepsHeaders(original: Response, span: Span)
    ensures PartialOf(original, span).headers.Keys == original.headers.Keys + {"content-length", "content-range"}
    ensures forall k :: k in original.headers && k != "content-length" && k != "content-range" ==>
      PartialOf(original, span).headers[k] == original.headers[k]
  {
  }

  /** The body of the `try` block once the original is known not to be a 206; `Err` where it throws. */
  function TryPartialResponse(request: Request, original: Response): (r: Result<Response, RangeError>)
    ensures r.Err? <==>
      || "range" !in request.headers || request.headers["range"] == ""
      || ParseRangeHeader(request.headers["range"]).Err?
      || EffectiveBoundaries(|original.body|, ParseRangeHeader(request.headers["range"]).value).Err?
    ensures r.Ok? ==>
      r.value == PartialOf(original, EffectiveBoundaries(|original.body|, ParseRangeHeader(request.headers["range"]).value).value)
  {
    if "range" !in request.headers || request.headers["range"] == "" then Err(NoRangeHeader)
    else
      match ParseRangeHeader(request.headers["range"])
      case Err(e) => Err(e)
      case Ok(range) =>
        match EffectiveBoundaries(|original.body|, range)
        case Err(e) => Err(e)
        case Ok(span) => Ok(PartialOf(original, span))
  }

  /**
   * `createPartialResponse`: an original 206 is passed through as it is;
   * otherwise the partial response, or a 416 if building it threw.
   */
  function CreatePartialResponse(request: Request, original: Response): (r: Response)
    ensures original.status == 206 ==> r == original
    ensures original.status != 206 ==>
      (r.status == 206 <==> TryPartialResponse(request, original).Ok?)
      && (r.status != 206 ==> r == NotSatisfiableResponse())
    ensures original.status != 206 && TryPartialResponse(request, original).Ok? ==>
      r == PartialOf(original, EffectiveBoundaries(|original.body|, ParseRangeHeader(request.headers["range"]).value).value)
  {
    if original.status == 206 then original
    else
      match TryPartialResponse(request, original)
      case Ok(partial) => partial
      case Err(_) => NotSatisfiableResponse()
  }

  /** The advertised Content-Length is always the length of the body actually sent. */
  lemma ContentLengthIsBodyLength(request: Request, original: Response)
    requires original.status != 206
    requires CreatePartialResponse(request, original).status == 206
    ensures var r := CreatePartialResponse(request, original);
      "content-length" in r.headers && r.headers["content-length"] == NatToString(|r.body|)
  {
    var partial := TryPartialResponse(request, original);
    assert partial.Ok?;
  }

  /** Once the Range header is known to parse, the answer is decided by the boundaries alone. */
  lemma AnswerFor(request: Request, original: Response, range: ByteRange)
    requires original.status != 206
    requires "range" in request.headers && ParseRangeHeader(request.headers["range"]) == Ok(range)
    ensures EffectiveBoundaries(|original.body|, range).Ok? ==>
      CreatePartialResponse(request, original) == PartialOf(original, EffectiveBoundaries(|original.body|, range).value)
    ensures EffectiveBoundaries(|original.body|, range).Err? ==>
      CreatePartialResponse(request, original) == NotSatisfiableResponse()
  {
  }

  /** A 206 carrying `body`, its length as Content-Length, and `contentRange`. */
  predicate IsPartial(r: Response, body: Bytes, contentRange: string)
  {
    && r.status == 206
    && r.body == body
    && "content-length" in r.headers && r.headers["content-length"] == NatToString(|body|)
    && "content-range" in r.headers && r.headers["content-range"] == contentRange
  }

  /** `bytes first-last/size`. */
  function RangeText(first: nat, last: nat, size: nat): string
  {
    "bytes " + NatToString(first) + "-" + NatToString(last) + "/" + NatToString(size)
  }

  /**
   * A header asking for `first`..`last`, not past the body's end, is answered
   * with the slice from `first` and a Content-Range that repeats the requested
   * positions.
   */
  lemma FromToAnswered(original: Response, header: string, first: nat, last: nat, destination: string)
    requires original.status != 206 && last <= |original.body|
    requires ParseRangeHeader(header) == Ok(FromTo(first, last))
    ensures IsPartial(CreatePartialResponse(Request(map["range" := header], destination), original),
                      Slice(original.body, first, last + 1), RangeText(first, last, |original.body|))
  {
    FromToResponse(original, header, first, last, destination);
    FromToPartial(original, first, last);
  }

  /** The response to such a header is the partial response for `[first, last + 1)`. */
  lemma FromToResponse(original: Response, header: string, first: nat, last: nat, destination: string)
    requires original.status != 206 && last <= |original.body|
    requires ParseRangeHeader(header) == Ok(FromTo(first, last))
    ensures CreatePartialResponse(Request(map["range" := header], destination), original)
      == PartialOf(original, Span(first, last + 1))
  {
    FromToBoundaries(|original.body|, first, last);
    AnswerFor(Request(map["range" := header], destination), original, FromTo(first, last));
  }

  /** The partial response for `[first, last + 1)` reports `first`..`last` and carries the slice. */
  lemma FromToPartial(original: Response, first: nat, last: nat)
    ensures IsPartial(PartialOf(original, Span(first, last + 1)),
                      Slice(original.body, first, last + 1), RangeText(first, last, |original.body|))
  {
    ContentRangeOfSpan(first, last, |original.body|);
  }

  /** A request for `first`..`last` not past the end covers the half-open span up to `last + 1`. */
  lemma FromToBoundaries(size: nat, first: nat, last: nat)
    requires last <= size
    ensures EffectiveBoundaries(size, FromTo(first, last)) == Ok(Span(first, last + 1))
  {
  }

  /** The Content-Range of `[first, last + 1)` names `first` and `last`. */
  lemma ContentRangeOfSpan(first: nat, last: nat, size: nat)
    ensures ContentRange(Span(first, last + 1), size) == RangeText(first, last, size)
  {
  }

  /**
   * A satisfiable request for `first`..`last` inside the body gets exactly
   * those bytes, with the Content-Range section 4.2 of RFC 7233 prescribes.
   */
  lemma InBodyRangeAnswered(original: Response, first: nat, last: nat, destination: string)
    requires original.status != 206 && first <= last < |original.body|
    ensures IsPartial(CreatePartialResponse(Request(map["range" := FormatRange(FromTo(first, last))], destination), original),
                      original.body[first..last + 1], RangeText(first, last, |original.body|))
  {
    WrittenFromTo(original, FormatRange(FromTo(first, last)), first, last, destination);
  }

  lemma WrittenFromTo(original: Response, header: string, first: nat, last: nat, destination: string)
    requires original.status != 206 && first <= last < |original.body|
    requires header == FormatRange(FromTo(first, last))
    ensures IsPartial(CreatePartialResponse(Request(map["range" := header], destination), original),
                      original.body[first..last + 1], RangeText(first, last, |original.body|))
  {
    ParseFormatRoundTrip(FromTo(first, last));
    FromToAnswered(original, header, first, last, destination);
    SliceInside(original.body, first, last + 1);
  }

  /** Inside the body, a slice is the plain subsequence. */
  lemma SliceInside(body: Bytes, start: nat, end: nat)
    requires start <= end <= |body|
    ensures Slice(body, start, end) == body[start..end]
  {
  }

  lemma ParseZeroToTen()
    ensures ParseRangeHeader("bytes=0-10") == Ok(FromTo(0, 10))
  {
    assert NatToString(0) == "0" && NatToString(10) == "10";
    assert FormatRange(FromTo(0, 10)) == "bytes=0-10";
    ParseFormatRoundTrip(FromTo(0, 10));
  }

  /**
   * The Content-Range reports the requested, not the clamped, last position:
   * 'bytes=0-10' on a 10-byte body sends all 10 bytes (Content-Length 10) but
   * claims bytes 0-10.
   */
  lemma ContentRangeNotClamped(original: Response, destination: string)
    requires original.status != 206 && |original.body| == 10
    ensures IsPartial(CreatePartialResponse(Request(map["range" := "bytes=0-10"], destination), original),
                      original.body, "bytes 0-10/10")
    ensures NatToString(|original.body|) == "10"
  {
    ParseZeroToTen();
    FromToAnswered(original, "bytes=0-10", 0, 10, destination);
    ZeroToTenText(original.body);
  }

  lemma ZeroToTenText(body: Bytes)
    requires |body| == 10
    ensures RangeText(0, 10, |body|) == "bytes 0-10/10" && NatToString(|body|) == "10"
    ensures Slice(body, 0, 11) == body
  {
    assert NatToString(0) == "0" && NatToString(10) == "10";
  }

  /** A Range header that is present but empty is not parsed: the answer is a 416. */
  lemma EmptyRangeHeaderRefused(original: Response, destination: string)
    requires original.status != 206
    ensures CreatePartialResponse(Request(map["range" := ""], destination), original) == NotSatisfiableResponse()
  {
  }

  // ---------------------------------------------------------------- the plugin

  /**
   * `cachedResponseWillBeUsed`: only a cached response to a request that has
   * a Range header is sliced; anything else passes through untouched.
   */
  function CachedResponseWillBeUsed(request: Request, cached: Option<Response>): (r: Option<Response>)
    ensures r.Some? <==> cached.Some?
    ensures "range" !in request.headers ==> r == cached
    ensures cached.Some? && "range" in request.headers ==>
      r.value.status in {206, 416}
      && (r.value.status == 416 ==> r.value == NotSatisfiableResponse())
      && (cached.value.status == 206 ==> r.value == cached.value)
  {
    if cached.Some? && "range" in request.headers then Some(CreatePartialResponse(request, cached.value))
    else cached
  }

  /** `urlPattern`: the routes the plugin is installed on. */
  predicate UrlPattern(request: Request)
  {
    request.destination == "video" || request.destination == "audio"
  }

  /** Media requests match and nothing else does; the comparison is case-sensitive. */
  lemma UrlPatternMatches(request: Request)
    ensures UrlPattern(request) <==> request.destination in {"video", "audio"}
    ensures !UrlPattern(request.(destination := "Video"))
    ensures !UrlPattern(request.(destination := "image"))
    ensures !UrlPattern(request.(destination := ""))
  {
  }
}

=== FILE: seqs.dfy ===
/**
 * Sequence helpers shared by the model: insertion-ordered de-duplication (what
 * `Array.from(new Set(xs))` computes), filtering, flattening, and the
 * `split` / `join` pair on a single separator character.
 */
module Seqs {
  import opened Text

  // ---------------------------------------------------------------- distinctness

  ghost predicate NoDup<T>(s: seq<T>)
  {
    forall i, j :: 0 <= i < j < |s| ==> s[i] != s[j]
  }

  /** Index of the first occurrence of `x` in `s`. */
  function FirstIndex<T(==)>(s: seq<T>, x: T): (i: nat)
    requires x in s
    ensures i < |s| && s[i] == x
    ensures forall k :: 0 <= k < i ==> s[k] != x
  {
    if s[0] == x then 0 else 1 + FirstIndex(s[1..], x)
  }

  /**
   * The elements of `s` not in `seen`, each once, in order of first occurrence:
   * inserting `s` into a set that already holds `seen` and listing what was new.
   */
  function DedupFrom<T(==)>(s: seq<T>, seen: set<T>): (r: seq<T>)
    ensures NoDup(r)
    ensures forall i :: 0 <= i < |r| ==> r[i] in s && r[i] !in seen
    ensures forall i :: 0 <= i < |s| && s[i] !in seen ==> s[i] in r
    ensures |r| <= |s|
  {
    if s == [] then []
    else if s[0] in seen then DedupFrom(s[1..], seen)
    else [s[0]] + DedupFrom(s[1..], seen + {s[0]})
  }

  /** `Array.from(new Set(s))`. */
  function Dedup<T(==)>(s: seq<T>): seq<T>
  {
    DedupFrom(s, {})
  }

  /** Every element of `r` occurs in `s`, and `r` lists them in the order they first occur there. */
  ghost predicate InFirstOccurrenceOrder<T>(r: seq<T>, s: seq<T>)
  {
    && (forall i :: 0 <= i < |r| ==> r[i] in s)
    && (forall i, j :: 0 <= i < j < |r| ==> FirstIndex(s, r[i]) < FirstIndex(s, r[j]))
  }

  /** Elements kept by `DedupFrom` appear in the order of their first occurrence in `s`. */
  lemma {:induction false} DedupFromOrder<T>(s: seq<T>, seen: set<T>)
    ensures InFirstOccurrenceOrder(DedupFrom(s, seen), s)
  {
    if s != [] {
      var seen' := if s[0] in seen then seen else seen + {s[0]};
      var rest := DedupFrom(s[1..], seen');
      DedupFromOrder(s[1..], seen');
      if s[0] in seen {
        assert DedupFrom(s, seen) == rest;
        OrderShift(s, rest);
      } else {
        assert DedupFrom(s, seen) == [s[0]] + rest;
        OrderShift(s, rest);
        OrderCons(s, rest);
      }
    }
  }

  lemma OrderShift<T>(s: seq<T>, rest: seq<T>)
    requires s != [] && InFirstOccurrenceOrder(rest, s[1..])
    requires forall k :: 0 <= k < |rest| ==> rest[k] != s[0]
    ensures InFirstOccurrenceOrder(rest, s)
    ensures forall k :: 0 <= k < |rest| ==> FirstIndex(s, rest[k]) > 0
  {
    forall k | 0 <= k < |rest|
      ensures FirstIndex(s, rest[k]) == 1 + FirstIndex(s[1..], rest[k])
    {
      FirstIndexTail(s, rest[k]);
    }
  }

  lemma OrderCons<T>(s: seq<T>, rest: seq<T>)
    requires s != [] && InFirstOccurrenceOrder(rest, s)
    requires forall k :: 0 <= k < |rest| ==> FirstIndex(s, rest[k]) > 0
    ensures InFirstOccurrenceOrder([s[0]] + rest, s)
  {
    var r := [s[0]] + rest;
    assert FirstIndex(s, s[0]) == 0;
    forall i, j | 0 <= i < j < |r|
      ensures FirstIndex(s, r[i]) < FirstIndex(s, r[j])
    {
      assert r[j] == rest[j - 1];
      if i > 0 {
        assert r[i] == rest[i - 1];
      }
    }
  }

  lemma FirstIndexTail<T>(s: seq<T>, x: T)
    requires s != [] && x in s[1..] && x != s[0]
    ensures FirstIndex(s, x) == 1 + FirstIndex(s[1..], x)
  {
  }

  /** Running `DedupFrom` over a concatenation continues from the set reached after the first part. */
  lemma {:induction false} DedupFromAppend<T>(s: seq<T>, t: seq<T>, seen: set<T>)
    ensures DedupFrom(s + t, seen) == DedupFrom(s, seen) + DedupFrom(t, seen + (set x | x in s))
  {
    if s == [] {
      assert s + t == t;
      assert (set x | x in s) == {};
      assert seen + (set x | x in s) == seen;
    } else {
      var seen' := if s[0] in seen then seen else seen + {s[0]};
      DedupFromAppend(s[1..], t, seen');
      SeenAfterHead(s, seen);
      var a := DedupFrom(s[1..], seen');
      var b := DedupFrom(t, seen + (set x | x in s));
      assert DedupFrom(s[1..] + t, seen') == a + b;
      DedupFromHead(s, seen);
      assert (s + t)[1..] == s[1..] + t;
      DedupFromHead(s + t, seen);
      if s[0] !in seen {
        AppendAssoc([s[0]], a, b);
      }
    }
  }

  /** `r` is `a`, `b`, `c`, `d`, `e` and `f` laid end to end: each part found at its offset, nothing else. */
  predicate InSixParts<T(==)>(r: seq<T>, a: seq<T>, b: seq<T>, c: seq<T>, d: seq<T>, e: seq<T>, f: seq<T>)
  {
    && |r| == |a| + |b| + |c| + |d| + |e| + |f|
    && r[..|a|] == a
    && r[|a|..|a| + |b|] == b
    && r[|a| + |b|..|a| + |b| + |c|] == c
    && r[|a| + |b| + |c|..|a| + |b| + |c| + |d|] == d
    && r[|a| + |b| + |c| + |d|..|a| + |b| + |c| + |d| + |e|] == e
    && r[|a| + |b| + |c| + |d| + |e|..] == f
  }

  lemma SixParts<T>(a: seq<T>, b: seq<T>, c: seq<T>, d: seq<T>, e: seq<T>, f: seq<T>)
    ensures InSixParts(a + b + c + d + e + f, a, b, c, d, e, f)
  {
  }

  lemma AppendAssoc<T>(a: seq<T>, b: seq<T>, c: seq<T>)
    ensures a + b + c == a + (b + c)
  {
  }

  /** One step of `DedupFrom`, stated without unfolding its contract. */
  lemma DedupFromHead<T>(s: seq<T>, seen: set<T>)
    requires s != []
    ensures DedupFrom(s, seen) ==
      if s[0] in seen then DedupFrom(s[1..], seen) else [s[0]] + DedupFrom(s[1..], seen + {s[0]})
  {
  }

  lemma SeenAfterHead<T>(s: seq<T>, seen: set<T>)
    requires s != []
    ensures (if s[0] in seen then seen else seen + {s[0]}) + (set x | x in s[1..]) == seen + (set x | x in s)
  {
  }

  // ---------------------------------------------------------------- filtering

  function Filter<T>(s: seq<T>, p: T -> bool): (r: seq<T>)
    ensures |r| <= |s|
    ensures forall i :: 0 <= i < |r| ==> r[i] in s && p(r[i])
    ensures forall i :: 0 <= i < |s| && p(s[i]) ==> s[i] in r
  {
    if s == [] then []
    else if p(s[0]) then [s[0]] + Filter(s[1..], p)
    else Filter(s[1..], p)
  }

  /** One step of `Filter`, stated without unfolding its contract. */
  lemma FilterHead<T>(s: seq<T>, p: T -> bool)
    requires s != []
    ensures Filter(s, p) == if p(s[0]) then [s[0]] + Filter(s[1..], p) else Filter(s[1..], p)
  {
  }

  /** `sub` is `s` with some elements removed and the rest kept in order. */
  predicate IsSubsequence<T(==)>(sub: seq<T>, s: seq<T>)
  {
    if sub == [] then true
    else if s == [] then false
    else if sub[0] == s[0] then IsSubsequence(sub[1..], s[1..])
    else IsSubsequence(sub, s[1..])
  }

  lemma {:induction false} FilterIsSubsequence<T>(s: seq<T>, p: T -> bool)
    ensures IsSubsequence(Filter(s, p), s)
  {
    if s != [] {
      FilterIsSubsequence(s[1..], p);
      var r := Filter(s, p);
      if p(s[0]) {
        assert r[1..] == Filter(s[1..], p);
      }
    }
  }

  /** `Filter` keeps every copy of each element that satisfies `p` and no copy of any other. */
  lemma {:induction false} FilterMultiset<T>(s: seq<T>, p: T -> bool)
    ensures forall x :: multiset(Filter(s, p))[x] == if p(x) then multiset(s)[x] else 0
  {
    if s != [] {
      FilterMultiset(s[1..], p);
      assert s == [s[0]] + s[1..];
      FilterHead(s, p);
    }
  }

  /** Dropping the first element of a subsequence leaves a subsequence. */
  lemma {:induction false} SubsequenceOfTail<T>(sub: seq<T>, s: seq<T>)
    requires IsSubsequence(sub, s) && sub != []
    ensures IsSubsequence(sub[1..], s)
    decreases |s|, 0
  {
    if sub[0] == s[0] {
      SubsequenceWeaken(sub[1..], s[1..], s[0]);
    } else {
      SubsequenceOfTail(sub, s[1..]);
      SubsequenceWeaken(sub[1..], s[1..], s[0]);
    }
    assert [s[0]] + s[1..] == s;
  }

  /** A subsequence of `s` is a subsequence of `s` with any element put in front. */
  lemma {:induction false} SubsequenceWeaken<T>(sub: seq<T>, s: seq<T>, x: T)
    requires IsSubsequence(sub, s)
    ensures IsSubsequence(sub, [x] + s)
    decreases |s|, 1
  {
    if sub != [] {
      assert ([x] + s)[1..] == s;
      if sub[0] == x {
        SubsequenceOfTail(sub, s);
      }
    }
  }

  // ---------------------------------------------------------------- flattening

  function Flatten<T>(ss: seq<seq<T>>): (r: seq<T>)
  {
    if ss == [] then [] else ss[0] + Flatten(ss[1..])
  }

  lemma {:induction false} FlattenAppend<T>(ss: seq<seq<T>>, ts: seq<seq<T>>)
    ensures Flatten(ss + ts) == Flatten(ss) + Flatten(ts)
  {
    if ss == [] {
      assert ss + ts == ts;
    } else {
      assert (ss + ts)[1..] == ss[1..] + ts;
      FlattenAppend(ss[1..], ts);
    }
  }

  // ---------------------------------------------------------------- split and join

  /** `s.split(c)` for a one-character separator: never empty, pieces free of `c`. */
  function Split(s: string, c: char): (r: seq<string>)
    ensures |r| >= 1
    ensures forall i :: 0 <= i < |r| ==> c !in r[i]
    ensures r[0] == BeforeFirst(s, c)
    decreases |s|
  {
    var p := BeforeFirst(s, c);
    if |p| == |s| then [s] else [p] + Split(s[|p| + 1..], c)
  }

  /** `ss.join(sep)`; the empty list joins to the empty string. */
  function Join(ss: seq<string>, sep: string): string
  {
    if ss == [] then ""
    else if |ss| == 1 then ss[0]
    else ss[0] + sep + Join(ss[1..], sep)
  }

  /** `s.map(f)` for a boolean `f`: one flag per element. */
  ghost function Marks<T>(s: seq<T>, f: T -> bool): (r: seq<bool>)
    ensures |r| == |s|
  {
    if s == [] then [] else [f(s[0])] + Marks(s[1..], f)
  }

  lemma {:induction false} MarksAt<T>(s: seq<T>, f: T -> bool, i: nat)
    requires i < |s|
    ensures Marks(s, f)[i] == f(s[i])
    decreases i
  {
    if i > 0 {
      MarksAt(s[1..], f, i - 1);
      assert s[1..][i - 1] == s[i];
    }
  }

  /** Joining the pieces of a split with the separator restores the string. */
  lemma {:induction false} JoinSplit(s: string, c: char)
    ensures Join(Split(s, c), [c]) == s
    decreases |s|
  {
    var p := BeforeFirst(s, c);
    if |p| < |s| {
      var t := s[|p| + 1..];
      JoinSplit(t, c);
      SplitStep(s, c);
      JoinCons(p, Split(t, c), [c]);
      PieceAndRest(s, p, c);
    }
  }

  lemma PieceAndRest(s: string, p: string, c: char)
    requires StartsWith(s, p) && |p| < |s| && s[|p|] == c
    ensures s == p + [c] + s[|p| + 1..]
  {
  }

  lemma SplitStep(s: string, c: char)
    requires |BeforeFirst(s, c)| < |s|
    ensures Split(s, c) == [BeforeFirst(s, c)] + Split(s[|BeforeFirst(s, c)| + 1..], c)
  {
  }

  lemma JoinCons(p: string, rest: seq<string>, sep: string)
    requires rest != []
    ensures Join([p] + rest, sep) == p + sep + Join(rest, sep)
  {
    assert ([p] + rest)[1..] == rest;
  }

  /** Splitting a join of `c`-free pieces gives the pieces back. */
  lemma {:induction false} SplitJoin(ss: seq<string>, c: char)
    requires |ss| >= 1
    requires forall i :: 0 <= i < |ss| ==> c !in ss[i]
    ensures Split(Join(ss, [c]), c) == ss
    decreases |ss|
  {
    if |ss| == 1 {
      BeforeFirstAbsent(ss[0], c);
    } else {
      var tail := Join(ss[1..], [c]);
      assert [ss[0]] + ss[1..] == ss;
      JoinCons(ss[0], ss[1..], [c]);
      AfterPiece(ss[0], c, tail);
      BeforeFirstPrefix(ss[0], [c] + tail, c);
      SplitStep(ss[0] + [c] + tail, c);
      SplitJoin(ss[1..], c);
    }
  }

  lemma AfterPiece(p: string, c: char, tail: string)
    ensures p + [c] + tail == p + ([c] + tail)
    ensures (p + [c] + tail)[|p| + 1..] == tail
  {
  }

  lemma {:induction false} BeforeFirstAbsent(s: string, c: char)
    requires c !in s
    ensures BeforeFirst(s, c) == s
  {
    if s != [] {
      BeforeFirstAbsent(s[1..], c);
    }
  }

  lemma {:induction false} BeforeFirstPrefix(p: string, t: string, c: char)
    requires c !in p && t != [] && t[0] == c
    ensures BeforeFirst(p + t, c) == p
  {
    if p != [] {
      assert (p + t)[1..] == p[1..] + t;
      BeforeFirstPrefix(p[1..], t, c);
    } else {
      assert p + t == t;
    }
  }
}

=== FILE: sorting.dfy ===
/**
 * `Array.prototype.sort` with a comparator, which ECMAScript requires to be
 * stable: `cmp(a, b) > 0` puts `a` after `b`, anything else keeps the input
 * order. Modelled as insertion sort from the right, which is the unique stable
 * result whenever the comparator is derived from a numeric key.
 */
module Sorting {

  function Insert<T>(x: T, ys: seq<T>, cmp: (T, T) -> int): (r: seq<T>)
    ensures |r| == |ys| + 1
    ensures multiset(r) == multiset(ys) + multiset{x}
    ensures forall i :: 0 <= i < |r| ==> r[i] == x || r[i] in ys
  {
    if ys == [] then [x]
    else if cmp(x, ys[0]) <= 0 then [x] + ys
    else
      assert ys == [ys[0]] + ys[1..];
      [ys[0]] + Insert(x, ys[1..], cmp)
  }

  /** `xs.sort(cmp)`: a permutation of `xs`. */
  function SortBy<T>(xs: seq<T>, cmp: (T, T) -> int): (r: seq<T>)
    ensures |r| == |xs|
    ensures multiset(r) == multiset(xs)
  {
    if xs == [] then []
    else
      assert xs == [xs[0]] + xs[1..];
      Insert(xs[0], SortBy(xs[1..], cmp), cmp)
  }

  // ---------------------------------------------------------------- comparators from keys

  /** `cmp` is the descending comparator `(a, b) => key(b) - key(a)`. */
  ghost predicate DescendingComparator<T(!new)>(cmp: (T, T) -> int, key: T -> int)
  {
    forall a, b :: cmp(a, b) == key(b) - key(a)
  }

  ghost predicate DescendingBy<T>(xs: seq<T>, key: T -> int)
  {
    forall i, j :: 0 <= i < j < |xs| ==> key(xs[i]) >= key(xs[j])
  }

  /** The elements of `xs` whose key is `k`, in order. */
  function WithKey<T>(xs: seq<T>, key: T -> int, k: int): seq<T>
  {
    if xs == [] then []
    else (if key(xs[0]) == k then [xs[0]] else []) + WithKey(xs[1..], key, k)
  }

  lemma InsertDescending<T(!new)>(x: T, ys: seq<T>, cmp: (T, T) -> int, key: T -> int)
    requires DescendingComparator(cmp, key) && DescendingBy(ys, key)
    ensures DescendingBy(Insert(x, ys, cmp), key)
  {
    if ys != [] && cmp(x, ys[0]) > 0 {
      var tail := Insert(x, ys[1..], cmp);
      InsertDescending(x, ys[1..], cmp, key);
      assert key(x) < key(ys[0]);
      forall i | 0 <= i < |tail|
        ensures key(tail[i]) <= key(ys[0])
      {
        if tail[i] != x {
          var m :| 0 <= m < |ys[1..]| && ys[1..][m] == tail[i];
          assert ys[1 + m] == tail[i];
        }
      }
      var r := [ys[0]] + tail;
      assert r == Insert(x, ys, cmp);
      forall i, j | 0 <= i < j < |r|
        ensures key(r[i]) >= key(r[j])
      {
        assert r[j] == tail[j - 1];
        if i > 0 {
          assert r[i] == tail[i - 1];
        }
      }
    }
  }

  /** Sorting with a descending key comparator yields a non-increasing key sequence. */
  lemma {:induction false} SortByDescending<T(!new)>(xs: seq<T>, cmp: (T, T) -> int, key: T -> int)
    requires DescendingComparator(cmp, key)
    ensures DescendingBy(SortBy(xs, cmp), key)
  {
    if xs != [] {
      SortByDescending(xs[1..], cmp, key);
      InsertDescending(xs[0], SortBy(xs[1..], cmp), cmp, key);
    }
  }

  lemma InsertWithKey<T(!new)>(x: T, ys: seq<T>, cmp: (T, T) -> int, key: T -> int, k: int)
    requires DescendingComparator(cmp, key) && DescendingBy(ys, key)
    ensures WithKey(Insert(x, ys, cmp), key, k) == (if key(x) == k then [x] else []) + WithKey(ys, key, k)
  {
    if ys != [] {
      if cmp(x, ys[0]) <= 0 {
        assert ([x] + ys)[1..] == ys;
      } else {
        InsertWithKey(x, ys[1..], cmp, key, k);
        assert ([ys[0]] + Insert(x, ys[1..], cmp))[1..] == Insert(x, ys[1..], cmp);
      }
    }
  }

  /** Stability: among elements of equal key the input order survives. */
  lemma {:induction false} SortByStable<T(!new)>(xs: seq<T>, cmp: (T, T) -> int, key: T -> int, k: int)
    requires DescendingComparator(cmp, key)
    ensures WithKey(SortBy(xs, cmp), key, k) == WithKey(xs, key, k)
  {
    if xs != [] {
      SortByStable(xs[1..], cmp, key, k);
      SortByDescending(xs[1..], cmp, key);
      InsertWithKey(xs[0], SortBy(xs[1..], cmp), cmp, key, k);
    }
  }

  /** A sequence already ordered by the key is left unchanged. */
  lemma {:induction false} SortByKeepsDescending<T(!new)>(xs: seq<T>, cmp: (T, T) -> int, key: T -> int)
    requires DescendingComparator(cmp, key) && DescendingBy(xs, key)
    ensures SortBy(xs, cmp) == xs
  {
    if xs != [] {
      SortByKeepsDescending(xs[1..], cmp, key);
      if |xs| > 1 {
        assert cmp(xs[0], xs[1]) <= 0;
        assert [xs[0]] + xs[1..] == xs;
      }
    }
  }

  /** A property every element has survives sorting. */
  lemma SortByKeepsAll<T>(xs: seq<T>, cmp: (T, T) -> int, p: T -> bool)
    requires forall i :: 0 <= i < |xs| ==> p(xs[i])
    ensures forall i :: 0 <= i < |SortBy(xs, cmp)| ==> p(SortBy(xs, cmp)[i])
  {
    var r := SortBy(xs, cmp);
    forall i | 0 <= i < |r|
      ensures p(r[i])
    {
      assert r[i] in multiset(xs);
    }
  }

  /** Whatever the comparator, a list of at most one element is returned as it is. */
  lemma ShortListsUnsorted<T>(xs: seq<T>, cmp: (T, T) -> int)
    requires |xs| <= 1
    ensures SortBy(xs, cmp) == xs
  {
  }

  // ---------------------------------------------------------------- the first element

  /** Index of the first element of maximal key. */
  function FirstMaxIndex<T>(xs: seq<T>, key: T -> int): (i: nat)
    requires xs != []
    ensures i < |xs|
    ensures forall j :: 0 <= j < |xs| ==> key(xs[j]) <= key(xs[i])
    ensures forall j :: 0 <= j < i ==> key(xs[j]) < key(xs[i])
  {
    if |xs| == 1 then 0
    else
      var t := FirstMaxIndex(xs[1..], key);
      if key(xs[0]) >= key(xs[1 + t]) then 0 else 1 + t
  }

  /** The head of a descending stable sort is the earliest element of maximal key. */
  lemma {:induction false} SortByHead<T(!new)>(xs: seq<T>, cmp: (T, T) -> int, key: T -> int)
    requires DescendingComparator(cmp, key) && xs != []
    ensures SortBy(xs, cmp)[0] == xs[FirstMaxIndex(xs, key)]
  {
    if |xs| > 1 {
      SortByHead(xs[1..], cmp, key);
    }
  }
}

=== FILE: text.dfy ===
/**
 * Character-level helpers that stand in for the JavaScript string built-ins the
 * source relies on: `trim`, `startsWith`, the case folding a case-insensitive
 * regular expression applies to an ASCII pattern, `toLowerCase` on the ASCII
 * letters, `String(n)` for non-negative integers and `Number(digits)`.
 */
module Text {

  // ---------------------------------------------------------------- prefixes

  predicate StartsWith(s: string, prefix: string)
  {
    |prefix| <= |s| && s[..|prefix|] == prefix
  }

  predicate EndsWith(s: string, suffix: string)
  {
    |suffix| <= |s| && s[|s| - |suffix|..] == suffix
  }

  // ---------------------------------------------------------------- case

  /**
   * `toLowerCase` on the ASCII letters; every other character is kept. The
   * Unicode mappings of non-ASCII characters are not modelled.
   */
  function AsciiLower(c: char): (r: char)
    ensures 'A' <= c <= 'Z' ==> r as int == c as int + 32
    ensures !('A' <= c <= 'Z') ==> r == c
  {
    if 'A' <= c <= 'Z' then (c as int + 32) as char else c
  }

  function Lower(s: string): (r: string)
    ensures |r| == |s|
    ensures forall i :: 0 <= i < |s| ==> r[i] == AsciiLower(s[i])
  {
    if s == [] then [] else [AsciiLower(s[0])] + Lower(s[1..])
  }

  /**
   * Case-insensitive prefix test as a regular expression with the `i` flag
   * performs it for an ASCII pattern: `lit` is given in lower case, and only
   * ASCII letters of `s` fold onto it.
   */
  predicate StartsWithCI(s: string, lit: string)
  {
    |lit| <= |s| && forall k :: 0 <= k < |lit| ==> AsciiLower(s[k]) == lit[k]
  }

  // ---------------------------------------------------------------- whitespace

  /** The characters `String.prototype.trim` removes: white space and line terminators. */
  predicate IsJsSpace(c: char)
  {
    || c == '\t' || c == '\n' || c == '\U{B}' || c == '\U{C}' || c == '\r' || c == ' '
    || c == '\U{A0}' || c == '\U{1680}' || ('\U{2000}' <= c <= '\U{200A}')
    || c == '\U{2028}' || c == '\U{2029}' || c == '\U{202F}' || c == '\U{205F}'
    || c == '\U{3000}' || c == '\U{FEFF}'
  }

  /** The characters a regular-expression `.` does not match. */
  predicate IsLineTerminator(c: char)
  {
    c == '\n' || c == '\r' || c == '\U{2028}' || c == '\U{2029}'
  }

  function TrimStart(s: string): (r: string)
    ensures |r| <= |s| && r == s[|s| - |r|..]
    ensures forall k :: 0 <= k < |s| - |r| ==> IsJsSpace(s[k])
    ensures r == [] || !IsJsSpace(r[0])
  {
    if s != [] && IsJsSpace(s[0]) then TrimStart(s[1..]) else s
  }

  function TrimEnd(s: string): (r: string)
    ensures |r| <= |s| && r == s[..|r|]
    ensures forall k :: |r| <= k < |s| ==> IsJsSpace(s[k])
    ensures r == [] || !IsJsSpace(r[|r| - 1])
  {
    if s != [] && IsJsSpace(s[|s| - 1]) then TrimEnd(s[..|s| - 1]) else s
  }

  /** `s.trim()`: `s` without its leading and trailing white space. */
  function Trim(s: string): (r: string)
    ensures |r| <= |s|
    ensures r == [] || (!IsJsSpace(r[0]) && !IsJsSpace(r[|r| - 1]))
    ensures (s == [] || (!IsJsSpace(s[0]) && !IsJsSpace(s[|s| - 1]))) ==> r == s
  {
    TrimEnd(TrimStart(s))
  }

  // ---------------------------------------------------------------- searching

  /** The text before the first `c`, or all of `s` when it has none (`s.split(c)[0]`). */
  function BeforeFirst(s: string, c: char): (r: string)
    ensures StartsWith(s, r)
    ensures c !in r
    ensures |r| < |s| ==> s[|r|] == c
  {
    if s == [] then []
    else if s[0] == c then []
    else [s[0]] + BeforeFirst(s[1..], c)
  }

  /** The text after the last `c`, or all of `s` when it has none (`s.split(c).pop()`). */
  function AfterLast(s: string, c: char): (r: string)
    ensures EndsWith(s, r)
    ensures c !in r
    ensures |r| < |s| ==> s[|s| - |r| - 1] == c
  {
    if s == [] then []
    else if s[|s| - 1] == c then []
    else AfterLast(s[..|s| - 1], c) + [s[|s| - 1]]
  }

  /** The longest prefix a regular-expression `.*` can match: up to the first line terminator. */
  function TakeLine(s: string): (r: string)
    ensures StartsWith(s, r)
    ensures forall k :: 0 <= k < |r| ==> !IsLineTerminator(r[k])
    ensures |r| < |s| ==> IsLineTerminator(s[|r|])
  {
    if s == [] || IsLineTerminator(s[0]) then [] else [s[0]] + TakeLine(s[1..])
  }

  /** `s.replace(/c/g, "")`. */
  function RemoveAll(s: string, c: char): (r: string)
    ensures c !in r
    ensures |r| <= |s|
    ensures c !in s ==> r == s
  {
    if s == [] then []
    else if s[0] == c then RemoveAll(s[1..], c)
    else [s[0]] + RemoveAll(s[1..], c)
  }

  // ---------------------------------------------------------------- decimal

  predicate IsDigit(c: char)
  {
    '0' <= c <= '9'
  }

  predicate AllDigits(s: string)
  {
    forall k :: 0 <= k < |s| ==> IsDigit(s[k])
  }

  function DigitChar(d: nat): (c: char)
    requires d < 10
    ensures IsDigit(c) && c as int - '0' as int == d
  {
    ('0' as int + d) as char
  }

  /** `String(n)` for a non-negative integer: its decimal digits, no leading zero. */
  function NatToString(n: nat): (r: string)
    ensures |r| > 0 && AllDigits(r)
    ensures |r| > 1 ==> r[0] != '0'
    decreases n
  {
    if n < 10 then [DigitChar(n)] else NatToString(n / 10) + [DigitChar(n % 10)]
  }

  /** `String(i)` for any integer. */
  function IntToString(i: int): (r: string)
    ensures i < 0 <==> (|r| > 0 && r[0] == '-')
    ensures i >= 0 ==> r == NatToString(i)
  {
    if i < 0 then "-" + NatToString(-i) else NatToString(i)
  }

  /** `Number(s)` for a string of decimal digits (leading zeros allowed; the empty string is 0). */
  function DigitsValue(s: string): nat
    requires AllDigits(s)
  {
    if s == [] then 0 else DigitsValue(s[..|s| - 1]) * 10 + (s[|s| - 1] as int - '0' as int)
  }

  /** Reading back the decimal rendering of a number gives the number. */
  lemma {:induction false} DecimalRoundTrip(n: nat)
    ensures DigitsValue(NatToString(n)) == n
    decreases n
  {
    if n >= 10 {
      DecimalRoundTrip(n / 10);
      var s := NatToString(n);
      assert s[..|s| - 1] == NatToString(n / 10);
    }
  }

  /** Leading zeros do not change the value `Number` reads. */
  lemma {:induction false} LeadingZeros(z: string, s: string)
    requires AllDigits(s) && forall k :: 0 <= k < |z| ==> z[k] == '0'
    ensures AllDigits(z + s) && DigitsValue(z + s) == DigitsValue(s)
    decreases |s|
  {
    if s == [] {
      ZerosValue(z);
      assert z + s == z;
    } else {
      var w := z + s;
      assert w[..|w| - 1] == z + s[..|s| - 1];
      LeadingZeros(z, s[..|s| - 1]);
    }
  }

  lemma {:induction false} ZerosValue(z: string)
    requires forall k :: 0 <= k < |z| ==> z[k] == '0'
    ensures AllDigits(z) && DigitsValue(z) == 0
    decreases |z|
  {
    if z != [] {
      ZerosValue(z[..|z| - 1]);
    }
  }
}

=== FILE: transcode.dfy ===
/**
 * `getMediaType` of src/lib/transcode.ts: the label under which a MIME type is
 * transcoded. Audio goes through the video path, and so does the HLS playlist
 * type written exactly as 'vnd.apple.mpegURL'; everything else is an image.
 */
module Transcode {
  import opened Text

  /** The two labels `getMediaType` returns. */
  predicate IsMediaLabel(s: string)
  {
    s == "video" || s == "image"
  }

  /** `/^(video|audio)/.test(s)`: the anchored alternation, tried at position 0 only. */
  predicate AnchoredVideoOrAudio(s: string)
  {
    |s| >= 5 && (s[..5] == "video" || s[..5] == "audio")
  }

  function GetMediaType(mediaType: string): (r: string)
    ensures IsMediaLabel(r)
    ensures r == "video" <==>
      StartsWith(mediaType, "video") || StartsWith(mediaType, "audio") || mediaType == "vnd.apple.mpegURL"
  {
    if AnchoredVideoOrAudio(mediaType) || mediaType == "vnd.apple.mpegURL" then "video" else "image"
  }

  /** Any subtype of video or audio is a video. */
  lemma VideoAndAudioAreVideo(subtype: string)
    ensures GetMediaType("video/" + subtype) == "video"
    ensures GetMediaType("audio/" + subtype) == "video"
  {
    assert ("video/" + subtype)[..5] == "video";
    assert ("audio/" + subtype)[..5] == "audio";
  }

  /**
   * The comparison is case-sensitive and anchored: the registered HLS type
   * 'application/vnd.apple.mpegurl', a capitalised 'Video/mp4' and the empty
   * string are all images.
   */
  lemma OtherTypesAreImages()
    ensures GetMediaType("vnd.apple.mpegURL") == "video"
    ensures GetMediaType("application/vnd.apple.mpegurl") == "image"
    ensures GetMediaType("vnd.apple.mpegurl") == "image"
    ensures GetMediaType("Video/mp4") == "image"
    ensures GetMediaType("image/png") == "image"
    ensures GetMediaType("") == "image"
  {
    assert "application/vnd.apple.mpegurl"[..5] == "appli";
    assert "vnd.apple.mpegurl"[..5] == "vnd.a";
    assert "vnd.apple.mpegurl" != "vnd.apple.mpegURL" by {
      assert "vnd.apple.mpegurl"[14] != "vnd.apple.mpegURL"[14];
    }
    assert "Video/mp4"[..5] == "Video";
    assert "image/png"[..5] == "image";
  }
}

=== FILE: traverse.dfy ===
/**
 * `traverseM3U8Manifests` (src/lib/m3u8/traverse.ts): download an HLS master
 * playlist and everything it references, recursively, into a map from storage
 * key (`UrlKeys`) to bytes, with every playlist rewritten to refer to keys.
 *
 * The playlist codec, the URL parser and the network are the oracles of `Env`.
 * A fetch that rejects, including one aborted by the two-minute timer, is a
 * fetch returning `None`; as in the source, any failure anywhere makes the
 * whole call return undefined (`None`).
 *
 * `Explore` is the reference semantics: the worklist processed one URI at a
 * time. The method `TraverseManifests` follows the source's batches (fetch a
 * whole batch, then handle its members in order) and is proved to compute the
 * same outcome for every positive batch size; `Splice` shows why a batch size
 * of zero or less never ends.
 */
module Traverse {
  import opened Base
  import opened Text
  import opened Seqs
  import opened UrlKeys

  /** A playlist entry; only its `location` is looked at, the rest is carried along. */
  datatype Media = Media(location: Option<string>, attributes: seq<(string, string)>)

  datatype Playlist = Playlist(attributes: seq<(string, string)>, medias: seq<Media>)

  datatype Env = Env(
    parse: Bytes -> Option<Playlist>,               // TextDecoder, then M3uParser.parse
    serialize: Playlist -> Bytes,                   // getM3uString, then TextEncoder
    parseUrl: string -> Option<UrlParts>,           // new URL(s)
    resolve: (string, string) -> Option<UrlParts>,  // new URL(uri, baseUrl)
    fetch: string -> Option<Bytes>)                 // fetch(url).then(r => r.arrayBuffer())

  /** The worklist (every URI ever enqueued, in order) and the file map. */
  datatype State = State(order: seq<string>, files: map<string, Bytes>)

  /** A successful traversal: the file map and the URIs fetched, in fetch order. */
  datatype Outcome = Outcome(files: map<string, Bytes>, visited: seq<string>)

  function Key(env: Env, s: string): Option<string>
  {
    UrlToFilePath(env.parseUrl, s)
  }

  /** `/\.(m3u8|m3u)$/.test(pathname)`. */
  predicate IsManifestPath(path: string)
  {
    EndsWith(path, ".m3u8") || EndsWith(path, ".m3u")
  }

  function ElemSet<T>(s: seq<T>): set<T>
  {
    set x | x in s
  }

  /** `a` is `b` followed by zero or more further elements. */
  ghost predicate Extends<T>(a: seq<T>, b: seq<T>)
  {
    |a| >= |b| && a[..|b|] == b
  }

  lemma ExtendsTrans<T>(a: seq<T>, b: seq<T>, c: seq<T>)
    requires Extends(a, b) && Extends(b, c)
    ensures Extends(a, c)
  {
    assert a[..|c|] == a[..|b|][..|c|];
  }

  /** An extension agrees with the original at every index the original has. */
  lemma ExtendsAt<T>(a: seq<T>, b: seq<T>, i: nat)
    requires Extends(a, b) && i < |b|
    ensures a[i] == b[i]
  {
    assert a[..|b|][i] == a[i];
  }

  /** The locations that are present, in entry order. */
  function DefinedLocations(medias: seq<Media>): seq<string>
  {
    if medias == [] then []
    else (if medias[0].location.Some? then [medias[0].location.value] else []) + DefinedLocations(medias[1..])
  }

  /** The truthy locations (present and non-empty), in entry order. */
  function NonEmptyLocations(medias: seq<Media>): seq<string>
  {
    if medias == [] then []
    else (if medias[0].location.Some? && medias[0].location.value != "" then [medias[0].location.value] else []) + NonEmptyLocations(medias[1..])
  }

  /** The truthy locations are among the present ones. */
  lemma {:induction false} NonEmptyAreDefined(medias: seq<Media>, x: string)
    requires x in NonEmptyLocations(medias)
    ensures x in DefinedLocations(medias)
    decreases |medias|
  {
    var m := medias[0];
    if !(m.location.Some? && m.location.value == x) {
      assert x in NonEmptyLocations(medias[1..]);
      NonEmptyAreDefined(medias[1..], x);
    }
  }

  /**
   * The run stays inside the finite `universe`: the root names only locations
   * in it, and so does every playlist fetched for a URI of it. Only bytes the
   * traversal actually parses are constrained; what the codec makes of any
   * other byte string does not matter.
   */
  ghost predicate Closed(env: Env, rootBytes: Bytes, baseHref: string, universe: seq<string>)
  {
    ClosedAt(env, universe, rootBytes) && FetchesClosed(env, baseHref, universe)
  }

  /** Every URI of `universe` that resolves to a playlist and is fetched names only locations in `universe`. */
  ghost predicate FetchesClosed(env: Env, baseHref: string, universe: seq<string>)
  {
    forall u {:trigger FetchClosed(env, baseHref, universe, u)} :: u in universe ==> FetchClosed(env, baseHref, universe, u)
  }

  ghost predicate FetchClosed(env: Env, baseHref: string, universe: seq<string>, u: string)
  {
    match Fetched(env, baseHref, u)
    case None => true
    case Some(got) => IsManifestPath(got.0.pathname) ==> ClosedAt(env, universe, got.1)
  }

  /** Every element of `xs` occurs in `universe`. */
  ghost predicate Within(xs: seq<string>, universe: seq<string>)
  {
    forall i :: 0 <= i < |xs| ==> xs[i] in universe
  }

  ghost predicate ClosedAt(env: Env, universe: seq<string>, b: Bytes)
  {
    env.parse(b).Some? ==> Within(DefinedLocations(env.parse(b).value.medias), universe)
  }

  // ---------------------------------------------------------------- rewriting playlists

  /** The root's entries with every location replaced by its key; an absent or unkeyable location throws. */
  function RewriteRoot(env: Env, medias: seq<Media>): (r: Option<seq<Media>>)
    ensures r.Some? <==> forall i :: 0 <= i < |medias| ==> medias[i].location.Some? && Key(env, medias[i].location.value).Some?
    ensures r.Some? ==> |r.value| == |medias|
    ensures r.Some? ==> forall i :: 0 <= i < |medias| ==> r.value[i] == medias[i].(location := Key(env, medias[i].location.value))
  {
    if medias == [] then Some([])
    else
      var m := medias[0];
      var rest := RewriteRoot(env, medias[1..]);
      assert forall i :: 1 <= i < |medias| ==> medias[i] == medias[1..][i - 1];
      if m.location.Some? && Key(env, m.location.value).Some? && rest.Some? then
        Some([m.(location := Key(env, m.location.value))] + rest.value)
      else None
  }

  /** Every URI of `us` has a storage key. */
  predicate AllKeyed(env: Env, us: seq<string>)
  {
    forall i :: 0 <= i < |us| ==> Key(env, us[i]).Some?
  }

  lemma AllKeyedCons(env: Env, u: string, us: seq<string>)
    ensures AllKeyed(env, [u] + us) <==> Key(env, u).Some? && AllKeyed(env, us)
  {
    if Key(env, u).Some? && AllKeyed(env, us) {
      forall i | 0 <= i < |[u] + us|
        ensures Key(env, ([u] + us)[i]).Some?
      {
        if i > 0 {
          assert ([u] + us)[i] == us[i - 1];
        }
      }
    }
    if AllKeyed(env, [u] + us) {
      assert ([u] + us)[0] == u;
      forall i | 0 <= i < |us|
        ensures Key(env, us[i]).Some?
      {
        assert us[i] == ([u] + us)[i + 1];
      }
    }
  }

  /**
   * A sub-playlist's entries whose location is truthy and not yet `seen`, with
   * locations replaced by keys, together with those locations (the URIs newly
   * enqueued). Entries already seen, or repeated, are dropped; an entry without
   * a key throws.
   */
  function Discover(env: Env, medias: seq<Media>, seen: set<string>): (r: Option<(seq<Media>, seq<string>)>)
    ensures r.Some? ==> |r.value.0| == |r.value.1|
    ensures r.Some? ==> forall i :: 0 <= i < |r.value.1| ==> r.value.0[i].location == Key(env, r.value.1[i])
  {
    if medias == [] then Some(([], []))
    else
      var m := medias[0];
      if m.location.Some? && m.location.value != "" && m.location.value !in seen then
        var loc := m.location.value;
        match Key(env, loc)
        case None => None
        case Some(k) =>
          match Discover(env, medias[1..], seen + {loc})
          case None => None
          case Some(found) =>
            assert forall i :: 1 <= i < 1 + |found.1| ==> ([loc] + found.1)[i] == found.1[i - 1];
            Some(([m.(location := Some(k))] + found.0, [loc] + found.1))
      else Discover(env, medias[1..], seen)
  }

  /** The URIs `Discover` enqueues are the unseen truthy locations in first-occurrence order; it fails exactly when one has no key. */
  lemma {:induction false} DiscoverSpec(env: Env, medias: seq<Media>, seen: set<string>)
    ensures Discover(env, medias, seen).Some? <==> AllKeyed(env, DedupFrom(NonEmptyLocations(medias), seen))
    ensures Discover(env, medias, seen).Some? ==> Discover(env, medias, seen).value.1 == DedupFrom(NonEmptyLocations(medias), seen)
    decreases |medias|
  {
    if medias != [] {
      var m := medias[0];
      if m.location.Some? && m.location.value != "" && m.location.value !in seen {
        DiscoverSpec(env, medias[1..], seen + {m.location.value});
        DedupTakes(medias, seen);
        AllKeyedCons(env, m.location.value, DedupFrom(NonEmptyLocations(medias[1..]), seen + {m.location.value}));
      } else {
        DiscoverSpec(env, medias[1..], seen);
        DedupSkips(medias, seen);
      }
    }
  }

  lemma DedupTakes(medias: seq<Media>, seen: set<string>)
    requires medias != [] && medias[0].location.Some? && medias[0].location.value != "" && medias[0].location.value !in seen
    ensures DedupFrom(NonEmptyLocations(medias), seen)
      == [medias[0].location.value] + DedupFrom(NonEmptyLocations(medias[1..]), seen + {medias[0].location.value})
  {
    var locs := NonEmptyLocations(medias);
    assert locs == [medias[0].location.value] + NonEmptyLocations(medias[1..]);
    assert locs[0] == medias[0].location.value && locs[1..] == NonEmptyLocations(medias[1..]);
  }

  lemma DedupSkips(medias: seq<Media>, seen: set<string>)
    requires medias != [] && !(medias[0].location.Some? && medias[0].location.value != "" && medias[0].location.value !in seen)
    ensures DedupFrom(NonEmptyLocations(medias), seen) == DedupFrom(NonEmptyLocations(medias[1..]), seen)
  {
    var locs := NonEmptyLocations(medias);
    if medias[0].location.Some? && medias[0].location.value != "" {
      assert locs == [medias[0].location.value] + NonEmptyLocations(medias[1..]);
      assert locs[0] in seen && locs[1..] == NonEmptyLocations(medias[1..]);
    } else {
      assert locs == [] + NonEmptyLocations(medias[1..]);
      assert [] + NonEmptyLocations(medias[1..]) == NonEmptyLocations(medias[1..]);
    }
  }

  // ---------------------------------------------------------------- one URI

  /** `new URL(uri, baseUrl)` and its fetch: every URI is resolved against the root's base. */
  function Fetched(env: Env, baseHref: string, uri: string): (r: Option<(UrlParts, Bytes)>)
    ensures r.Some? <==> env.resolve(uri, baseHref).Some? && env.fetch(env.resolve(uri, baseHref).value.href).Some?
  {
    match env.resolve(uri, baseHref)
    case None => None
    case Some(url) =>
      match env.fetch(url.href)
      case None => None
      case Some(body) => Some((url, body))
  }

  /** The URIs a fetched resource adds to the worklist: none unless it is a playlist that parses. */
  function Enqueued(env: Env, url: UrlParts, body: Bytes, order: seq<string>): seq<string>
  {
    if IsManifestPath(url.pathname) && env.parse(body).Some? then
      DedupFrom(NonEmptyLocations(env.parse(body).value.medias), ElemSet(order))
    else []
  }

  /**
   * The post-fetch handling of one URI: its bytes are stored under the key of
   * the raw URI string; when the resolved path names a playlist, it is parsed,
   * its unseen locations are enqueued, and the stored bytes are replaced by the
   * rewritten playlist.
   */
  function ProcessFetched(env: Env, uri: string, url: UrlParts, body: Bytes, s: State): Option<State>
  {
    match Key(env, uri)
    case None => None
    case Some(k) =>
      var files := s.files[k := body];
      if !IsManifestPath(url.pathname) then Some(State(s.order, files))
      else
        match env.parse(body)
        case None => None
        case Some(p) =>
          match Discover(env, p.medias, ElemSet(s.order))
          case None => None
          case Some(found) => Some(State(s.order + found.1, files[k := env.serialize(p.(medias := found.0))]))
  }

  /**
   * Handling one URI fails exactly when it has no key, or it is a playlist that
   * does not parse or lists an unkeyable new location. Otherwise the worklist
   * grows by `Enqueued`, and exactly one file is written: the raw bytes, or
   * for a playlist its rewritten form.
   */
  lemma ProcessFetchedSpec(env: Env, uri: string, url: UrlParts, body: Bytes, s: State)
    ensures ProcessFetched(env, uri, url, body, s).None? <==>
      || Key(env, uri).None?
      || (IsManifestPath(url.pathname) && (env.parse(body).None? || !AllKeyed(env, Enqueued(env, url, body, s.order))))
    ensures ProcessFetched(env, uri, url, body, s).Some? ==>
      var next := ProcessFetched(env, uri, url, body, s).value;
      && next.order == s.order + Enqueued(env, url, body, s.order)
      && next.files.Keys == s.files.Keys + {Key(env, uri).value}
      && (forall k :: k in s.files && k != Key(env, uri).value ==> next.files[k] == s.files[k])
    ensures ProcessFetched(env, uri, url, body, s).Some? && !IsManifestPath(url.pathname) ==>
      ProcessFetched(env, uri, url, body, s).value.files[Key(env, uri).value] == body
    ensures ProcessFetched(env, uri, url, body, s).Some? && IsManifestPath(url.pathname) ==>
      var p := env.parse(body).value;
      ProcessFetched(env, uri, url, body, s).value.files[Key(env, uri).value]
        == env.serialize(p.(medias := Discover(env, p.medias, ElemSet(s.order)).value.0))
  {
    if IsManifestPath(url.pathname) && env.parse(body).Some? {
      DiscoverSpec(env, env.parse(body).value.medias, ElemSet(s.order));
    }
  }

  /** Fetch the next URI of the worklist and handle it. */
  function Step(env: Env, baseHref: string, s: State, done: nat): Option<State>
    requires done < |s.order|
  {
    match Fetched(env, baseHref, s.order[done])
    case None => None
    case Some(got) => ProcessFetched(env, s.order[done], got.0, got.1, s)
  }

  // ---------------------------------------------------------------- the worklist

  ghost function Measure(universe: seq<string>, order: seq<string>, done: nat): int
  {
    2 * |universe| - |order| - done
  }

  /** Preconditions of the worklist loop: a closed universe and a duplicate-free worklist inside it. */
  ghost predicate Valid(env: Env, baseHref: string, universe: seq<string>, s: State, done: nat)
  {
    FetchesClosed(env, baseHref, universe) && Within(s.order, universe) && NoDup(s.order) && done <= |s.order| <= |universe|
  }

  /**
   * Reference semantics: handle `s.order[done]`, then the rest of the
   * worklist, which may have grown meanwhile.
   */
  function Explore(env: Env, baseHref: string, universe: seq<string>, s: State, done: nat): (r: Option<State>)
    requires Valid(env, baseHref, universe, s, done)
    decreases Measure(universe, s.order, done)
  {
    if done == |s.order| then Some(s)
    else
      match Step(env, baseHref, s, done)
      case None => None
      case Some(next) =>
        StepPreserves(env, baseHref, universe, s, done, next);
        Explore(env, baseHref, universe, next, done + 1)
  }

  lemma StepPreserves(env: Env, baseHref: string, universe: seq<string>, s: State, done: nat, next: State)
    requires Valid(env, baseHref, universe, s, done) && done < |s.order|
    requires Step(env, baseHref, s, done) == Some(next)
    ensures Valid(env, baseHref, universe, next, done + 1)
    ensures Extends(next.order, s.order)
    ensures Measure(universe, next.order, done + 1) < Measure(universe, s.order, done)
  {
    var url := Fetched(env, baseHref, s.order[done]).value.0;
    var body := Fetched(env, baseHref, s.order[done]).value.1;
    ProcessFetchedSpec(env, s.order[done], url, body, s);
    if IsManifestPath(url.pathname) {
      var p := env.parse(body).value;
      var seen := ElemSet(s.order);
      var added := DedupFrom(NonEmptyLocations(p.medias), seen);
      assert next.order == s.order + added;
      assert FetchClosed(env, baseHref, universe, s.order[done]);
      forall i | 0 <= i < |added|
        ensures added[i] in universe && added[i] !in seen
      {
        assert added[i] in NonEmptyLocations(p.medias);
        NonEmptyAreDefined(p.medias, added[i]);
      }
      assert (s.order + added)[..|s.order|] == s.order;
      NoDupAppend(s.order, added);
      assert Within(next.order, universe) by {
        forall i | 0 <= i < |next.order|
          ensures next.order[i] in universe
        {
          if i >= |s.order| {
            assert next.order[i] == added[i - |s.order|];
          }
        }
      }
      Pigeonhole(next.order, universe);
    }
  }

  lemma NoDupAppend<T>(a: seq<T>, b: seq<T>)
    requires NoDup(a) && NoDup(b)
    requires forall i :: 0 <= i < |b| ==> b[i] !in a
    ensures NoDup(a + b)
  {
    forall i, j | 0 <= i < j < |a + b|
      ensures (a + b)[i] != (a + b)[j]
    {
      if j >= |a| {
        assert (a + b)[j] == b[j - |a|];
        if i >= |a| {
          assert (a + b)[i] == b[i - |a|];
        }
      }
    }
  }

  /** A duplicate-free list drawn from a finite set is no longer than the set. */
  lemma {:induction false} DistinctWithin<T>(xs: seq<T>, universe: set<T>)
    requires NoDup(xs) && ElemSet(xs) <= universe
    ensures |xs| <= |universe|
    decreases |xs|
  {
    if xs != [] {
      var x := xs[0];
      var rest := xs[1..];
      var smaller := universe - {x};
      forall y | y in ElemSet(rest)
        ensures y in smaller
      {
        var i :| 0 <= i < |rest| && rest[i] == y;
        assert xs[i + 1] == y && xs[0] == x;
      }
      assert NoDup(rest) by {
        forall i, j | 0 <= i < j < |rest|
          ensures rest[i] != rest[j]
        {
          assert rest[i] == xs[i + 1] && rest[j] == xs[j + 1];
        }
      }
      DistinctWithin(rest, smaller);
      assert x in ElemSet(xs);
      assert smaller + {x} == universe;
    }
  }

  /** A list has at most as many distinct elements as entries. */
  lemma {:induction false} ElemSetSize<T>(xs: seq<T>)
    ensures |ElemSet(xs)| <= |xs|
    decreases |xs|
  {
    if xs != [] {
      ElemSetSize(xs[1..]);
      assert ElemSet(xs) == ElemSet(xs[1..]) + {xs[0]};
    }
  }

  /** A duplicate-free list drawn from `universe` is no longer than it. */
  lemma Pigeonhole(xs: seq<string>, universe: seq<string>)
    requires NoDup(xs) && Within(xs, universe)
    ensures |xs| <= |universe|
  {
    forall x | x in ElemSet(xs)
      ensures x in ElemSet(universe)
    {
      var i :| 0 <= i < |xs| && xs[i] == x;
    }
    DistinctWithin(xs, ElemSet(universe));
    ElemSetSize(universe);
  }

  // ---------------------------------------------------------------- the whole traversal

  function RootOrder(root: Playlist): seq<string>
  {
    Dedup(DefinedLocations(root.medias))
  }

  /**
   * Reference outcome: parse and rewrite the root, enqueue its distinct
   * locations, explore, and finally store the rewritten root under the key of
   * the base URL, over whatever was stored there before.
   */
  function Traversal(env: Env, rootBytes: Bytes, baseHref: string, universe: seq<string>): (r: Option<Outcome>)
    requires Closed(env, rootBytes, baseHref, universe)
  {
    match env.parse(rootBytes)
    case None => None
    case Some(root) =>
      match RewriteRoot(env, root.medias)
      case None => None
      case Some(rewritten) =>
        RootInUniverse(env, rootBytes, baseHref, universe);
        match Explore(env, baseHref, universe, State(RootOrder(root), map[]), 0)
        case None => None
        case Some(s) =>
          match Key(env, baseHref)
          case None => None
          case Some(rootKey) => Some(Outcome(s.files[rootKey := env.serialize(root.(medias := rewritten))], s.order))
  }

  lemma RootInUniverse(env: Env, rootBytes: Bytes, baseHref: string, universe: seq<string>)
    requires Closed(env, rootBytes, baseHref, universe) && env.parse(rootBytes).Some?
    ensures Valid(env, baseHref, universe, State(RootOrder(env.parse(rootBytes).value), map[]), 0)
  {
    var root := env.parse(rootBytes).value;
    var order := RootOrder(root);
    assert ClosedAt(env, universe, rootBytes);
    assert Within(order, universe);
    Pigeonhole(order, universe);
  }

  /** Exploring only ever appends to the worklist, and ends with a valid, fully processed one. */
  lemma {:induction false} ExploreExtends(env: Env, baseHref: string, universe: seq<string>, s: State, done: nat)
    requires Valid(env, baseHref, universe, s, done)
    ensures Explore(env, baseHref, universe, s, done).Some? ==>
      && Extends(Explore(env, baseHref, universe, s, done).value.order, s.order)
      && Valid(env, baseHref, universe, Explore(env, baseHref, universe, s, done).value, |Explore(env, baseHref, universe, s, done).value.order|)
    decreases Measure(universe, s.order, done)
  {
    if done < |s.order| {
      var next := Step(env, baseHref, s, done);
      if next.Some? {
        ExploreUnfold(env, baseHref, universe, s, done);
        ExploreExtends(env, baseHref, universe, next.value, done + 1);
        var r := Explore(env, baseHref, universe, next.value, done + 1);
        if r.Some? {
          ExtendsTrans(r.value.order, next.value.order, s.order);
        }
      }
    }
  }

  /** The keys of the URIs in `us` that have one. */
  ghost function KeysOf(env: Env, us: seq<string>): set<string>
  {
    set u | u in us && Key(env, u).Some? :: Key(env, u).value
  }

  /** Splitting the key set of a suffix at its first URI. */
  lemma KeysOfAt(env: Env, us: seq<string>, i: nat)
    requires i < |us| && Key(env, us[i]).Some?
    ensures KeysOf(env, us[i..]) == {Key(env, us[i]).value} + KeysOf(env, us[i + 1..])
  {
    assert us[i..] == [us[i]] + us[i + 1..];
    assert forall x :: x in us[i..] <==> x == us[i] || x in us[i + 1..];
  }

  lemma UnionStep<T>(before: set<T>, mid: set<T>, after: set<T>, k: T, rest: set<T>, all: set<T>)
    requires mid == before + {k} && after == mid + rest && all == {k} + rest
    ensures after == before + all
  {
  }

  /**
   * What the exploration leaves behind for every URI it handled: the URI has
   * a key and was fetched, and if it was a playlist, it parsed and every
   * location it lists is in the worklist.
   */
  ghost predicate Complete(env: Env, baseHref: string, u: string, order: seq<string>)
  {
    && Key(env, u).Some?
    && Fetched(env, baseHref, u).Some?
    && (IsManifestPath(Fetched(env, baseHref, u).value.0.pathname) ==>
          && env.parse(Fetched(env, baseHref, u).value.1).Some?
          && forall x :: x in NonEmptyLocations(env.parse(Fetched(env, baseHref, u).value.1).value.medias) ==> x in order)
  }

  lemma ExtendsHas<T>(a: seq<T>, b: seq<T>, x: T)
    requires Extends(a, b) && x in b
    ensures x in a
  {
    var i :| 0 <= i < |b| && b[i] == x;
    ExtendsAt(a, b, i);
  }

  lemma CompleteGrows(env: Env, baseHref: string, u: string, order: seq<string>, longer: seq<string>)
    requires Complete(env, baseHref, u, order) && Extends(longer, order)
    ensures Complete(env, baseHref, u, longer)
  {
    var got := Fetched(env, baseHref, u).value;
    if IsManifestPath(got.0.pathname) {
      forall x | x in NonEmptyLocations(env.parse(got.1).value.medias)
        ensures x in longer
      {
        ExtendsHas(longer, order, x);
      }
    }
  }

  /** A successful step leaves the handled URI complete. */
  lemma StepCompletes(env: Env, baseHref: string, universe: seq<string>, s: State, done: nat)
    requires Valid(env, baseHref, universe, s, done) && done < |s.order| && Step(env, baseHref, s, done).Some?
    ensures Complete(env, baseHref, s.order[done], Step(env, baseHref, s, done).value.order)
    ensures Step(env, baseHref, s, done).value.files.Keys == s.files.Keys + {Key(env, s.order[done]).value}
  {
    var u := s.order[done];
    var got := Fetched(env, baseHref, u).value;
    var next := Step(env, baseHref, s, done).value;
    ProcessFetchedSpec(env, u, got.0, got.1, s);
    if IsManifestPath(got.0.pathname) {
      var p := env.parse(got.1).value;
      var locs := NonEmptyLocations(p.medias);
      forall x | x in locs
        ensures x in next.order
      {
        var i :| 0 <= i < |locs| && locs[i] == x;
        if x in s.order {
          ExtendsHas(next.order, s.order, x);
        } else {
          assert x in DedupFrom(locs, ElemSet(s.order));
        }
      }
    }
  }

  /** Every URI of `order` from index `from` on is complete with respect to `order`. */
  ghost predicate CompleteFrom(env: Env, baseHref: string, order: seq<string>, from: nat)
  {
    forall i :: from <= i < |order| ==> Complete(env, baseHref, order[i], order)
  }

  /** Every URI the exploration handles ends up complete with respect to the final worklist. */
  lemma {:induction false} ExploreComplete(env: Env, baseHref: string, universe: seq<string>, s: State, done: nat)
    requires Valid(env, baseHref, universe, s, done)
    ensures Explore(env, baseHref, universe, s, done).Some? ==>
      CompleteFrom(env, baseHref, Explore(env, baseHref, universe, s, done).value.order, done)
    decreases Measure(universe, s.order, done)
  {
    ExploreExtends(env, baseHref, universe, s, done);
    if done < |s.order| {
      var next := Step(env, baseHref, s, done);
      if next.Some? {
        ExploreUnfold(env, baseHref, universe, s, done);
        ExploreComplete(env, baseHref, universe, next.value, done + 1);
        ExploreExtends(env, baseHref, universe, next.value, done + 1);
        var r := Explore(env, baseHref, universe, next.value, done + 1);
        if r.Some? {
          StepCompletes(env, baseHref, universe, s, done);
          CompleteGrows(env, baseHref, s.order[done], next.value.order, r.value.order);
          ExtendsTrans(r.value.order, next.value.order, s.order);
          ExtendsAt(r.value.order, s.order, done);
        }
      }
    }
  }

  /** The files the exploration writes are exactly the keys of the URIs it handles. */
  lemma {:induction false} ExploreKeys(env: Env, baseHref: string, universe: seq<string>, s: State, done: nat)
    requires Valid(env, baseHref, universe, s, done)
    ensures Explore(env, baseHref, universe, s, done).Some? ==>
      var r := Explore(env, baseHref, universe, s, done).value;
      done <= |r.order| && r.files.Keys == s.files.Keys + KeysOf(env, r.order[done..])
    decreases Measure(universe, s.order, done)
  {
    if done == |s.order| {
      ExploreDone(env, baseHref, universe, s, done);
      assert s.order[done..] == [];
    } else if Step(env, baseHref, s, done).None? {
      ExploreStops(env, baseHref, universe, s, done);
    } else {
      ExploreUnfold(env, baseHref, universe, s, done);
      var next := Step(env, baseHref, s, done).value;
      ExploreKeys(env, baseHref, universe, next, done + 1);
      ExploreExtends(env, baseHref, universe, next, done + 1);
      var r := Explore(env, baseHref, universe, next, done + 1);
      if r.Some? {
        StepCompletes(env, baseHref, universe, s, done);
        ExtendsTrans(r.value.order, next.order, s.order);
        KeysAfterStep(env, s, next, r.value, done);
      }
    }
  }

  /** The key set grows by the handled URI's key, then by the keys of what comes after it. */
  lemma KeysAfterStep(env: Env, s: State, next: State, r: State, done: nat)
    requires done < |s.order| && Extends(r.order, s.order) && Key(env, s.order[done]).Some?
    requires next.files.Keys == s.files.Keys + {Key(env, s.order[done]).value}
    requires done + 1 <= |r.order| && r.files.Keys == next.files.Keys + KeysOf(env, r.order[done + 1..])
    ensures r.files.Keys == s.files.Keys + KeysOf(env, r.order[done..])
  {
    ExtendsAt(r.order, s.order, done);
    KeysOfAt(env, r.order, done);
  }

  /** One step of `Explore`, for callers that reason about it. */
  lemma ExploreUnfold(env: Env, baseHref: string, universe: seq<string>, s: State, done: nat)
    requires Valid(env, baseHref, universe, s, done) && done < |s.order|
    ensures Step(env, baseHref, s, done).None? ==> Explore(env, baseHref, universe, s, done) == None
    ensures Step(env, baseHref, s, done).Some? ==>
      && Valid(env, baseHref, universe, Step(env, baseHref, s, done).value, done + 1)
      && Extends(Step(env, baseHref, s, done).value.order, s.order)
      && Measure(universe, Step(env, baseHref, s, done).value.order, done + 1) < Measure(universe, s.order, done)
      && Explore(env, baseHref, universe, s, done) == Explore(env, baseHref, universe, Step(env, baseHref, s, done).value, done + 1)
  {
    if Step(env, baseHref, s, done).Some? {
      StepPreserves(env, baseHref, universe, s, done, Step(env, baseHref, s, done).value);
    }
  }

  /** A queued URI whose fetch fails makes the whole exploration fail, whatever comes before it. */
  lemma {:induction false} ExploreFailsAt(env: Env, baseHref: string, universe: seq<string>, s: State, done: nat, k: nat)
    requires Valid(env, baseHref, universe, s, done) && done <= k < |s.order|
    requires Fetched(env, baseHref, s.order[k]).None?
    ensures Explore(env, baseHref, universe, s, done) == None
    decreases k - done
  {
    if k == done {
      StepFails(env, baseHref, s, done);
      ExploreStops(env, baseHref, universe, s, done);
    } else {
      var step := Step(env, baseHref, s, done);
      ExploreUnfold(env, baseHref, universe, s, done);
      if step.Some? {
        ExtendsAt(step.value.order, s.order, k);
        ExploreFailsAt(env, baseHref, universe, step.value, done + 1, k);
      }
    }
  }

  lemma ExploreDone(env: Env, baseHref: string, universe: seq<string>, s: State, done: nat)
    requires Valid(env, baseHref, universe, s, done) && done == |s.order|
    ensures Explore(env, baseHref, universe, s, done) == Some(s)
  {
  }

  lemma ExploreStops(env: Env, baseHref: string, universe: seq<string>, s: State, done: nat)
    requires Valid(env, baseHref, universe, s, done) && done < |s.order| && Step(env, baseHref, s, done).None?
    ensures Explore(env, baseHref, universe, s, done) == None
  {
  }

  lemma StepFails(env: Env, baseHref: string, s: State, done: nat)
    requires done < |s.order| && Fetched(env, baseHref, s.order[done]).None?
    ensures Step(env, baseHref, s, done).None?
  {
  }

  /** A step whose fetch is already known is just the handling of its response. */
  lemma StepFromFetched(env: Env, baseHref: string, s: State, done: nat, got: (UrlParts, Bytes))
    requires done < |s.order| && Fetched(env, baseHref, s.order[done]) == Some(got)
    ensures Step(env, baseHref, s, done) == ProcessFetched(env, s.order[done], got.0, got.1, s)
  {
  }

  // ---------------------------------------------------------------- properties of a traversal

  /** Each URI is fetched once, the root's distinct locations first and in their order. */
  lemma TraversalVisitsEachOnce(env: Env, rootBytes: Bytes, baseHref: string, universe: seq<string>)
    requires Closed(env, rootBytes, baseHref, universe)
    ensures Traversal(env, rootBytes, baseHref, universe).Some? ==>
      && NoDup(Traversal(env, rootBytes, baseHref, universe).value.visited)
      && Extends(Traversal(env, rootBytes, baseHref, universe).value.visited, RootOrder(env.parse(rootBytes).value))
  {
    if Traversal(env, rootBytes, baseHref, universe).Some? {
      TraversalFromExplore(env, rootBytes, baseHref, universe);
      ExploreExtends(env, baseHref, universe, State(RootOrder(env.parse(rootBytes).value), map[]), 0);
    }
  }

  /**
   * The file map holds exactly one entry per fetched URI's key plus the
   * base URL's key, and the latter holds the rewritten root playlist, written
   * last.
   */
  lemma TraversalFiles(env: Env, rootBytes: Bytes, baseHref: string, universe: seq<string>)
    requires Closed(env, rootBytes, baseHref, universe)
    ensures Traversal(env, rootBytes, baseHref, universe).Some? ==>
      var o := Traversal(env, rootBytes, baseHref, universe).value;
      var root := env.parse(rootBytes).value;
      && Key(env, baseHref).Some?
      && RewriteRoot(env, root.medias).Some?
      && o.files.Keys == KeysOf(env, o.visited) + {Key(env, baseHref).value}
      && o.files[Key(env, baseHref).value] == env.serialize(root.(medias := RewriteRoot(env, root.medias).value))
  {
    if Traversal(env, rootBytes, baseHref, universe).Some? {
      TraversalFromExplore(env, rootBytes, baseHref, universe);
      var start := State(RootOrder(env.parse(rootBytes).value), map[]);
      ExploreKeys(env, baseHref, universe, start, 0);
      var r := Explore(env, baseHref, universe, start, 0).value;
      assert r.order[0..] == r.order;
    }
  }

  /**
   * The traversal is closed: every root location is fetched, and every fetched
   * playlist had all of its truthy locations fetched too.
   */
  lemma TraversalClosed(env: Env, rootBytes: Bytes, baseHref: string, universe: seq<string>)
    requires Closed(env, rootBytes, baseHref, universe)
    ensures Traversal(env, rootBytes, baseHref, universe).Some? ==>
      var o := Traversal(env, rootBytes, baseHref, universe).value;
      && (forall x :: x in DefinedLocations(env.parse(rootBytes).value.medias) ==> x in o.visited)
      && CompleteFrom(env, baseHref, o.visited, 0)
  {
    if Traversal(env, rootBytes, baseHref, universe).Some? {
      TraversalFromExplore(env, rootBytes, baseHref, universe);
      var root := env.parse(rootBytes).value;
      var start := State(RootOrder(root), map[]);
      ExploreExtends(env, baseHref, universe, start, 0);
      ExploreComplete(env, baseHref, universe, start, 0);
      var visited := Explore(env, baseHref, universe, start, 0).value.order;
      forall x | x in DefinedLocations(root.medias)
        ensures x in visited
      {
        var locs := DefinedLocations(root.medias);
        var i :| 0 <= i < |locs| && locs[i] == x;
        assert x in RootOrder(root);
        ExtendsHas(visited, RootOrder(root), x);
      }
    }
  }

  /**
   * A codec that reads every byte string of length n as a playlist naming 'a'
   * repeated n times, behind a server that serves one sub-playlist, "a", whose
   * one entry "aa" is a segment.
   */
  function TotalCodec(): Env
  {
    Env(
      b => Some(Playlist([], [Media(Some(seq(|b|, _ => 'a')), [])])),
      p => [],
      s => None,
      (u, base) => Some(UrlParts(u, "", if u == "a" then "/a.m3u8" else "/a.ts", "", "")),
      h => Some(if h == "a" then [0, 0] else [0]))
  }

  /** The codec reads `n` bytes as one entry naming 'a' repeated `n` times. */
  lemma TotalCodecNames(b: Bytes, name: string)
    requires |name| == |b| && forall i :: 0 <= i < |name| ==> name[i] == 'a'
    ensures TotalCodec().parse(b).Some?
    ensures DefinedLocations(TotalCodec().parse(b).value.medias) == [name]
  {
    var medias := [Media(Some(seq(|b|, _ => 'a')), [])];
    assert seq(|b|, _ => 'a') == name;
    assert medias[1..] == [];
  }

  /** `Closed` constrains only what a run parses, so a codec that parses everything still admits a finite universe. */
  lemma {:induction false} TotalCodecClosed()
    ensures forall b :: TotalCodec().parse(b).Some?
    ensures Closed(TotalCodec(), [0], "", ["a", "aa"])
  {
    var universe := ["a", "aa"];
    TotalCodecNames([0], "a");
    assert ClosedAt(TotalCodec(), universe, [0]);
    TotalCodecFetches();
  }

  /** The sub-playlist "a" names "aa", and "aa" is a segment, so fetching either stays in the universe. */
  lemma TotalCodecFetches()
    ensures FetchesClosed(TotalCodec(), "", ["a", "aa"])
  {
    forall u | u in ["a", "aa"]
      ensures FetchClosed(TotalCodec(), "", ["a", "aa"], u)
    {
      if u == "a" {
        TotalCodecFetchesPlaylist();
      } else {
        TotalCodecFetchesSegment();
      }
    }
  }

  lemma TotalCodecFetchesPlaylist()
    ensures FetchClosed(TotalCodec(), "", ["a", "aa"], "a")
  {
    TotalCodecNames([0, 0], "aa");
    assert TotalCodec().resolve("a", "") == Some(UrlParts("a", "", "/a.m3u8", "", ""));
    assert TotalCodec().fetch("a") == Some([0, 0]);
  }

  lemma TotalCodecFetchesSegment()
    ensures FetchClosed(TotalCodec(), "", ["a", "aa"], "aa")
  {
    assert "aa" != "a";
    assert TotalCodec().resolve("aa", "") == Some(UrlParts("aa", "", "/a.ts", "", ""));
    assert !EndsWith("/a.ts", ".m3u8") && !EndsWith("/a.ts", ".m3u");
  }

  /** One root location that cannot be fetched sinks the whole traversal, however many others succeed. */
  lemma RootFetchFailureIsFatal(env: Env, rootBytes: Bytes, baseHref: string, universe: seq<string>, x: string)
    requires Closed(env, rootBytes, baseHref, universe) && env.parse(rootBytes).Some?
    requires x in DefinedLocations(env.parse(rootBytes).value.medias)
    requires Fetched(env, baseHref, x).None?
    ensures Traversal(env, rootBytes, baseHref, universe).None?
  {
    var root := env.parse(rootBytes).value;
    if RewriteRoot(env, root.medias).Some? {
      TraversalFromExplore(env, rootBytes, baseHref, universe);
      var locs := DefinedLocations(root.medias);
      var i :| 0 <= i < |locs| && locs[i] == x;
      var order := RootOrder(root);
      assert x in order;
      var j :| 0 <= j < |order| && order[j] == x;
      ExploreFailsAt(env, baseHref, universe, State(order, map[]), 0, j);
    }
  }

  /** `Promise.all` over a batch: every member's response, or a rejection if any fetch fails. */
  method FetchBatch(env: Env, baseHref: string, batch: seq<string>) returns (r: Option<seq<(UrlParts, Bytes)>>)
    ensures r.None? <==> exists j :: 0 <= j < |batch| && Fetched(env, baseHref, batch[j]).None?
    ensures r.Some? ==> |r.value| == |batch| && forall j :: 0 <= j < |batch| ==> Fetched(env, baseHref, batch[j]) == Some(r.value[j])
  {
    var bodies: seq<(UrlParts, Bytes)> := [];
    while |bodies| < |batch|
      invariant |bodies| <= |batch|
      invariant forall j :: 0 <= j < |bodies| ==> Fetched(env, baseHref, batch[j]) == Some(bodies[j])
    {
      var got := Fetched(env, baseHref, batch[|bodies|]);
      if got.None? {
        return None;
      }
      bodies := bodies + [got.value];
    }
    return Some(bodies);
  }

  /** After handling `k` members of a batch from `s`: still valid, only appended to, and the same exploration left. */
  ghost predicate BatchInv(env: Env, baseHref: string, universe: seq<string>, s: State, done: nat, cur: State, k: nat)
  {
    && Valid(env, baseHref, universe, s, done)
    && Valid(env, baseHref, universe, cur, done + k)
    && Extends(cur.order, s.order)
    && Explore(env, baseHref, universe, s, done) == Explore(env, baseHref, universe, cur, done + k)
  }

  lemma BatchStep(env: Env, baseHref: string, universe: seq<string>, s: State, done: nat, cur: State, k: nat, got: (UrlParts, Bytes))
    requires BatchInv(env, baseHref, universe, s, done, cur, k) && done + k < |cur.order|
    requires Fetched(env, baseHref, cur.order[done + k]) == Some(got)
    ensures ProcessFetched(env, cur.order[done + k], got.0, got.1, cur).None? ==> Explore(env, baseHref, universe, s, done) == None
    ensures ProcessFetched(env, cur.order[done + k], got.0, got.1, cur).Some? ==>
      BatchInv(env, baseHref, universe, s, done, ProcessFetched(env, cur.order[done + k], got.0, got.1, cur).value, k + 1)
  {
    StepFromFetched(env, baseHref, cur, done + k, got);
    ExploreUnfold(env, baseHref, universe, cur, done + k);
    var next := Step(env, baseHref, cur, done + k);
    if next.Some? {
      ExtendsTrans(next.value.order, cur.order, s.order);
    }
  }

  /**
   * The second half of a batch: the fetched members handled in order. Failing
   * here is failing the exploration; succeeding leaves the same exploration
   * still to do, past the batch.
   */
  method HandleBatch(env: Env, baseHref: string, ghost universe: seq<string>, s: State, done: nat,
                     batch: seq<string>, bodies: seq<(UrlParts, Bytes)>)
    returns (r: Option<State>)
    requires Valid(env, baseHref, universe, s, done) && done + |batch| <= |s.order| && s.order[done..done + |batch|] == batch
    requires |bodies| == |batch| && forall j :: 0 <= j < |batch| ==> Fetched(env, baseHref, batch[j]) == Some(bodies[j])
    ensures r.None? ==> Explore(env, baseHref, universe, s, done) == None
    ensures r.Some? ==> BatchInv(env, baseHref, universe, s, done, r.value, |batch|)
  {
    var cur := s;
    var k := 0;
    assert done + 0 == done;
    while k < |batch|
      invariant k <= |batch|
      invariant BatchInv(env, baseHref, universe, s, done, cur, k)
    {
      assert cur.order[done + k] == batch[k] by {
        ExtendsAt(cur.order, s.order, done + k);
        assert s.order[done..done + |batch|][k] == s.order[done + k];
      }
      BatchStep(env, baseHref, universe, s, done, cur, k, bodies[k]);
      var next := ProcessFetched(env, batch[k], bodies[k].0, bodies[k].1, cur);
      if next.None? {
        return None;
      }
      cur := next.value;
      k := k + 1;
    }
    return Some(cur);
  }

  /** The traversal once the root is parsed and rewritten: the exploration from the root's locations decides it. */
  lemma TraversalFromExplore(env: Env, rootBytes: Bytes, baseHref: string, universe: seq<string>)
    requires Closed(env, rootBytes, baseHref, universe) && env.parse(rootBytes).Some?
    requires RewriteRoot(env, env.parse(rootBytes).value.medias).Some?
    ensures Valid(env, baseHref, universe, State(RootOrder(env.parse(rootBytes).value), map[]), 0)
    ensures
      var root := env.parse(rootBytes).value;
      var explored := Explore(env, baseHref, universe, State(RootOrder(root), map[]), 0);
      Traversal(env, rootBytes, baseHref, universe)
        == if explored.None? || Key(env, baseHref).None? then None
           else Some(Outcome(explored.value.files[Key(env, baseHref).value := env.serialize(root.(medias := RewriteRoot(env, root.medias).value))],
                             explored.value.order))
  {
    RootInUniverse(env, rootBytes, baseHref, universe);
  }

  /**
   * The source's loop: take the next `batchSize` URIs off the worklist, fetch
   * all of them, then handle them in batch order. Returns the file map and the
   * URIs in the order they were fetched.
   */
  method TraverseManifests(env: Env, rootBytes: Bytes, baseHref: string, batchSize: nat, ghost universe: seq<string>)
    returns (r: Option<map<string, Bytes>>, fetched: seq<string>)
    requires batchSize > 0 && Closed(env, rootBytes, baseHref, universe)
    ensures r.Some? <==> Traversal(env, rootBytes, baseHref, universe).Some?
    ensures r.Some? ==>
      && r.value == Traversal(env, rootBytes, baseHref, universe).value.files
      && fetched == Traversal(env, rootBytes, baseHref, universe).value.visited
  {
    fetched := [];
    var parsed := env.parse(rootBytes);
    if parsed.None? {
      return None, fetched;
    }
    var root := parsed.value;
    var rewritten := RewriteRoot(env, root.medias);
    if rewritten.None? {
      return None, fetched;
    }
    TraversalFromExplore(env, rootBytes, baseHref, universe);
    var explored := RunWorklist(env, baseHref, batchSize, universe, State(RootOrder(root), map[]));
    if explored.None? {
      return None, fetched;
    }
    fetched := explored.value.order;
    var rootKey := Key(env, baseHref);
    if rootKey.None? {
      return None, fetched;
    }
    return Some(explored.value.files[rootKey.value := env.serialize(root.(medias := rewritten.value))]), fetched;
  }

  /**
   * `toProcess.splice(0, batchSize)`: the batch taken off the front of the
   * worklist and what stays queued. The count is clamped to between 0 and the
   * worklist's length.
   */
  function Splice(toProcess: seq<string>, batchSize: int): (r: (seq<string>, seq<string>))
    ensures r.0 + r.1 == toProcess
    ensures batchSize <= 0 ==> r.0 == []
    ensures batchSize > 0 ==> |r.0| == if batchSize < |toProcess| then batchSize else |toProcess|
  {
    var n := if batchSize <= 0 then 0 else if batchSize < |toProcess| then batchSize else |toProcess|;
    (toProcess[..n], toProcess[n..])
  }

  /**
   * With a batch size of zero or less a round takes nothing off the worklist:
   * the round fetches nothing, leaves the worklist as it was, and the `while`
   * loop repeats it forever.
   */
  lemma NonPositiveBatchStalls(toProcess: seq<string>, batchSize: int)
    requires batchSize <= 0
    ensures Splice(toProcess, batchSize) == ([], toProcess)
  {
    assert [] + toProcess == toProcess;
  }

  /**
   * With a positive batch size a round on a non-empty worklist removes the
   * batch `RunBatch` handles, at least one URI.
   */
  lemma PositiveBatchProgresses(order: seq<string>, done: nat, batchSize: int)
    requires batchSize > 0 && done < |order|
    ensures var end := if done + batchSize < |order| then done + batchSize else |order|;
      && Splice(order[done..], batchSize).0 == order[done..end] != []
      && Splice(order[done..], batchSize).1 == order[end..]
  {
  }

  /** `Math.max(1, batchSize)`: the batch size the loop needs to make progress. */
  function ClampedBatchSize(batchSize: int): (r: nat)
    ensures r >= 1
    ensures batchSize > 0 ==> r == batchSize
  {
    if batchSize > 0 then batchSize else 1
  }

  /** With the clamped batch size every round shortens a non-empty worklist. */
  lemma ClampedBatchProgresses(toProcess: seq<string>, batchSize: int)
    requires toProcess != []
    ensures Splice(toProcess, ClampedBatchSize(batchSize)).0 != []
    ensures |Splice(toProcess, ClampedBatchSize(batchSize)).1| < |toProcess|
  {
  }

  /**
   * The traversal with the batch size clamped to at least one: for every
   * batch size, positive or not, it ends with the outcome of `Traversal`.
   */
  method TraverseManifestsClamped(env: Env, rootBytes: Bytes, baseHref: string, batchSize: int, ghost universe: seq<string>)
    returns (r: Option<map<string, Bytes>>, fetched: seq<string>)
    requires Closed(env, rootBytes, baseHref, universe)
    ensures r.Some? <==> Traversal(env, rootBytes, baseHref, universe).Some?
    ensures r.Some? ==>
      && r.value == Traversal(env, rootBytes, baseHref, universe).value.files
      && fetched == Traversal(env, rootBytes, baseHref, universe).value.visited
  {
    r, fetched := TraverseManifests(env, rootBytes, baseHref, ClampedBatchSize(batchSize), universe);
  }

  /** The worklist loop of the traversal, a batch of `batchSize` URIs at a time, agrees with `Explore`. */
  method RunWorklist(env: Env, baseHref: string, batchSize: nat, ghost universe: seq<string>, start: State)
    returns (r: Option<State>)
    requires batchSize > 0 && Valid(env, baseHref, universe, start, 0)
    ensures r == Explore(env, baseHref, universe, start, 0)
  {
    var s := start;
    var done: nat := 0;
    while done < |s.order|
      invariant BatchInv(env, baseHref, universe, start, 0, s, done)
      decreases Measure(universe, s.order, done)
    {
      var next, k := Round(env, baseHref, batchSize, universe, start, s, done);
      if next.None? {
        return None;
      }
      s, done := next.value, done + k;
    }
    WorklistFinished(env, baseHref, universe, start, s, done);
    return Some(s);
  }

  /** Once every URI of the worklist is handled, the exploration from the start has produced the current state. */
  lemma WorklistFinished(env: Env, baseHref: string, universe: seq<string>, start: State, s: State, done: nat)
    requires BatchInv(env, baseHref, universe, start, 0, s, done) && done >= |s.order|
    ensures Explore(env, baseHref, universe, start, 0) == Some(s)
  {
    ExploreDone(env, baseHref, universe, s, done);
  }

  /** One pass of the `while` loop, stated against the state the loop started from. */
  method Round(env: Env, baseHref: string, batchSize: nat, ghost universe: seq<string>, ghost start: State, s: State, done: nat)
    returns (r: Option<State>, k: nat)
    requires batchSize > 0 && BatchInv(env, baseHref, universe, start, 0, s, done) && done < |s.order|
    ensures r.None? ==> Explore(env, baseHref, universe, start, 0) == None
    ensures r.Some? ==> BatchInv(env, baseHref, universe, start, 0, r.value, done + k)
    ensures r.Some? ==> Measure(universe, r.value.order, done + k) < Measure(universe, s.order, done)
  {
    r, k := RunBatch(env, baseHref, batchSize, universe, s, done);
    if r.Some? {
      BatchInvTrans(env, baseHref, universe, start, s, done, r.value, k);
    }
  }

  /** One round of the loop: fetch the next `batchSize` URIs (fewer at the end of the worklist), then handle them. */
  method RunBatch(env: Env, baseHref: string, batchSize: nat, ghost universe: seq<string>, s: State, done: nat)
    returns (r: Option<State>, k: nat)
    requires batchSize > 0 && Valid(env, baseHref, universe, s, done) && done < |s.order|
    ensures r.None? ==> Explore(env, baseHref, universe, s, done) == None
    ensures r.Some? ==> 1 <= k && BatchInv(env, baseHref, universe, s, done, r.value, k)
  {
    var end := if done + batchSize < |s.order| then done + batchSize else |s.order|;
    var batch := s.order[done..end];
    k := |batch|;
    var bodies := FetchBatch(env, baseHref, batch);
    if bodies.None? {
      var j :| 0 <= j < |batch| && Fetched(env, baseHref, batch[j]).None?;
      ExploreFailsAt(env, baseHref, universe, s, done, done + j);
      return None, k;
    }
    r := HandleBatch(env, baseHref, universe, s, done, batch, bodies.value);
  }

  lemma BatchInvTrans(env: Env, baseHref: string, universe: seq<string>, start: State, s: State, done: nat, next: State, k: nat)
    requires BatchInv(env, baseHref, universe, start, 0, s, done) && BatchInv(env, baseHref, universe, s, done, next, k)
    ensures BatchInv(env, baseHref, universe, start, 0, next, done + k)
    ensures Measure(universe, next.order, done + k) <= Measure(universe, s.order, done) - k
  {
    ExtendsTrans(next.order, s.order, start.order);
  }
}

=== FILE: tweet_media.dfy ===
/**
 * The tweet media normaliser (src/lib/get-tweet.ts): every photo, video and
 * animated GIF of a tweet, its quoted tweet, its parent and their cards,
 * flattened into `MediaItem`s whose `MediaVariant`s are ordered best first.
 *
 * Two things the source does are parameters here: `JSON.parse` of the
 * `unified_card` payload (`parse`, `None` when it throws) and the photo
 * comparator, which compares aspect ratios as floating-point numbers (`ratioCmp`).
 * The lemmas at the end show the photo comparator only ever sees lists of one
 * element, so the output does not depend on it.
 */
module TweetMedia {
  import opened Base
  import opened Text
  import opened Seqs
  import opened Sorting
  import opened Payload

  /** One rendition of a media item (`fileSizeInBytes` is never filled in and is left out). */
  datatype MediaVariant = MediaVariant(
    url: string,
    quality: string,
    aspectRatio: string,
    mimeType: string,
    altText: Option<string>)

  datatype MediaItem = MediaItem(mediaType: string, variants: seq<MediaVariant>)

  type Parser = string -> Option<UnifiedCardData>

  type VariantCmp = (MediaVariant, MediaVariant) -> int

  // ---------------------------------------------------------------- quality labels

  /** `approximateResolution`: the quality label a bitrate suggests. */
  function ApproximateResolution(bitrate: nat): (r: string)
    ensures r in ["1080p", "720p", "480p", "360p", "240p"]
    ensures QualityToNumber(r) > 0 <==> bitrate > 2000000
  {
    if bitrate > 5000000 then "1080p"
    else if bitrate > 2000000 then "720p"
    else if bitrate > 1000000 then "480p"
    else if bitrate > 500000 then "360p"
    else "240p"
  }

  /** `qualityToNumber`: the rank used to order video variants. */
  function QualityToNumber(quality: string): nat
  {
    if quality == "1080p" then 1080 else if quality == "720p" then 720 else 0
  }

  /** Each label covers a half-open band of bitrates whose lower bound is strict. */
  lemma ResolutionBands(bitrate: nat)
    ensures ApproximateResolution(bitrate) == "1080p" <==> bitrate > 5000000
    ensures ApproximateResolution(bitrate) == "720p" <==> 2000000 < bitrate <= 5000000
    ensures ApproximateResolution(bitrate) == "480p" <==> 1000000 < bitrate <= 2000000
    ensures ApproximateResolution(bitrate) == "360p" <==> 500000 < bitrate <= 1000000
    ensures ApproximateResolution(bitrate) == "240p" <==> bitrate <= 500000
  {
  }

  /** The boundary bitrates fall into the lower band; zero is '240p'. */
  lemma ResolutionBoundaries()
    ensures ApproximateResolution(5000000) == "720p" && ApproximateResolution(5000001) == "1080p"
    ensures ApproximateResolution(2000000) == "480p" && ApproximateResolution(1000000) == "360p"
    ensures ApproximateResolution(500000) == "240p" && ApproximateResolution(0) == "240p"
  {
  }

  /** Only '1080p' and '720p' are ranked; every other label, 'original' included, is 0. */
  lemma QualityRanks(quality: string)
    ensures QualityToNumber("1080p") == 1080 && QualityToNumber("720p") == 720
    ensures QualityToNumber("480p") == 0 && QualityToNumber("360p") == 0
    ensures QualityToNumber("240p") == 0 && QualityToNumber("original") == 0
    ensures quality != "1080p" && quality != "720p" ==> QualityToNumber(quality) == 0
  {
  }

  /** A higher bitrate never gets a lower-ranked label. */
  lemma ResolutionMonotone(b1: nat, b2: nat)
    requires b1 <= b2
    ensures QualityToNumber(ApproximateResolution(b1)) <= QualityToNumber(ApproximateResolution(b2))
  {
  }

  // ---------------------------------------------------------------- sortVariants

  function QualityKey(v: MediaVariant): int
  {
    QualityToNumber(v.quality)
  }

  /** The video comparator `(a, b) => qualityToNumber(b.quality) - qualityToNumber(a.quality)`. */
  function QualityCmp(a: MediaVariant, b: MediaVariant): int
  {
    QualityToNumber(b.quality) - QualityToNumber(a.quality)
  }

  lemma QualityCmpDescending()
    ensures DescendingComparator(QualityCmp, QualityKey)
  {
  }

  predicate IsVideoType(mediaType: string)
  {
    mediaType == "video" || mediaType == "animated_gif"
  }

  /**
   * `sortVariants`: photos by the (abstract) aspect-ratio comparator, videos and
   * GIFs by quality rank, best first; any other type is left as it is.
   */
  function SortVariants(variants: seq<MediaVariant>, mediaType: string, ratioCmp: VariantCmp): (r: seq<MediaVariant>)
    ensures multiset(r) == multiset(variants)
    ensures IsVideoType(mediaType) ==> DescendingBy(r, QualityKey)
    ensures mediaType != "photo" && !IsVideoType(mediaType) ==> r == variants
  {
    if mediaType == "photo" then SortBy(variants, ratioCmp)
    else if IsVideoType(mediaType) then
      QualityCmpDescending();
      SortByDescending(variants, QualityCmp, QualityKey);
      SortBy(variants, QualityCmp)
    else variants
  }

  /** Among variants of equal rank the quality sort keeps the input order. */
  lemma SortVariantsStable(variants: seq<MediaVariant>, mediaType: string, ratioCmp: VariantCmp, rank: int)
    requires IsVideoType(mediaType)
    ensures WithKey(SortVariants(variants, mediaType, ratioCmp), QualityKey, rank) == WithKey(variants, QualityKey, rank)
  {
    QualityCmpDescending();
    SortByStable(variants, QualityCmp, QualityKey, rank);
  }

  // ---------------------------------------------------------------- extractVariants

  function AspectRatio(width: nat, height: nat): string
  {
    NatToString(width) + ":" + NatToString(height)
  }

  /** `aspect_ratio.join(':')`. */
  function JoinRatio(ratio: seq<nat>): string
  {
    Join(seq(|ratio|, i requires 0 <= i < |ratio| => NatToString(ratio[i])), ":")
  }

  function PhotoVariant(m: MediaDetails): MediaVariant
  {
    MediaVariant(m.mediaUrlHttps, "original", AspectRatio(m.originalInfo.width, m.originalInfo.height), "image/jpeg", m.extAltText)
  }

  predicate IsMp4(v: RawVariant)
  {
    v.contentType == "video/mp4"
  }

  /** `bitrate ?? 0`. */
  function Bitrate(v: RawVariant): (b: int)
    ensures b >= 0
  {
    v.bitrate.GetOr(0)
  }

  function BitrateCmp(a: RawVariant, b: RawVariant): int
  {
    Bitrate(b) - Bitrate(a)
  }

  lemma BitrateCmpDescending()
    ensures DescendingComparator(BitrateCmp, Bitrate)
  {
  }

  /** The MP4 renditions of a video, highest bitrate first. */
  function VideoSources(m: MediaDetails): seq<RawVariant>
  {
    SortBy(Filter(m.videoInfo.variants, IsMp4), BitrateCmp)
  }

  function VideoVariant(src: RawVariant, aspect: string): MediaVariant
  {
    MediaVariant(src.url, ApproximateResolution(Bitrate(src)), aspect, src.contentType, None)
  }

  function VideoVariants(m: MediaDetails): seq<MediaVariant>
  {
    var srcs := VideoSources(m);
    seq(|srcs|, i requires 0 <= i < |srcs| => VideoVariant(srcs[i], JoinRatio(m.videoInfo.aspectRatio)))
  }

  /** Variants built in bitrate order are already in quality order. */
  lemma VideoVariantsByQuality(m: MediaDetails)
    ensures DescendingBy(VideoVariants(m), QualityKey)
  {
    BitrateCmpDescending();
    SortByDescending(Filter(m.videoInfo.variants, IsMp4), BitrateCmp, Bitrate);
    var srcs := VideoSources(m);
    var vs := VideoVariants(m);
    forall i, j | 0 <= i < j < |vs|
      ensures QualityKey(vs[i]) >= QualityKey(vs[j])
    {
      ResolutionMonotone(Bitrate(srcs[j]), Bitrate(srcs[i]));
    }
  }

  /** `extractVariants`: the variants of one raw media object. */
  function ExtractVariants(m: MediaDetails, ratioCmp: VariantCmp): (r: seq<MediaVariant>)
    ensures m.mediaType == "photo" ==>
      && |r| == 1
      && r[0].url == m.mediaUrlHttps
      && r[0].quality == "original"
      && r[0].aspectRatio == AspectRatio(m.originalInfo.width, m.originalInfo.height)
      && r[0].mimeType == "image/jpeg"
      && r[0].altText == m.extAltText
    ensures IsVideoType(m.mediaType) ==>
      && |r| == |Filter(m.videoInfo.variants, IsMp4)|
      && (forall i :: 0 <= i < |r| ==>
            && r[i].mimeType == "video/mp4"
            && r[i].aspectRatio == JoinRatio(m.videoInfo.aspectRatio)
            && r[i].altText.None?)
    ensures m.mediaType != "photo" && !IsVideoType(m.mediaType) ==> r == []
  {
    if m.mediaType == "photo" then
      ShortListsUnsorted([PhotoVariant(m)], ratioCmp);
      SortVariants([PhotoVariant(m)], m.mediaType, ratioCmp)
    else if IsVideoType(m.mediaType) then
      VideoVariantsSettled(m, ratioCmp);
      VideoVariantsShape(m);
      SortVariants(VideoVariants(m), m.mediaType, ratioCmp)
    else
      SortVariants([], m.mediaType, ratioCmp)
  }

  lemma VideoVariantsSettled(m: MediaDetails, ratioCmp: VariantCmp)
    requires IsVideoType(m.mediaType)
    ensures SortVariants(VideoVariants(m), m.mediaType, ratioCmp) == VideoVariants(m)
  {
    VideoVariantsByQuality(m);
    QualityCmpDescending();
    SortByKeepsDescending(VideoVariants(m), QualityCmp, QualityKey);
  }

  lemma VideoVariantsShape(m: MediaDetails)
    ensures |VideoVariants(m)| == |Filter(m.videoInfo.variants, IsMp4)|
    ensures forall i :: 0 <= i < |VideoVariants(m)| ==>
      && VideoVariants(m)[i].mimeType == "video/mp4"
      && VideoVariants(m)[i].aspectRatio == JoinRatio(m.videoInfo.aspectRatio)
      && VideoVariants(m)[i].altText.None?
  {
    var srcs := VideoSources(m);
    var vs := VideoVariants(m);
    SortByKeepsAll(Filter(m.videoInfo.variants, IsMp4), BitrateCmp, IsMp4);
    forall i | 0 <= i < |vs|
      ensures vs[i].mimeType == "video/mp4" && vs[i].aspectRatio == JoinRatio(m.videoInfo.aspectRatio) && vs[i].altText.None?
    {
      assert vs[i] == VideoVariant(srcs[i], JoinRatio(m.videoInfo.aspectRatio));
      assert IsMp4(srcs[i]);
    }
  }

  /**
   * Video and GIF variants follow the MP4 renditions ordered by non-increasing
   * bitrate (ties in input order), each labelled by its bitrate; the final
   * quality sort changes nothing.
   */
  lemma VideoVariantsOrdered(m: MediaDetails, ratioCmp: VariantCmp)
    requires IsVideoType(m.mediaType)
    ensures ExtractVariants(m, ratioCmp) == VideoVariants(m)
    ensures multiset(VideoSources(m)) == multiset(Filter(m.videoInfo.variants, IsMp4))
    ensures DescendingBy(VideoSources(m), Bitrate)
    ensures forall b :: WithKey(VideoSources(m), Bitrate, b) == WithKey(Filter(m.videoInfo.variants, IsMp4), Bitrate, b)
    ensures forall i :: 0 <= i < |VideoSources(m)| ==>
      && ExtractVariants(m, ratioCmp)[i].url == VideoSources(m)[i].url
      && ExtractVariants(m, ratioCmp)[i].quality == ApproximateResolution(Bitrate(VideoSources(m)[i]))
  {
    VideoVariantsByQuality(m);
    QualityCmpDescending();
    SortByKeepsDescending(VideoVariants(m), QualityCmp, QualityKey);
    BitrateCmpDescending();
    SortByDescending(Filter(m.videoInfo.variants, IsMp4), BitrateCmp, Bitrate);
    forall b {
      SortByStable(Filter(m.videoInfo.variants, IsMp4), BitrateCmp, Bitrate, b);
    }
  }

  /** Sorting the result of `extractVariants` again by its type changes nothing. */
  lemma ExtractVariantsSettled(m: MediaDetails, ratioCmp: VariantCmp)
    ensures SortVariants(ExtractVariants(m, ratioCmp), m.mediaType, ratioCmp) == ExtractVariants(m, ratioCmp)
  {
    var r := ExtractVariants(m, ratioCmp);
    if IsVideoType(m.mediaType) {
      QualityCmpDescending();
      SortByKeepsDescending(r, QualityCmp, QualityKey);
    } else if m.mediaType == "photo" {
      ShortListsUnsorted(r, ratioCmp);
    }
  }

  /** The photo comparator is never consulted: the result is the same for any comparator. */
  lemma ExtractVariantsIgnoresRatio(m: MediaDetails, c1: VariantCmp, c2: VariantCmp)
    ensures ExtractVariants(m, c1) == ExtractVariants(m, c2)
  {
    if IsVideoType(m.mediaType) {
      VideoVariantsOrdered(m, c1);
      VideoVariantsOrdered(m, c2);
    }
  }

  // ---------------------------------------------------------------- extractCardMedia

  function ImageVariant(image: ImageValue): MediaVariant
  {
    MediaVariant(image.url, "original", AspectRatio(image.width, image.height), "image/jpeg", None)
  }

  /** A component object that names a media entity present in the card. */
  predicate NamesEntity(c: ComponentObject, entities: seq<(string, MediaDetails)>)
  {
    c.componentType == "media" && c.dataId.Some? && c.dataId.value != "" && HasKey(entities, c.dataId.value)
  }

  function ComponentItems(components: seq<(string, ComponentObject)>, entities: seq<(string, MediaDetails)>, ratioCmp: VariantCmp): seq<MediaItem>
  {
    if components == [] then []
    else
      var c := components[0].1;
      (if NamesEntity(c, entities) then
         var e := Lookup(entities, c.dataId.value).value;
         [MediaItem(e.mediaType, ExtractVariants(e, ratioCmp))]
       else [])
      + ComponentItems(components[1..], entities, ratioCmp)
  }

  /** What the `unified_card` payload contributes once parsed; missing fields count as `{}`. */
  function UnifiedItems(parsed: Option<UnifiedCardData>, ratioCmp: VariantCmp): seq<MediaItem>
  {
    match parsed
    case None => []
    case Some(d) => ComponentItems(d.componentObjects.GetOr([]), d.mediaEntities.GetOr([]), ratioCmp)
  }

  /** The carousel items one binding adds: only a non-empty `unified_card` string adds any. */
  function UnifiedContribution(binding: (string, BindingValue), parse: Parser, ratioCmp: VariantCmp): seq<MediaItem>
  {
    var (key, value) := binding;
    if key == "unified_card" && value.stringValue.Some? && value.stringValue.value != "" then
      UnifiedItems(parse(value.stringValue.value), ratioCmp)
    else []
  }

  /**
   * The loop of `extractCardMedia` over the bindings, `items` being what it has
   * collected so far. An image binding opens a 'photo' item only when nothing
   * has been collected yet; otherwise its variant goes to the slot just past the
   * end, which does not exist, and is lost.
   */
  function CollectCardItems(bindings: seq<(string, BindingValue)>, items: seq<MediaItem>, parse: Parser, ratioCmp: VariantCmp): seq<MediaItem>
  {
    if bindings == [] then items
    else CollectCardItems(bindings[1..], WithImage(bindings[0].1, items) + UnifiedContribution(bindings[0], parse, ratioCmp), parse, ratioCmp)
  }

  /** What an image binding does to the collected items: opens the 'photo' item when there are none yet. */
  function WithImage(value: BindingValue, items: seq<MediaItem>): seq<MediaItem>
  {
    if value.imageValue.Some? && items == [] then [MediaItem("photo", [ImageVariant(value.imageValue.value)])]
    else items
  }

  /** `extractCardMedia`: the collected items, each re-sorted by its own type. */
  function ExtractCardMedia(card: TwitterCard, parse: Parser, ratioCmp: VariantCmp): (r: seq<MediaItem>)
    ensures r == CardImage(card.bindingValues, parse, ratioCmp) + AllUnified(card.bindingValues, parse, ratioCmp)
  {
    var items := CollectCardItems(card.bindingValues, [], parse, ratioCmp);
    CollectClosedForm(card.bindingValues, [], parse, ratioCmp);
    CardItemsSettled(card.bindingValues, parse, ratioCmp);
    seq(|items|, i requires 0 <= i < |items| =>
      MediaItem(items[i].mediaType, SortVariants(items[i].variants, items[i].mediaType, ratioCmp)))
  }

  // Reference definitions of the two parts of a card's media.

  /**
   * The single 'photo' item image bindings produce: from the first binding with
   * an image, provided no binding before it contributed carousel items.
   */
  function CardImage(bindings: seq<(string, BindingValue)>, parse: Parser, ratioCmp: VariantCmp): (r: seq<MediaItem>)
    ensures |r| <= 1
    ensures r != [] ==> r[0].mediaType == "photo" && |r[0].variants| == 1
  {
    if bindings == [] then []
    else if bindings[0].1.imageValue.Some? then [MediaItem("photo", [ImageVariant(bindings[0].1.imageValue.value)])]
    else if UnifiedContribution(bindings[0], parse, ratioCmp) != [] then []
    else CardImage(bindings[1..], parse, ratioCmp)
  }

  /** The carousel items of every binding, in binding order. */
  function AllUnified(bindings: seq<(string, BindingValue)>, parse: Parser, ratioCmp: VariantCmp): seq<MediaItem>
  {
    if bindings == [] then []
    else UnifiedContribution(bindings[0], parse, ratioCmp) + AllUnified(bindings[1..], parse, ratioCmp)
  }

  /** The collecting loop produces the image item (if it is still first) followed by every carousel item. */
  lemma {:induction false} CollectClosedForm(bindings: seq<(string, BindingValue)>, items: seq<MediaItem>, parse: Parser, ratioCmp: VariantCmp)
    ensures CollectCardItems(bindings, items, parse, ratioCmp)
      == (if items == [] then CardImage(bindings, parse, ratioCmp) else items) + AllUnified(bindings, parse, ratioCmp)
  {
    if bindings != [] {
      var rest := bindings[1..];
      var u := UnifiedContribution(bindings[0], parse, ratioCmp);
      var w := WithImage(bindings[0].1, items);
      var tail := AllUnified(rest, parse, ratioCmp);
      CollectClosedForm(rest, w + u, parse, ratioCmp);
      assert CollectCardItems(bindings, items, parse, ratioCmp) == CollectCardItems(rest, w + u, parse, ratioCmp);
      assert AllUnified(bindings, parse, ratioCmp) == u + tail;
      CardImageStep(bindings, items, parse, ratioCmp);
      var x := if w + u == [] then CardImage(rest, parse, ratioCmp) else w + u;
      assert CollectCardItems(bindings, items, parse, ratioCmp) == x + tail;
      if w + u == [] {
        assert u == [] && u + tail == tail;
      } else {
        AppendAssoc(w, u, tail);
      }
    }
  }

  /** How the first binding settles the image part: `items` then `u`, or the image search goes on. */
  lemma CardImageStep(bindings: seq<(string, BindingValue)>, items: seq<MediaItem>, parse: Parser, ratioCmp: VariantCmp)
    requires bindings != []
    ensures var w := WithImage(bindings[0].1, items);
      var u := UnifiedContribution(bindings[0], parse, ratioCmp);
      && (items != [] ==> w == items)
      && (items == [] && w + u != [] ==> w == CardImage(bindings, parse, ratioCmp))
      && (items == [] && w + u == [] ==> CardImage(bindings, parse, ratioCmp) == CardImage(bindings[1..], parse, ratioCmp))
  {
  }

  /** An item whose variants are already in the order its type sorts them into. */
  predicate Settled(item: MediaItem, ratioCmp: VariantCmp)
  {
    SortVariants(item.variants, item.mediaType, ratioCmp) == item.variants
  }

  predicate AllSettled(items: seq<MediaItem>, ratioCmp: VariantCmp)
  {
    forall i :: 0 <= i < |items| ==> Settled(items[i], ratioCmp)
  }

  lemma AllSettledAppend(a: seq<MediaItem>, b: seq<MediaItem>, ratioCmp: VariantCmp)
    requires AllSettled(a, ratioCmp) && AllSettled(b, ratioCmp)
    ensures AllSettled(a + b, ratioCmp)
  {
    forall i | 0 <= i < |a + b|
      ensures Settled((a + b)[i], ratioCmp)
    {
      if i < |a| {
        assert (a + b)[i] == a[i];
      } else {
        assert (a + b)[i] == b[i - |a|];
      }
    }
  }

  lemma {:induction false} ComponentItemsSettled(components: seq<(string, ComponentObject)>, entities: seq<(string, MediaDetails)>, ratioCmp: VariantCmp)
    ensures AllSettled(ComponentItems(components, entities, ratioCmp), ratioCmp)
  {
    if components != [] {
      ComponentItemsSettled(components[1..], entities, ratioCmp);
      var c := components[0].1;
      var head: seq<MediaItem> := [];
      if NamesEntity(c, entities) {
        var e := Lookup(entities, c.dataId.value).value;
        ExtractVariantsSettled(e, ratioCmp);
        head := [MediaItem(e.mediaType, ExtractVariants(e, ratioCmp))];
      }
      assert ComponentItems(components, entities, ratioCmp) == head + ComponentItems(components[1..], entities, ratioCmp);
      AllSettledAppend(head, ComponentItems(components[1..], entities, ratioCmp), ratioCmp);
    }
  }

  lemma {:induction false} AllUnifiedSettled(bindings: seq<(string, BindingValue)>, parse: Parser, ratioCmp: VariantCmp)
    ensures AllSettled(AllUnified(bindings, parse, ratioCmp), ratioCmp)
  {
    if bindings != [] {
      AllUnifiedSettled(bindings[1..], parse, ratioCmp);
      var (key, value) := bindings[0];
      if key == "unified_card" && value.stringValue.Some? && value.stringValue.value != "" {
        var parsed := parse(value.stringValue.value);
        if parsed.Some? {
          ComponentItemsSettled(parsed.value.componentObjects.GetOr([]), parsed.value.mediaEntities.GetOr([]), ratioCmp);
        }
      }
      AllSettledAppend(UnifiedContribution(bindings[0], parse, ratioCmp), AllUnified(bindings[1..], parse, ratioCmp), ratioCmp);
    }
  }

  /** The final re-sort of `extractCardMedia` changes nothing. */
  lemma CardItemsSettled(bindings: seq<(string, BindingValue)>, parse: Parser, ratioCmp: VariantCmp)
    ensures AllSettled(CardImage(bindings, parse, ratioCmp) + AllUnified(bindings, parse, ratioCmp), ratioCmp)
  {
    var img := CardImage(bindings, parse, ratioCmp);
    AllUnifiedSettled(bindings, parse, ratioCmp);
    if img != [] {
      ShortListsUnsorted(img[0].variants, ratioCmp);
    }
    AllSettledAppend(img, AllUnified(bindings, parse, ratioCmp), ratioCmp);
  }

  /**
   * The carousel of a parsed unified card: one item per component object that
   * is a 'media' component with a non-empty id present among the media entities,
   * in component order, carrying that entity's type and variants.
   */
  lemma {:induction false} ComponentItemsSpec(components: seq<(string, ComponentObject)>, entities: seq<(string, MediaDetails)>, ratioCmp: VariantCmp)
    ensures var named := Filter(components, (p: (string, ComponentObject)) => NamesEntity(p.1, entities));
      && |ComponentItems(components, entities, ratioCmp)| == |named|
      && forall i :: 0 <= i < |named| ==>
           var e := Lookup(entities, named[i].1.dataId.value).value;
           ComponentItems(components, entities, ratioCmp)[i] == MediaItem(e.mediaType, ExtractVariants(e, ratioCmp))
  {
    if components != [] {
      var rest := components[1..];
      ComponentItemsSpec(rest, entities, ratioCmp);
      var named := Filter(components, (p: (string, ComponentObject)) => NamesEntity(p.1, entities));
      var namedRest := Filter(rest, (p: (string, ComponentObject)) => NamesEntity(p.1, entities));
      FilterHead(components, (p: (string, ComponentObject)) => NamesEntity(p.1, entities));
      var r := ComponentItems(components, entities, ratioCmp);
      var rRest := ComponentItems(rest, entities, ratioCmp);
      if NamesEntity(components[0].1, entities) {
        assert named == [components[0]] + namedRest;
        assert r == [r[0]] + rRest;
        forall i | 0 < i < |named|
          ensures r[i] == rRest[i - 1] && named[i] == namedRest[i - 1]
        {
        }
      } else {
        assert named == namedRest;
        assert r == rRest;
      }
    }
  }

  /** A `unified_card` whose JSON does not parse contributes nothing. */
  lemma ParseFailureContributesNothing(binding: (string, BindingValue), parse: Parser, ratioCmp: VariantCmp)
    requires binding.1.stringValue.Some? && parse(binding.1.stringValue.value).None?
    ensures UnifiedContribution(binding, parse, ratioCmp) == []
  {
  }

  /** Only the first image binding can matter, and only if nothing was collected before it. */
  lemma {:induction false} LaterImagesDropped(bindings: seq<(string, BindingValue)>, parse: Parser, ratioCmp: VariantCmp, k: nat)
    requires k < |bindings| && bindings[k].1.imageValue.Some?
    requires forall j :: 0 <= j < k ==> bindings[j].1.imageValue.None? && UnifiedContribution(bindings[j], parse, ratioCmp) == []
    ensures CardImage(bindings, parse, ratioCmp) == [MediaItem("photo", [ImageVariant(bindings[k].1.imageValue.value)])]
  {
    if k > 0 {
      LaterImagesDropped(bindings[1..], parse, ratioCmp, k - 1);
    }
  }

  /** Once a binding has contributed carousel items, no image binding after it produces anything. */
  lemma {:induction false} NoImageAfterCarousel(bindings: seq<(string, BindingValue)>, parse: Parser, ratioCmp: VariantCmp, k: nat)
    requires k < |bindings| && UnifiedContribution(bindings[k], parse, ratioCmp) != []
    requires forall j :: 0 <= j <= k ==> bindings[j].1.imageValue.None?
    ensures CardImage(bindings, parse, ratioCmp) == []
  {
    if k > 0 && UnifiedContribution(bindings[0], parse, ratioCmp) == [] {
      NoImageAfterCarousel(bindings[1..], parse, ratioCmp, k - 1);
    }
  }

  // ---------------------------------------------------------------- extractAndFormatMedia

  function DetailsItems(details: seq<MediaDetails>, ratioCmp: VariantCmp): seq<MediaItem>
  {
    seq(|details|, i requires 0 <= i < |details| => MediaItem(details[i].mediaType, ExtractVariants(details[i], ratioCmp)))
  }

  /** `t?.mediaDetails?.forEach(...)`. */
  function OwnMedia(t: Option<Tweet>, ratioCmp: VariantCmp): seq<MediaItem>
  {
    if t.Some? && t.value.mediaDetails.Some? then DetailsItems(t.value.mediaDetails.value, ratioCmp) else []
  }

  /** `if (t?.card) ... extractCardMedia(t.card)`. */
  function CardMedia(t: Option<Tweet>, parse: Parser, ratioCmp: VariantCmp): seq<MediaItem>
  {
    if t.Some? && t.value.card.Some? then ExtractCardMedia(t.value.card.value, parse, ratioCmp) else []
  }

  function DetailsCount(t: Option<Tweet>): nat
  {
    if t.Some? && t.value.mediaDetails.Some? then |t.value.mediaDetails.value| else 0
  }

  /** The `mediaDetails` entry `i` of an optional tweet, with the tweet known to have it. */
  predicate ItemFromDetails(item: MediaItem, t: Option<Tweet>, i: nat, ratioCmp: VariantCmp)
  {
    t.Some? && t.value.mediaDetails.Some? && i < |t.value.mediaDetails.value|
    && item.mediaType == t.value.mediaDetails.value[i].mediaType
    && item.variants == ExtractVariants(t.value.mediaDetails.value[i], ratioCmp)
  }

  /** Each `mediaDetails` entry of `t` becomes one item with the entry's type and variants. */
  lemma OwnMediaSpec(t: Option<Tweet>, ratioCmp: VariantCmp)
    ensures |OwnMedia(t, ratioCmp)| == DetailsCount(t)
    ensures forall i :: 0 <= i < |OwnMedia(t, ratioCmp)| ==> ItemFromDetails(OwnMedia(t, ratioCmp)[i], t, i, ratioCmp)
  {
  }

  /**
   * `extractAndFormatMedia`: own, quoted and parent media, then own, quoted and
   * parent card media, with nothing merged or removed.
   */
  function ExtractAndFormatMedia(tweet: Tweet, parse: Parser, ratioCmp: VariantCmp): (r: seq<MediaItem>)
    ensures InSixParts(r,
      OwnMedia(Some(tweet), ratioCmp), OwnMedia(tweet.quotedTweet, ratioCmp), OwnMedia(tweet.parent, ratioCmp),
      CardMedia(Some(tweet), parse, ratioCmp), CardMedia(tweet.quotedTweet, parse, ratioCmp), CardMedia(tweet.parent, parse, ratioCmp))
  {
    OwnMediaSpec(Some(tweet), ratioCmp);
    OwnMediaSpec(tweet.quotedTweet, ratioCmp);
    OwnMediaSpec(tweet.parent, ratioCmp);
    var own, quoted, parent := OwnMedia(Some(tweet), ratioCmp), OwnMedia(tweet.quotedTweet, ratioCmp), OwnMedia(tweet.parent, ratioCmp);
    var ownCard, quotedCard, parentCard :=
      CardMedia(Some(tweet), parse, ratioCmp), CardMedia(tweet.quotedTweet, parse, ratioCmp), CardMedia(tweet.parent, parse, ratioCmp);
    SixParts(own, quoted, parent, ownCard, quotedCard, parentCard);
    own + quoted + parent + ownCard + quotedCard + parentCard
  }

  // ---------------------------------------------------------------- the photo comparator is irrelevant

  predicate PhotosAreSingletons(items: seq<MediaItem>)
  {
    forall i :: 0 <= i < |items| && items[i].mediaType == "photo" ==> |items[i].variants| == 1
  }

  lemma {:induction false} ComponentItemsIgnoreRatio(components: seq<(string, ComponentObject)>, entities: seq<(string, MediaDetails)>, c1: VariantCmp, c2: VariantCmp)
    ensures ComponentItems(components, entities, c1) == ComponentItems(components, entities, c2)
  {
    if components != [] {
      ComponentItemsIgnoreRatio(components[1..], entities, c1, c2);
      var c := components[0].1;
      if NamesEntity(c, entities) {
        ExtractVariantsIgnoresRatio(Lookup(entities, c.dataId.value).value, c1, c2);
      }
    }
  }

  lemma {:induction false} ComponentPhotosAreSingletons(components: seq<(string, ComponentObject)>, entities: seq<(string, MediaDetails)>, ratioCmp: VariantCmp)
    ensures PhotosAreSingletons(ComponentItems(components, entities, ratioCmp))
  {
    if components != [] {
      ComponentPhotosAreSingletons(components[1..], entities, ratioCmp);
      var c := components[0].1;
      var head :=
        if NamesEntity(c, entities) then
          var e := Lookup(entities, c.dataId.value).value;
          [MediaItem(e.mediaType, ExtractVariants(e, ratioCmp))]
        else [];
      assert PhotosAreSingletons(head);
      SingletonsAppend(head, ComponentItems(components[1..], entities, ratioCmp));
    }
  }

  lemma {:induction false} UnifiedIgnoresRatio(bindings: seq<(string, BindingValue)>, parse: Parser, c1: VariantCmp, c2: VariantCmp)
    ensures AllUnified(bindings, parse, c1) == AllUnified(bindings, parse, c2)
    ensures CardImage(bindings, parse, c1) == CardImage(bindings, parse, c2)
    ensures PhotosAreSingletons(AllUnified(bindings, parse, c1))
  {
    if bindings != [] {
      UnifiedIgnoresRatio(bindings[1..], parse, c1, c2);
      var (key, value) := bindings[0];
      var u := UnifiedContribution(bindings[0], parse, c1);
      if key == "unified_card" && value.stringValue.Some? && value.stringValue.value != "" {
        var parsed := parse(value.stringValue.value);
        if parsed.Some? {
          ComponentItemsIgnoreRatio(parsed.value.componentObjects.GetOr([]), parsed.value.mediaEntities.GetOr([]), c1, c2);
          ComponentPhotosAreSingletons(parsed.value.componentObjects.GetOr([]), parsed.value.mediaEntities.GetOr([]), c1);
        }
      }
      SingletonsAppend(u, AllUnified(bindings[1..], parse, c1));
    }
  }

  lemma CardMediaIgnoresRatio(t: Option<Tweet>, parse: Parser, c1: VariantCmp, c2: VariantCmp)
    ensures CardMedia(t, parse, c1) == CardMedia(t, parse, c2)
    ensures PhotosAreSingletons(CardMedia(t, parse, c1))
  {
    if t.Some? && t.value.card.Some? {
      var b := t.value.card.value.bindingValues;
      UnifiedIgnoresRatio(b, parse, c1, c2);
      SingletonsAppend(CardImage(b, parse, c1), AllUnified(b, parse, c1));
    }
  }

  lemma OwnMediaIgnoresRatio(t: Option<Tweet>, c1: VariantCmp, c2: VariantCmp)
    ensures OwnMedia(t, c1) == OwnMedia(t, c2)
    ensures PhotosAreSingletons(OwnMedia(t, c1))
  {
    if t.Some? && t.value.mediaDetails.Some? {
      var ds := t.value.mediaDetails.value;
      forall i | 0 <= i < |ds|
        ensures ExtractVariants(ds[i], c1) == ExtractVariants(ds[i], c2)
      {
        ExtractVariantsIgnoresRatio(ds[i], c1, c2);
      }
    }
  }

  lemma SingletonsAppend(a: seq<MediaItem>, b: seq<MediaItem>)
    requires PhotosAreSingletons(a) && PhotosAreSingletons(b)
    ensures PhotosAreSingletons(a + b)
  {
    forall i | 0 <= i < |a + b| && (a + b)[i].mediaType == "photo"
      ensures |(a + b)[i].variants| == 1
    {
      if i >= |a| {
        assert (a + b)[i] == b[i - |a|];
      }
    }
  }

  /**
   * Every photo item of the output has exactly one variant, so the aspect-ratio
   * comparator only ever sorts one-element lists and the output is the same
   * whatever it is.
   */
  lemma ExtractAndFormatMediaIgnoresRatio(tweet: Tweet, parse: Parser, c1: VariantCmp, c2: VariantCmp)
    ensures ExtractAndFormatMedia(tweet, parse, c1) == ExtractAndFormatMedia(tweet, parse, c2)
    ensures PhotosAreSingletons(ExtractAndFormatMedia(tweet, parse, c1))
  {
    OwnMediaIgnoresRatio(Some(tweet), c1, c2);
    OwnMediaIgnoresRatio(tweet.quotedTweet, c1, c2);
    OwnMediaIgnoresRatio(tweet.parent, c1, c2);
    CardMediaIgnoresRatio(Some(tweet), parse, c1, c2);
    CardMediaIgnoresRatio(tweet.quotedTweet, parse, c1, c2);
    CardMediaIgnoresRatio(tweet.parent, parse, c1, c2);
    var a := OwnMedia(Some(tweet), c1);
    var b := OwnMedia(tweet.quotedTweet, c1);
    var c := OwnMedia(tweet.parent, c1);
    var d := CardMedia(Some(tweet), parse, c1);
    var e := CardMedia(tweet.quotedTweet, parse, c1);
    var f := CardMedia(tweet.parent, parse, c1);
    SingletonsAppend(a, b);
    SingletonsAppend(a + b, c);
    SingletonsAppend(a + b + c, d);
    SingletonsAppend(a + b + c + d, e);
    SingletonsAppend(a + b + c + d + e, f);
  }
}

=== FILE: url_keys.dfy ===
/**
 * `urlToFilePath` (src/lib/m3u8/urls.ts): the storage key of a fetched
 * resource, built from the origin and the pathname of its absolute URL. The
 * WHATWG URL parser is not modelled; the components it would produce are the
 * input, and a string it rejects (a relative reference, say) has no key.
 */
module UrlKeys {
  import opened Base

  /** What `new URL(s)` exposes of a parsed absolute URL. */
  datatype UrlParts = UrlParts(href: string, origin: string, pathname: string, search: string, hash: string)

  /** The characters `[a-zA-Z0-9\-_\.\/]` the path keeps. */
  predicate PathChar(c: char)
  {
    ('a' <= c <= 'z') || ('A' <= c <= 'Z') || ('0' <= c <= '9') || c == '-' || c == '_' || c == '.' || c == '/'
  }

  /** `origin.replace(/[:\/]/g, '_')`. */
  function SanitizeOrigin(origin: string): (r: string)
    ensures |r| == |origin|
    ensures ':' !in r && '/' !in r
  {
    seq(|origin|, i requires 0 <= i < |origin| => if origin[i] == ':' || origin[i] == '/' then '_' else origin[i])
  }

  /** `pathname.replace(/[^a-zA-Z0-9\-_\.\/]/g, '_')`. */
  function SanitizePath(path: string): (r: string)
    ensures |r| == |path|
    ensures forall i :: 0 <= i < |r| ==> PathChar(r[i])
  {
    seq(|path|, i requires 0 <= i < |path| => if PathChar(path[i]) then path[i] else '_')
  }

  function KeyOf(url: UrlParts): string
  {
    SanitizeOrigin(url.origin) + SanitizePath(url.pathname)
  }

  /** `urlToFilePath(s)`; `None` where `new URL(s)` throws. */
  function UrlToFilePath(parseUrl: string -> Option<UrlParts>, s: string): (r: Option<string>)
    ensures r.Some? <==> parseUrl(s).Some?
    ensures r.Some? ==> r.value == KeyOf(parseUrl(s).value)
  {
    match parseUrl(s)
    case None => None
    case Some(url) => Some(KeyOf(url))
  }

  // ---------------------------------------------------------------- properties

  /** The key is the origin and the path, each rewritten character for character. */
  lemma KeyShape(url: UrlParts)
    ensures |KeyOf(url)| == |url.origin| + |url.pathname|
    ensures KeyOf(url)[..|url.origin|] == SanitizeOrigin(url.origin)
    ensures ':' !in KeyOf(url)[..|url.origin|] && '/' !in KeyOf(url)[..|url.origin|]
    ensures forall i :: |url.origin| <= i < |KeyOf(url)| ==> PathChar(KeyOf(url)[i])
  {
    var k := KeyOf(url);
    assert k[..|url.origin|] == SanitizeOrigin(url.origin);
    forall i | |url.origin| <= i < |k|
      ensures PathChar(k[i])
    {
      assert k[i] == SanitizePath(url.pathname)[i - |url.origin|];
    }
  }

  /** Allowed characters are kept and every other one becomes '_'. */
  lemma SanitizePathPointwise(path: string, i: nat)
    requires i < |path|
    ensures PathChar(path[i]) ==> SanitizePath(path)[i] == path[i]
    ensures !PathChar(path[i]) ==> SanitizePath(path)[i] == '_'
  {
  }

  /** A path is left unchanged exactly when it already uses only allowed characters. */
  lemma SanitizePathFixpoint(path: string)
    ensures SanitizePath(path) == path <==> forall i :: 0 <= i < |path| ==> PathChar(path[i])
  {
    if SanitizePath(path) == path {
      forall i | 0 <= i < |path|
        ensures PathChar(path[i])
      {
        assert PathChar(SanitizePath(path)[i]);
      }
    }
  }

  /** Sanitising twice is sanitising once. */
  lemma SanitizePathIdempotent(path: string)
    ensures SanitizePath(SanitizePath(path)) == SanitizePath(path)
  {
    SanitizePathFixpoint(SanitizePath(path));
  }

  lemma SanitizeOriginIdempotent(origin: string)
    ensures SanitizeOrigin(SanitizeOrigin(origin)) == SanitizeOrigin(origin)
  {
  }

  /** Only origin and pathname matter: the query string and the fragment never reach the key. */
  lemma KeyIgnoresQueryAndFragment(url: UrlParts, search: string, hash: string, href: string)
    ensures KeyOf(url.(search := search, hash := hash, href := href)) == KeyOf(url)
  {
  }

  /**
   * Different paths can share a key: a '~', which the URL parser leaves in a
   * pathname as it is, and an underscore both end up as '_'.
   */
  lemma KeysCollide(origin: string)
    ensures KeyOf(UrlParts("", origin, "/a~b.ts", "", "")) == KeyOf(UrlParts("", origin, "/a_b.ts", "", ""))
  {
    assert SanitizePath("/a~b.ts") == "/a_b.ts";
    assert SanitizePath("/a_b.ts") == "/a_b.ts";
  }
}
